=== FILE: README.md ===
# Log analysis and root-cause decision pipeline, in Dafny

This project models the pure core of a Laravel incident-analysis service.
The service reads application log lines, turns each into a
`{timestamp, severity, message}` record, and preprocesses the records. It then
asks a language model (or two fallback rules) for probable causes. Finally a
decision engine ranks the causes and writes a root-cause analysis (RCA).

The model covers these parts:

- **Line parsers.** The importer's six-format cascade, the reader's
  three-format cascade, and the controller's five-format debug cascade. Each
  is built on hand-written matchers for the PCRE patterns they use. The
  matchers use leftmost-start search, with greedy and lazy groups as written.
  Each matcher has a soundness contract (what a match looks like). A
  completeness lemma proves that wherever the pattern fits, the matcher finds
  a match there, or earlier, with the group ends that PCRE's greedy or lazy
  choice gives.
- **Severity inference.** The importer and the controller share one keyword
  priority. The preprocessor uses another. A lemma gives exactly the inputs on
  which the two disagree.
- **The preprocessor.** It marks duplicates by exact message and infers
  severity. It groups records into ten-minute windows keyed by the
  `Y-m-d H:i` rendering with its last digit replaced by `0`. It then
  summarises the records.
- **The AI service.** This covers the fallback rules, the numbered message
  list of the prompt, the `{…}` span extraction, and the routing that picks
  between the model's answer and the fallback.
- **The decision engine.** This covers the correlation boost, ranking (a
  stable sort), the default cause, next steps and correlated signals. It also
  covers the full RCA: timeline, impact, five whys, contributing factors,
  immediate actions, prevention steps and lessons learned.

Some things the model does not compute itself. They appear as parameters:

- the clock (`now`);
- Carbon's date parser;
- `json_decode`;
- the reply of the HTTP call to the model;
- file contents.

A Dafny `string` stands for a PHP byte string: one `char` per byte. `strlen`
and `substr` are lengths and slices. `strtolower` lower-cases ASCII letters
only.

Modules:

| module | file |
|---|---|
| `Options`, `Strings`, `Seqs` | `options.dfy`, `strings.dfy`, `seqs.dfy` (PHP built-ins: `trim`, `strtolower`, `str_contains`, `explode`, `implode`, `array_unique`) |
| `Records` | `records.dfy` (metrics, causes, messages) |
| `Patterns` | `patterns.dfy` (the regex matchers) |
| `PatternLemmas` | `pattern_lemmas.dfy` (completeness of the matchers) |
| `Severity` | `severity.dfy` (keyword inference) |
| `Clock` | `clock.dfy` (window keys) |
| `Grouping`, `Preprocessor` | `grouping.dfy`, `preprocessor.dfy` |
| `Importer`, `Reader`, `Controller` | `importer.dfy`, `reader.dfy`, `controller.dfy` |
| `Analysis` | `ai_analysis.dfy` |
| `Decision` | `decision.dfy` |

Three behaviours of the code worth noting:

- Lessons learned are not deduplicated. They need not be, because the
  lessons are proved distinct.
- `unique_messages` lists the non-duplicate messages in window order, which
  is not first-seen order. The model proves that it holds exactly the
  distinct messages, each once.
- The window key is the true floor of the minute to a multiple of ten.

## Model

| member | source | states |
|---|---|---|
| Severity.FromMessage | app/Services/LogPreprocessor.php:61-78 | error iff the lower-cased text says error/failed/exception; warning iff not that and it says warning/warn; critical iff neither and it says critical/fatal; info otherwise |
| Severity.FromLine | app/Services/LogFileImporter.php:151-172 | critical iff the text says critical/fatal; error iff not that and it says error/exception; warning iff neither and it says warning/warn; info otherwise (the info/notice test returns the default anyway) |
| Severity.OrdersDisagree | app/Services/LogPreprocessor.php:65-75 | "critical error" is critical for the importer and error for the preprocessor |
| Severity.OrdersDisagreeExactly | app/Services/LogPreprocessor.php:65-75 | the two inferrers differ exactly when the text says critical/fatal together with a failure or warning word, or says "failed" with no critical or error word |
| Clock.Format | app/Services/LogPreprocessor.php:85 | `Y-m-d H:i` is 16 bytes and ends with the two minute digits |
| Clock.WindowKey | app/Services/LogPreprocessor.php:85-86 | the key is 16 bytes |
| Clock.WindowKeyIsFloor | app/Services/LogPreprocessor.php:85-86 | replacing the last byte by `0` gives the rendering of the same instant with the minute floored to a multiple of ten |
| Clock.SameWindow | app/Services/LogPreprocessor.php:85-88 | two instants share a key iff they have the same date, hour and ten-minute slot |
| Preprocessor.TimeOf | app/Services/LogPreprocessor.php:48-59 | no timestamp gives `now`; a Carbon value is kept; a string goes through the parser, and `now` replaces a parse failure |
| Preprocessor.Normalise | app/Services/LogPreprocessor.php:17-41 | the record keeps the message (default ""), gets the parsed time and the preprocessor's severity, `raw` defaults to the message, and carries the duplicate flag it is given |
| Preprocessor.EntriesAt | app/Services/LogPreprocessor.php:28-33 | record k is input k normalised, and it is marked duplicate iff an earlier input has the same message |
| Preprocessor.MarkDuplicates | app/Services/LogPreprocessor.php:14-42 | the loop with its `seen` set yields exactly those records |
| Preprocessor.FreshMessagesAreDedup | app/Services/LogPreprocessor.php:28-33 | the messages of the records not marked duplicate, in input order, are the distinct input messages in first-occurrence order |
| Preprocessor.GroupByTimeWindow | app/Services/LogPreprocessor.php:80-100 | windows are the distinct keys in first-appearance order; the count is their number; the logs equal the bucket-by-bucket reference `Regroup`, are a permutation of the input, and keep input order within each window |
| Preprocessor.Process | app/Services/LogPreprocessor.php:12-46 | the same facts, stated for the normalised records of the raw input |
| Preprocessor.Breakdown | app/Services/LogPreprocessor.php:109-119 | the four counters add up to the number of records |
| Preprocessor.BreakdownCounts | app/Services/LogPreprocessor.php:118-119 | each counter is the number of records with that severity |
| Preprocessor.GetSummary | app/Services/LogPreprocessor.php:105-133 | total is the number of logs, the breakdown is their severity count, the unique messages are those of non-duplicates in order, the windows are passed through |
| Preprocessor.Summarise | app/Services/LogPreprocessor.php:118-131 | over the whole pipeline: total equals the number of inputs; the breakdown counts the records; the unique messages are a permutation of the distinct input messages, each once, and contain exactly the input messages |
| Grouping.Add | app/Services/LogPreprocessor.php:88-92 | one loop step keeps the keys in first-appearance order and each bucket equal to that key's records so far |
| Grouping.GroupBy | app/Services/LogPreprocessor.php:84-97 | keys are the distinct keys in first-appearance order; the result equals the reference `Regroup`, is a permutation of the input, and has each key's records in input order |
| Analysis.FallbackCauses | app/Services/AIAnalysisService.php:162-182 | the database cause (0.75) is present iff latency > 300 and errors > 0; the CPU cause (0.65) iff CPU > 80; at most two, database first, no next steps of their own |
| Analysis.FallbackAnalysis | app/Services/AIAnalysisService.php:160-189 | those causes, with the three fixed next steps and the one correlation whichever rules fire; never an empty array |
| Analysis.NumberedLines | app/Services/AIAnalysisService.php:93 | line i is "i+1. " followed by message i |
| Analysis.FormatMessages | app/Services/AIAnalysisService.php:91-94 | the text is empty iff there are no messages |
| Analysis.FormatMessagesRoundTrip | app/Services/AIAnalysisService.php:91-94 | for newline-free messages, splitting the text on "\n" gives back the numbered lines, and cutting each number prefix gives back the message |
| Analysis.BraceSpan | app/Services/AIAnalysisService.php:147 | a span exists iff some `{` precedes some `}`; it runs from the first `{` to the last `}` |
| Analysis.ExtractJson | app/Services/AIAnalysisService.php:144-155 | a result only from decoding the span, and one whenever the span decodes |
| Analysis.ParseResponse | app/Services/AIAnalysisService.php:132-142 | succeeds iff the extraction succeeds with a non-empty array, and then returns it |
| Analysis.Analyze | app/Services/AIAnalysisService.php:24-46 | the fallback without a key, on any failed call, and without a brace span; otherwise the decoded answer when it is a non-empty array, else the fallback; never empty |
| Analysis.AnalyzeAsWritten | app/Services/AIAnalysisService.php:34-45 | a `TypeError` escapes iff a key is set and the reply's content is `null` or an array; otherwise the same result as `Analyze` |
| Analysis.NullContentEscapes | app/Services/AIAnalysisService.php:113 | with a key and a `null` content the request fails, where the intended analysis falls back |
| Decision.CorrelationBoost | app/Services/DecisionEngine.php:377-420 | the sum of the four keyword-group bonuses, each counted only when its keywords appear, and between 0 and 0.6 |
| Decision.EnhanceCause | app/Services/DecisionEngine.php:364-375 | confidence becomes min(0.99, c + boost), so at most 0.99 and not lower when c ≤ 0.99; the boost is recorded; nothing else changes |
| Decision.EnhanceAll | app/Services/DecisionEngine.php:16-18 | each cause enhanced in place |
| Decision.Insert | app/Services/DecisionEngine.php:21 | inserting adds exactly that cause to the multiset |
| Decision.InsertSorted | app/Services/DecisionEngine.php:21 | inserting into a list sorted by descending confidence keeps it sorted |
| Decision.Rank | app/Services/DecisionEngine.php:21 | a permutation sorted by descending confidence |
| Decision.RankIsStable | app/Services/DecisionEngine.php:21 | causes of equal confidence keep their input order, as PHP 8's stable `usort` does |
| Decision.NextSteps | app/Services/DecisionEngine.php:464-487 | exactly the cause's own steps, deduplicated, followed by the fixed steps of its keywords (database, CPU, memory, in that order) that the cause did not already bring; no duplicates; without own steps the result is the keyword blocks |
| Decision.NextStepsMembership | app/Services/DecisionEngine.php:466-486 | a step is present iff it is one of the cause's own or belongs to a block whose keyword the cause says |
| Decision.CorrelatedSignals | app/Services/DecisionEngine.php:422-462 | at most three; the latency signal iff latency > 300 and errors > 0, the load signal iff CPU > 75 and rps > 500, the sustained signal iff more than 3 windows; no other signal; only the latency signal is strong; each signal carries the figures it was judged on (latency and error count; CPU and request rate; window count) |
| Decision.CorrelatedSignalsInOrder | app/Services/DecisionEngine.php:426-459 | the signals appear in the source's fixed order |
| Decision.BuildTimeline | app/Services/DecisionEngine.php:71-83 | detected at `now`, started `5 × windows` minutes earlier, that duration, the window count, status "analyzed" |
| Decision.ImpactSeverityOf | app/Services/DecisionEngine.php:93-101 | CRITICAL iff critical > 0, HIGH iff not and errors > 10, MEDIUM iff 0 < errors ≤ 10, LOW iff no errors |
| Decision.BusinessImpactIsAlwaysAssessed | app/Services/DecisionEngine.php:353-362 | the `default` arm is never reached, and the four severities get four different texts |
| Decision.ErrorRate | app/Services/DecisionEngine.php:104 | errors × 100 / max(1, total); between 0 and 100 when errors ≤ total |
| Decision.Round | app/Services/DecisionEngine.php:105 | the nearest integer, halves away from zero |
| Decision.RoundCents | app/Services/DecisionEngine.php:111 | within half a hundredth of the value |
| Decision.HealthStatus | app/Services/DecisionEngine.php:335-348 | Critical iff value ≥ critical, Warning iff below that and ≥ warning, Healthy otherwise, whatever `inverse` is |
| Decision.AssessImpact | app/Services/DecisionEngine.php:88-120 | errors + criticals, the severity ladder, the rate rounded to cents, the affected requests, the business text, and the three health states with the source's thresholds |
| Decision.NoErrorsNoImpact | app/Services/DecisionEngine.php:90-111 | with no errors: LOW, a 0 rate and no affected requests |
| Decision.ErrorRateIsPercentage | app/Services/DecisionEngine.php:104 | when the counters add up to the total, the rate is a percentage |
| Decision.WhyThemeOf | app/Services/DecisionEngine.php:131-161 | database/connection first, then cpu/resource, then memory/oom, else generic, as an iff per theme |
| Decision.Chain | app/Services/DecisionEngine.php:132-168 | five question/answer pairs in order |
| Decision.FiveWhys | app/Services/DecisionEngine.php:125-172 | exactly five entries; the themed answers quote the latency, traffic, CPU or memory figure, or the cause and its reasoning |
| Decision.FactorsInOrder | app/Services/DecisionEngine.php:179-216 | the collected factors are the eight conditional factors whose condition holds, in the order the source tests them |
| Decision.FactorsPresent | app/Services/DecisionEngine.php:179-216 | each factor is collected iff its threshold or keyword condition holds |
| Decision.ContributingFactors | app/Services/DecisionEngine.php:177-217 | exactly the factors whose threshold or keyword condition holds, each quoting its figure, in source order (traffic, CPU, memory, latency, critical errors, windows, pool, timeout); each present iff its condition holds; no factor twice |
| Decision.ImmediateBlocks | app/Services/DecisionEngine.php:227-246 | the collected actions are the database, CPU and memory groups in that order, each whole exactly when its condition holds, with no action twice |
| Decision.ImmediateActions | app/Services/DecisionEngine.php:222-257 | never empty and no duplicates; every action of a group is present iff that group's keyword-or-threshold condition holds; without the generic steps, the list is the flagged groups in source order; the generic steps iff no group fires, and then only those |
| Decision.PreventionSteps | app/Services/DecisionEngine.php:262-297 | the blocks whose keywords match, then the four general steps; no duplicates, so `array_unique` removes nothing |
| Decision.LessonsInOrder | app/Services/DecisionEngine.php:305-329 | the collected lessons are the configuration, monitoring and resource pairs whose condition holds, in that order, then the two testing lessons |
| Decision.LessonsLearned | app/Services/DecisionEngine.php:302-330 | exactly the configuration pair iff connection/pool, the monitoring pair (quoting five minutes per window) iff more than 2 windows, the resource pair iff CPU or memory > 80, in that order, then the two testing lessons; no duplicates |
| Decision.LessonQuotesTimeline | app/Services/DecisionEngine.php:310-316 | the persisted-issue lesson appears iff more than 2 windows, and quotes the timeline's duration |
| Decision.BuildRca | app/Services/DecisionEngine.php:44-66 | root cause, confidence and evidence of the top cause; the timeline at `now`, the impact, the five whys, the contributing factors, the immediate actions, the prevention steps and the lessons are each what its own step builds for the top cause; duplicate-free actions, prevention steps and lessons |
| Decision.Choose | app/Services/DecisionEngine.php:13-24 | the ranked list is a sorted permutation of the enhanced causes; the top is its head and the most confident (≤ 0.99), or the default cause when there are none |
| Decision.ChooseTakesTheMostConfident | app/Services/DecisionEngine.php:16-24 | every input cause, enhanced, is ranked and no more confident than the top |
| Decision.Decide | app/Services/DecisionEngine.php:11-39 | a sorted permutation of the enhanced causes; likely cause, confidence and reasoning from its head, or the default when empty; the RCA agrees; next steps, correlated signals and the RCA are those built for the head cause (or the default); next steps without duplicates; the suggestions passed through |
| Decision.DecideTakesTheMostConfident | app/Services/DecisionEngine.php:13-32 | every proposed cause is among `all_causes`, and none beats the chosen confidence |
| Patterns.FirstMatch | app/Services/LogFileImporter.php:90 | `preg_match`'s leftmost search: the first offset where the pattern fits, and none before it |
| Patterns.BracketLevelAt | app/Services/LogFileImporter.php:90 | a match is `[`, timestamp bytes, `]`, spaces, `word.`, the level word, `:`, spaces, and the rest of the text |
| Patterns.BracketLevel | app/Services/LogFileImporter.php:90 | a match at the leftmost offset where one fits; none if it fits nowhere |
| PatternLemmas.BracketLevelComplete | app/Services/LogFileImporter.php:90 | wherever format 1 fits, the matcher finds it, with the same timestamp and level groups |
| PatternLemmas.BracketLevelFindsLeftmost | app/Services/LogFileImporter.php:90 | wherever format 1 fits, the search finds a match there or earlier |
| Patterns.BracketStampAt | app/Services/LogFileImporter.php:99 | a match is a bracketed timestamp, spaces, and the rest |
| Patterns.BracketStamp | app/Services/LogFileImporter.php:99 | leftmost search for format 2 |
| PatternLemmas.BracketStampComplete | app/Services/LogFileImporter.php:99 | wherever format 2 fits, the matcher finds it with the same timestamp |
| PatternLemmas.BracketStampFindsLeftmost | app/Services/LogFileImporter.php:99 | wherever format 2 fits, the search finds a match there or earlier |
| PatternLemmas.NoBracketStampNoBracketLevel | app/Services/LogFileImporter.php:90-99 | a line without format 2 has no format 1 either |
| Patterns.LevelWordEnd | app/Services/LogFileImporter.php:108 | `(ERROR\|WARNING\|INFO\|CRITICAL\|DEBUG\|NOTICE)` under `/i`: where a caseless level word ends |
| Patterns.LevelWordName | app/Services/LogFileImporter.php:108-111 | a matched level word lower-cases to one of the six names |
| Patterns.PlainLevelAt | app/Services/LogFileImporter.php:108 | a match is timestamp bytes, spaces, a level word, `:`, spaces, the rest |
| Patterns.PlainLevel | app/Services/LogFileImporter.php:108 | leftmost search for format 3 |
| PatternLemmas.PlainLevelComplete | app/Services/LogFileImporter.php:108 | wherever format 3 fits, the matcher finds it with the same level word, and its greedy timestamp is at least as long |
| PatternLemmas.PlainLevelFindsLeftmost | app/Services/LogFileImporter.php:108 | wherever format 3 fits, the search finds a match there or earlier |
| Patterns.ApacheBracketAt | app/Services/LogFileImporter.php:117 | a match is `[`, one or more `[\d/\w:+\s]` bytes, `]` |
| Patterns.ApacheBracket | app/Services/LogFileImporter.php:117 | leftmost search for format 4 |
| PatternLemmas.ApacheBracketComplete | app/Services/LogFileImporter.php:117 | wherever format 4 fits, the matcher returns exactly that span |
| PatternLemmas.ApacheBracketFindsLeftmost | app/Services/LogFileImporter.php:117 | wherever format 4 fits, the search finds a match there or earlier |
| Patterns.TimestampPrefix | app/Services/LogFileImporter.php:126 | an anchored match: prefix bytes, spaces, the rest to the end |
| PatternLemmas.TimestampPrefixComplete | app/Services/LogFileImporter.php:126 | wherever format 5 fits, the matcher finds it, and its greedy timestamp is at least as long |
| Patterns.ReaderLaravelAt | app/Services/LogFileReader.php:74 | a match is `[`, newline-free bytes, `]`, spaces, `word.`, the level word, `:`, spaces, the rest of the line |
| Patterns.LazyClose | app/Services/LogFileReader.php:74 | the lazy `(.*?)\]` tries closing positions left to right without crossing a newline |
| PatternLemmas.LazyCloseComplete | app/Services/LogFileReader.php:74 | the lazy group closes no later than any `]` whose tail fits |
| PatternLemmas.ReaderLaravelComplete | app/Services/LogFileReader.php:74 | wherever the reader's Laravel pattern fits, the matcher finds it, closing at the first `]` that lets the rest match |
| Patterns.ReaderLaravel | app/Services/LogFileReader.php:74 | leftmost search for the reader's Laravel pattern |
| PatternLemmas.ReaderLaravelFindsLeftmost | app/Services/LogFileReader.php:74 | wherever it fits, the search finds a match there or earlier |
| Patterns.DateTimeAt | app/Services/LogFileReader.php:84 | a match is `dddd-dd-dd`, spaces, `dd:dd:dd` |
| PatternLemmas.DateTimeComplete | app/Services/LogFileReader.php:84 | wherever the date-time fits, the matcher finds it, ending at the same byte |
| Patterns.LazyWord | app/Services/LogFileReader.php:84 | the lazy `.*?` tries level-word positions left to right without crossing a newline |
| PatternLemmas.LazyWordComplete | app/Services/LogFileReader.php:84 | the lazy gap stops no later than any position where `(\w+):\s+` fits |
| Patterns.ReaderGenericAt | app/Services/LogFileReader.php:84 | a match is the date-time, a newline-free gap, a word, `:`, spaces, the rest of the line |
| Patterns.ReaderGeneric | app/Services/LogFileReader.php:84 | leftmost search for the reader's generic pattern |
| PatternLemmas.ReaderGenericComplete | app/Services/LogFileReader.php:84 | wherever it fits, the matcher finds it with the same date-time and the first level word after it |
| PatternLemmas.ReaderGenericFindsLeftmost | app/Services/LogFileReader.php:84 | wherever it fits, the search finds a match there or earlier |
| Importer.InferredKnown | app/Services/LogFileImporter.php:151-172 | the inferred severity is one of the four names, lower-case and non-empty |
| Importer.Captured | app/Services/LogFileImporter.php:90-113 | a captured record: timestamp = group 1, the given severity, message = the trimmed group |
| Importer.Uncaptured | app/Services/LogFileImporter.php:117-122 | the current time, the severity inferred from the whole line, the trimmed line |
| Importer.Laravel | app/Services/LogFileImporter.php:90-96 | present iff format 1 matches; timestamp = group 1, severity = lower-cased level group, message = trimmed rest |
| Importer.Bracketed | app/Services/LogFileImporter.php:99-105 | present iff format 2 matches; timestamp = group 1, severity inferred from the rest, message = trimmed rest |
| Importer.PlainWithLevel | app/Services/LogFileImporter.php:108-114 | present iff format 3 matches; timestamp = group 1, severity = lower-cased level word, message = trimmed rest |
| Importer.PlainLevelWordLower | app/Services/LogFileImporter.php:108-111 | format 3's severity is one of the six level names, so it can be "debug" or "notice" |
| Importer.LeadingStamp | app/Services/LogFileImporter.php:126-131 | format 5 counts only when its timestamp group is at least 10 bytes |
| Importer.Prefixed | app/Services/LogFileImporter.php:126-137 | present iff such a prefix exists; timestamp = the prefix (≥ 10 bytes), severity inferred from the rest, message = trimmed rest |
| Importer.ParseLogLine | app/Services/LogFileImporter.php:87-146 | total; the first matching format wins, with each branch's values; only format 1 yields a level outside the six names; the current-time branches keep the trimmed line and its inferred severity |
| Reader.Captured | app/Services/LogFileReader.php:74-91 | raw = the line, timestamp = group 1, severity = lower-cased group 2, message = group 3 untrimmed (no newline) |
| Reader.Laravel | app/Services/LogFileReader.php:74-81 | present iff the Laravel pattern matches, with the captured values of its leftmost match |
| Reader.Generic | app/Services/LogFileReader.php:84-91 | present iff the generic pattern matches; the timestamp is the matched date-time |
| Reader.GenericShapeFacts | app/Services/LogFileReader.php:84 | the generic date-time group is at least 19 bytes and starts with four digits |
| Reader.ParseLogLine | app/Services/LogFileReader.php:71-100 | never null; Laravel first, then generic, each with its captured values; otherwise current time, "info" and the line itself |
| Reader.ParsedPieces | app/Services/LogFileReader.php:71-91 | a captured record's timestamp and message occur in the line, and its severity is lower-case and non-empty |
| Reader.ReadLines | app/Services/LogFileReader.php:115-125 | every record comes from a trimmed, kept line, and is that line parsed |
| Reader.ReadLinesKeepsLines | app/Services/LogFileReader.php:115-125 | the records' raw lines are exactly the trimmed lines that are not PHP-empty, in order |
| Reader.ReadFromStorage | app/Services/LogFileReader.php:105-128 | an error iff the file is missing; otherwise the loop over `explode("\n", …)` |
| Reader.DropCr | app/Services/LogFileReader.php:55 | removes one trailing `\r` and nothing else |
| Reader.FileLines | app/Services/LogFileReader.php:55 | `file()` with its flags: non-empty lines without newlines |
| Reader.FileLinesOfCrLf | app/Services/LogFileReader.php:55 | a CRLF file with a final line break gives back exactly its lines |
| Reader.ReadFromFile | app/Services/LogFileReader.php:48-65 | an error iff the file is missing; one record per line `file()` returns, parsed untrimmed |
| Reader.ReadLaravelLogs | app/Services/LogFileReader.php:12-43 | no file gives nothing; otherwise the loop over the last `lines` lines, or over all of them when there are fewer |
| Controller.DetectSeverity | app/Http/Controllers/Api/LogAnalysisController.php:654-672 | the importer's priority, as an iff per name |
| Controller.Reported | app/Http/Controllers/Api/LogAnalysisController.php:601-628 | the importer's timestamp and severity, and its message cut to 100 bytes |
| Controller.DebugParseLine | app/Http/Controllers/Api/LogAnalysisController.php:598-652 | messages ≤ 100 bytes; each format iff it is the first to match, reporting the importer's record for that format with the message cut to 100 bytes; format 5 only with a ≥ 10-byte prefix; the generic branch says "current time" |
| Controller.DebugAgreesWithImporter | app/Http/Controllers/Api/LogAnalysisController.php:596-652 | where the importer's Apache format does not come first, the debug parser gives the same severity and timestamp and the importer's message cut to 100 bytes |
| Controller.Kept | app/Http/Controllers/Api/LogAnalysisController.php:544-548 | a line is sampled iff it is not PHP-empty once trimmed |
| Controller.Numbers | app/Http/Controllers/Api/LogAnalysisController.php:542-555 | line numbers are 1-based, increasing, within the limit, and only of kept lines |
| Controller.NumbersComplete | app/Http/Controllers/Api/LogAnalysisController.php:542-555 | every kept line within the limit is numbered |
| Controller.SampleOf | app/Http/Controllers/Api/LogAnalysisController.php:554-559 | the line number, the original cut to 150 bytes, a parse with a ≤ 100-byte message |
| Controller.SuccessRate | app/Http/Controllers/Api/LogAnalysisController.php:581 | "0%" when nothing was checked; otherwise the percentage within half a hundredth |
| Controller.DebugImport | app/Http/Controllers/Api/LogAnalysisController.php:519-593 | one sample per numbered line; successful + failed = checked; no failures; "0%" iff nothing was checked, else 100% |
| Controller.DebugImportSamples | app/Http/Controllers/Api/LogAnalysisController.php:542-548 | line i is sampled iff it is among the first `lines` and not PHP-empty once trimmed |
| Controller.SeverityLevel | app/Http/Controllers/Api/LogAnalysisController.php:260-266 | CRITICAL iff critical > 0, HIGH iff not and errors > 10, MEDIUM iff 0 < errors ≤ 10, LOW otherwise |
| Controller.SeverityLevelMatchesImpact | app/Http/Controllers/Api/LogAnalysisController.php:260-266 | the label ends with the decision engine's impact severity |
| Controller.QuickSeverity | app/Http/Controllers/Api/LogAnalysisController.php:273 | Critical iff critical > 0, High iff not and errors > 10, Medium otherwise, never Low |
| Controller.QuickSeverityDisagreesOnlyWhenQuiet | app/Http/Controllers/Api/LogAnalysisController.php:273 | the quick label and the severity level agree except when there are no errors at all |
| Controller.QuickSummary | app/Http/Controllers/Api/LogAnalysisController.php:274 | the label, the likely cause, and the confidence as a rounded percentage |
| Strings.ToLower | app/Services/LogFileImporter.php:153 | same length, each byte lower-cased |
| Strings.Trim | app/Services/LogFileReader.php:116 | a trimmed slice that starts after the leading trim bytes and is followed only by trim bytes |
| Strings.Prefix | app/Http/Controllers/Api/LogAnalysisController.php:606 | at most n bytes, a prefix, the whole text when short enough |
| Strings.SplitJoin | app/Services/LogFileReader.php:112 | `explode` undoes `implode` when no piece contains the separator |
| Strings.JoinSplit | app/Services/LogFileReader.php:112 | `implode` undoes `explode` |

## Left out

- Preprocessor.MarkDuplicates: duplicates are found by message equality, not md5. The two agree unless md5 collides.
- Exact `real` arithmetic replaces IEEE doubles throughout: confidences, metrics, the boost, the error rate.
- Decision.RoundCents: states only that the result is within half a hundredth. It does not say which neighbour PHP's `round($x, 2)` picks on doubles.
- Decision.Round and Controller.QuickSummary: rounding is exact over reals. PHP's pre-rounding of doubles is not modelled.
- Texts that splice a number into a sentence (`'CPU: ' . $metrics['cpu_usage'] . '%'`, `round(…) . '%'`) are kept as `WithNumber(before, value, after)`. PHP's float-to-string rendering is not modelled.
- Carbon and `now()` are not modelled. `now` is a parameter, and so is the date parser.
  - Every record of one `process` call reads the same `now`.
  - `Y-m-d H:i:s` renderings of the timeline are not modelled; its instants are second counts.
  - Years from 10000 on cannot be represented.
- Decision.BuildTimeline: `incident_detected` and `estimated_start` are second counts (now, and now − 60 × duration), not formatted strings.
- Strings are byte sequences. `substr` cuts at a byte, and `strtolower` lower-cases ASCII letters only. No multibyte or locale behaviour is modelled.
- `json_decode` is an oracle from the span text to the decoded suggestions, or none when decoding fails. `callAI` is an oracle too: its result is the `reply` parameter.
- Analysis.Suggestions: the decoder yields well-typed causes, and it only counts keys other than the three documented ones. A cause missing `cause`, `confidence` or `reasoning` cannot be represented. Neither can PHP's notices about such a cause in the decision engine.
- Decision.NextSteps: `array_unique` keeps the surviving keys. A deduplicated list with gaps serialises as a JSON object, not a list. The model returns the values in order.
- Decision.PreventionSteps: the same key-gap effect cannot arise, because the steps are proved distinct.
- `buildPrompt` is not modelled beyond `formatMessages`. The prompt only goes to the oracle.
- File and stream I/O (`SplFileObject`, `file()`, `Storage`, `fopen`/`fgets`) is not modelled. File contents and existence are parameters.
- Reader.ReadLaravelLogs: requires `lines ≥ 0`, because the only caller validates `min:1`. What `SplFileObject::seek` does past the end is not modelled.
- Reader.FileLines: models `file()` with `FILE_IGNORE_NEW_LINES | FILE_SKIP_EMPTY_LINES` as splitting on `\n`, dropping one trailing `\r` per line, and skipping empty lines. Other line-ending conventions (a lone `\r`) are not modelled.
- Controller.DebugImport: the per-line `catch` never fires, because `debugParseLine` does not throw. The failed branch is therefore always empty. The request validation and the JSON response are not modelled.
- The HTTP actions, validation, database writes, Eloquent models, migrations, the seeder, routes and the Blade report are not modelled. They are framework plumbing with no logic of their own.
- `LogFileImporter::import` is not modelled: it writes records to the database. `index()` grouping and `generateRCAOnTheFly` are not modelled either: they depend on loaded ORM relations.

## Findings

| source | as written | input that shows it | evidently intended | confidence | as-written member | corrected member |
|---|---|---|---|---|---|---|
| app/Services/AIAnalysisService.php:40 | `catch (\Exception $e)` does not catch the `TypeError` raised when `callAI`'s `string` return type receives `null` (lines 113, 129) | an API key is set and the provider answers with `"content": null` | every failure of the call falls back to the rule-based analysis | not executed; medium (depends on the provider's body) | Analysis.AnalyzeAsWritten, with Analysis.NullContentEscapes | Analysis.Analyze |

=== FILE: ai_analysis.dfy ===
/** `AIAnalysisService`: ask a language model for probable causes, and fall
    back to two fixed rules when there is no API key, the call throws, or
    its reply holds no usable JSON object. The HTTP call and `json_decode`
    are parameters: the reply the call produced, and a decoder oracle. */
module Analysis {
  import opened Options
  import opened Strings
  import opened Records
  import Preprocessor

  /** The decoded suggestions array. The decision engine reads only
      `probable_causes`; keys other than the three documented ones are
      only counted, because PHP's `!$json` asks whether there are any. */
  datatype Suggestions = Suggestions(
    probableCauses: Option<seq<Cause>>,
    nextSteps: Option<seq<string>>,
    correlations: Option<seq<string>>,
    otherKeys: nat)

  /** PHP's `!$array`: an array is falsy exactly when it has no keys. */
  predicate IsEmptyArray(d: Suggestions)
  {
    d.probableCauses.None? && d.nextSteps.None? && d.correlations.None? && d.otherKeys == 0
  }

  /** What `callAI` did: returned the reply text (an integer, float or
      boolean content is coerced to a string, the file not being in strict
      mode); threw an `\Exception` (an HTTP failure, or a missing key in the
      decoded body, which Laravel turns into an `ErrorException`); or found
      a content field that is `null` or an array, which the `string` return
      type rejects with a `TypeError` — an `\Error`, not an `\Exception`. */
  datatype Reply = Answered(text: string) | Failed | NonStringContent

  /** How `analyze` ends: it returns an array, or a `TypeError` escapes it. */
  datatype Outcome = Returned(suggestions: Suggestions) | Uncaught

  /** `if (!$this->apiKey)`: a key is configured when it is set and not a
      falsy string ("" or "0"). */
  predicate HasKey(apiKey: Option<string>)
  {
    apiKey.Some? && !IsPhpEmpty(apiKey.value)
  }

  // The fallback rules

  const DatabaseCause := "Database performance degradation"
  const CpuCause := "CPU resource exhaustion"
  const FallbackSteps := ["Check database connection pool", "Review slow queries", "Monitor resource usage"]
  const FallbackCorrelations := ["High latency correlates with error spike"]

  /** Rule 1: high database latency together with logged errors. */
  predicate DatabaseRule(s: Preprocessor.Summary, m: Metrics)
  {
    m.dbLatency > 300.0 && s.breakdown.error > 0
  }

  /** Rule 2: high CPU. */
  predicate CpuRule(m: Metrics)
  {
    m.cpuUsage > 80.0
  }

  /** A cause the fallback rules propose, with no next steps of its own. */
  function RuleCause(cause: string, confidence: real, reasoning: string, evidence: seq<Message>): Cause
  {
    Cause(cause, confidence, reasoning, evidence, [], None)
  }

  /** The causes proposed by the rules that fire, database first. */
  function FallbackCauses(s: Preprocessor.Summary, m: Metrics): (cs: seq<Cause>)
    ensures |cs| <= 2
    ensures (exists c :: c in cs && c.cause == DatabaseCause) <==> DatabaseRule(s, m)
    ensures (exists c :: c in cs && c.cause == CpuCause) <==> CpuRule(m)
    ensures forall c :: c in cs ==> c.cause in {DatabaseCause, CpuCause} && c.nextSteps == []
    ensures forall c :: c in cs && c.cause == DatabaseCause ==> c.confidence == 0.75
    ensures forall c :: c in cs && c.cause == CpuCause ==> c.confidence == 0.65
    ensures |cs| == 2 ==> cs[0].cause == DatabaseCause && cs[1].cause == CpuCause
  {
    var db :=
      if DatabaseRule(s, m) then
        [RuleCause(DatabaseCause, 0.75, "High DB latency combined with database errors",
                   [WithNumber("DB latency: ", m.dbLatency, "ms"),
                    Plain("Error count: " + NatToString(s.breakdown.error))])]
      else [];
    var cpu :=
      if CpuRule(m) then
        [RuleCause(CpuCause, 0.65, "CPU usage exceeds 80%", [WithNumber("CPU: ", m.cpuUsage, "%")])]
      else [];
    db + cpu
  }

  /** `fallbackAnalysis`: the rule causes, and the same fixed next steps and
      correlation whichever rules fire. */
  function FallbackAnalysis(s: Preprocessor.Summary, m: Metrics): (r: Suggestions)
    ensures r.probableCauses == Some(FallbackCauses(s, m))
    ensures r.nextSteps == Some(FallbackSteps) && r.correlations == Some(FallbackCorrelations)
    ensures !IsEmptyArray(r)
  {
    Suggestions(Some(FallbackCauses(s, m)), Some(FallbackSteps), Some(FallbackCorrelations), 0)
  }

  // The prompt's message list

  /** One line of `formatMessages`: the 1-based position, ". ", the message. */
  function NumberedLine(i: nat, message: string): string
  {
    NatToString(i + 1) + ". " + message
  }

  function NumberedLines(messages: seq<string>): (lines: seq<string>)
    ensures |lines| == |messages|
    ensures forall i :: 0 <= i < |messages| ==> lines[i] == NumberedLine(i, messages[i])
    decreases |messages|
  {
    if |messages| == 0 then []
    else
      var k := |messages| - 1;
      NumberedLines(messages[..k]) + [NumberedLine(k, messages[k])]
  }

  /** `formatMessages`: the numbered lines joined by newlines. */
  function FormatMessages(messages: seq<string>): (r: string)
    ensures r == "" <==> |messages| == 0
  {
    var lines := NumberedLines(messages);
    if |lines| == 0 then ""
    else
      JoinFirst(lines, "\n");
      Join(lines, "\n")
  }

  /** When no message holds a newline, the text splits back into exactly
      the numbered lines, and stripping each line's number gives back the
      message. */
  lemma FormatMessagesRoundTrip(messages: seq<string>)
    requires |messages| >= 1
    requires forall i :: 0 <= i < |messages| ==> '\n' !in messages[i]
    ensures Split(FormatMessages(messages), '\n') == NumberedLines(messages)
    ensures forall i :: 0 <= i < |messages| ==>
      Split(FormatMessages(messages), '\n')[i][|NatToString(i + 1)| + 2..] == messages[i]
  {
    var lines := NumberedLines(messages);
    NumberedLinesSplit(messages);
    forall i | 0 <= i < |messages|
      ensures lines[i][|NatToString(i + 1)| + 2..] == messages[i]
    {
      NumberedLineHasNoNewline(i, messages[i]);
    }
  }

  /** Newline-free messages give newline-free lines, which the split recovers. */
  lemma NumberedLinesSplit(messages: seq<string>)
    requires |messages| >= 1
    requires forall i :: 0 <= i < |messages| ==> '\n' !in messages[i]
    ensures Split(FormatMessages(messages), '\n') == NumberedLines(messages)
  {
    var lines := NumberedLines(messages);
    forall k | 0 <= k < |lines|
      ensures '\n' !in lines[k]
    {
      NumberedLineHasNoNewline(k, messages[k]);
    }
    SplitJoin(lines, '\n');
  }

  /** A numbered line holds a newline only if its message does. */
  lemma NumberedLineHasNoNewline(i: nat, message: string)
    requires '\n' !in message
    ensures '\n' !in NumberedLine(i, message)
    ensures NumberedLine(i, message)[|NatToString(i + 1)| + 2..] == message
  {
    var d := NatToString(i + 1);
    assert forall k :: 0 <= k < |d| ==> d[k] != '\n';
  }

  // JSON extraction

  /** The position of the first `c` in `s`. */
  function FirstIndex(s: string, c: char): (r: Option<nat>)
    ensures r.Some? ==> r.value < |s| && s[r.value] == c && c !in s[..r.value]
    ensures r.None? ==> c !in s
    decreases |s|
  {
    if |s| == 0 then None
    else if s[0] == c then Some(0)
    else
      match FirstIndex(s[1..], c)
      case None => None
      case Some(k) =>
        assert s[..k + 1] == [s[0]] + s[1..][..k];
        Some(k + 1)
  }

  /** The position of the last `c` in `s`. */
  function LastIndex(s: string, c: char): (r: Option<nat>)
    ensures r.Some? ==> r.value < |s| && s[r.value] == c && c !in s[r.value + 1..]
    ensures r.None? ==> c !in s
    decreases |s|
  {
    if |s| == 0 then None
    else if s[|s| - 1] == c then Some(|s| - 1)
    else
      var init := s[..|s| - 1];
      match LastIndex(init, c)
      case None => None
      case Some(k) =>
        assert s[k + 1..] == init[k + 1..] + [s[|s| - 1]];
        Some(k)
  }

  /** The match of `/\{.*\}/s`: leftmost start, greedy, and `.` also
      matches newlines, so the span runs from the first '{' to the last '}'
      after it; there is a match exactly when some '{' precedes some '}'. */
  function BraceSpan(text: string): (r: Option<string>)
    ensures r.Some? <==> exists i, j :: 0 <= i < j < |text| && text[i] == '{' && text[j] == '}'
    ensures r.Some? ==> exists i, j ::
      && 0 <= i < j < |text| && r.value == text[i..j + 1]
      && text[i] == '{' && '{' !in text[..i]
      && text[j] == '}' && '}' !in text[j + 1..]
  {
    match (FirstIndex(text, '{'), LastIndex(text, '}'))
    case (Some(i), Some(j)) =>
      if i < j then Some(text[i..j + 1])
      else
        assert forall a :: 0 <= a < i ==> text[a] != '{' by {
          assert forall a :: 0 <= a < i ==> text[a] == text[..i][a];
        }
        assert forall b :: j < b < |text| ==> text[b] != '}' by {
          assert forall b :: j < b < |text| ==> text[b] == text[j + 1..][b - j - 1];
        }
        None
    case _ => None
  }

  /** `extractJSON`: decode the brace span, if there is one and it decodes. */
  function ExtractJson(text: string, decode: string -> Option<Suggestions>): (r: Option<Suggestions>)
    ensures r.Some? ==> BraceSpan(text).Some? && decode(BraceSpan(text).value) == r
    ensures BraceSpan(text).Some? && decode(BraceSpan(text).value).Some? ==> r.Some?
  {
    match BraceSpan(text)
    case None => None
    case Some(span) => decode(span)
  }

  /** `parseAIResponse`: `None` where it throws, which it does when nothing
      was extracted and when the decoded array is empty. */
  function ParseResponse(text: string, decode: string -> Option<Suggestions>): (r: Option<Suggestions>)
    ensures r.Some? <==> ExtractJson(text, decode).Some? && !IsEmptyArray(ExtractJson(text, decode).value)
    ensures r.Some? ==> r == ExtractJson(text, decode)
  {
    match ExtractJson(text, decode)
    case None => None
    case Some(d) => if IsEmptyArray(d) then None else Some(d)
  }

  /** `analyze`: the model's suggestions when a key is configured, the call
      answers, and its reply holds a brace span that decodes to a non-empty
      array; the fallback analysis in every other case. */
  function Analyze(s: Preprocessor.Summary, m: Metrics, apiKey: Option<string>, reply: Reply,
                   decode: string -> Option<Suggestions>): (r: Suggestions)
    ensures !HasKey(apiKey) ==> r == FallbackAnalysis(s, m)
    ensures !reply.Answered? ==> r == FallbackAnalysis(s, m)
    ensures reply.Answered? && BraceSpan(reply.text).None? ==> r == FallbackAnalysis(s, m)
    ensures HasKey(apiKey) && reply.Answered? && BraceSpan(reply.text).Some? ==>
      var decoded := decode(BraceSpan(reply.text).value);
      r == if decoded.Some? && !IsEmptyArray(decoded.value) then decoded.value else FallbackAnalysis(s, m)
    ensures !IsEmptyArray(r)
  {
    if !HasKey(apiKey) then FallbackAnalysis(s, m)
    else
      match reply
      case Failed => FallbackAnalysis(s, m)
      case NonStringContent => FallbackAnalysis(s, m)
      case Answered(text) =>
        match ParseResponse(text, decode)
        case Some(d) => d
        case None => FallbackAnalysis(s, m)
  }

  /** `analyze` as written: `catch (\Exception $e)` lets the `TypeError` of
      a non-string content through, so a configured key and such a reply end
      the request with an error instead of the fallback analysis. Every other
      reply ends as the intended `Analyze` does. */
  function AnalyzeAsWritten(s: Preprocessor.Summary, m: Metrics, apiKey: Option<string>, reply: Reply,
                            decode: string -> Option<Suggestions>): (r: Outcome)
    ensures r.Uncaught? <==> HasKey(apiKey) && reply.NonStringContent?
    ensures r.Returned? ==> r.suggestions == Analyze(s, m, apiKey, reply, decode)
  {
    if !HasKey(apiKey) then Returned(FallbackAnalysis(s, m))
    else
      match reply
      case NonStringContent => Uncaught
      case Failed => Returned(FallbackAnalysis(s, m))
      case Answered(text) =>
        match ParseResponse(text, decode)
        case Some(d) => Returned(d)
        case None => Returned(FallbackAnalysis(s, m))
  }

  /** With an API key set, a reply whose content is `null` escapes `analyze`,
      while the intended analysis falls back to the rules. */
  lemma NullContentEscapes(s: Preprocessor.Summary, m: Metrics, decode: string -> Option<Suggestions>)
    ensures AnalyzeAsWritten(s, m, Some("sk-test"), NonStringContent, decode) == Uncaught
    ensures Analyze(s, m, Some("sk-test"), NonStringContent, decode) == FallbackAnalysis(s, m)
  {
    assert HasKey(Some("sk-test")) by {
      assert "sk-test"[0] == 's';
    }
  }
}

=== FILE: clock.dfy ===
/** Points in time as the preprocessor formats them. Parsing and the clock
    are not modelled: they are parameters of the operations that need them. */
module Clock {
  import opened Strings

  type Year = y: nat | y < 10000
  type Month = m: nat | 1 <= m <= 12 witness 1
  type Day = d: nat | 1 <= d <= 31 witness 1
  type Hour = h: nat | h < 24
  type Minute = m: nat | m < 60
  type Second = s: nat | s < 60

  /** A Carbon instance, to the second. */
  datatype DateTime = DateTime(year: Year, month: Month, day: Day, hour: Hour, minute: Minute, second: Second)

  /** Two zero-padded digits (`m`, `d`, `H`, `i`). */
  function Two(n: nat): (r: string)
    requires n < 100
    ensures |r| == 2 && IsDigit(r[0]) && IsDigit(r[1])
  {
    [DigitChar(n / 10), DigitChar(n % 10)]
  }

  /** Four zero-padded digits (`Y` for years below 10000). */
  function Four(n: nat): (r: string)
    requires n < 10000
    ensures |r| == 4
  {
    Two(n / 100) + Two(n % 100)
  }

  /** `format('Y-m-d H:i')`: sixteen bytes, the minute in the last two. */
  function Format(t: DateTime): (r: string)
    ensures |r| == 16 && r[15] == DigitChar(t.minute % 10) && r[14] == DigitChar(t.minute / 10)
  {
    Four(t.year) + "-" + Two(t.month) + "-" + Two(t.day) + " " + Two(t.hour) + ":" + Two(t.minute)
  }

  /** The same instant with the minute rounded down to a multiple of ten. */
  function FloorTen(t: DateTime): (f: DateTime)
    ensures f.minute % 10 == 0 && f.minute <= t.minute < f.minute + 10
  {
    t.(minute := t.minute / 10 * 10)
  }

  /** The window key: the formatted minute with its last digit replaced by
      '0' (`substr($window, 0, -1) . '0'`). */
  function WindowKey(t: DateTime): (k: string)
    ensures |k| == 16
  {
    var f := Format(t);
    f[..|f| - 1] + "0"
  }

  /** The textual truncation is the minute rounded down to ten: no window
      ever crosses an hour, day or year boundary. */
  lemma WindowKeyIsFloor(t: DateTime)
    ensures WindowKey(t) == Format(FloorTen(t))
  {
    var f, g := Format(t), Format(FloorTen(t));
    assert t.minute / 10 * 10 / 10 == t.minute / 10;
    assert f[..15] == g[..15];
  }

  lemma DigitCharInjective(a: nat, b: nat)
    requires a < 10 && b < 10
    ensures DigitChar(a) == DigitChar(b) <==> a == b
  {
  }

  lemma TwoInjective(a: nat, b: nat)
    requires a < 100 && b < 100
    ensures Two(a) == Two(b) <==> a == b
  {
    if Two(a) == Two(b) {
      assert Two(a)[0] == Two(b)[0] && Two(a)[1] == Two(b)[1];
      DigitCharInjective(a / 10, b / 10);
      DigitCharInjective(a % 10, b % 10);
    }
  }

  lemma FourInjective(a: nat, b: nat)
    requires a < 10000 && b < 10000
    ensures Four(a) == Four(b) <==> a == b
  {
    if Four(a) == Four(b) {
      assert Four(a)[..2] == Two(a / 100) && Four(b)[..2] == Two(b / 100);
      assert Four(a)[2..] == Two(a % 100) && Four(b)[2..] == Two(b % 100);
      TwoInjective(a / 100, b / 100);
      TwoInjective(a % 100, b % 100);
    }
  }

  /** Two instants share a window key exactly when they agree to the hour
      and their minutes fall in the same ten-minute block. */
  lemma SameWindow(a: DateTime, b: DateTime)
    ensures WindowKey(a) == WindowKey(b) <==>
      && a.year == b.year && a.month == b.month && a.day == b.day && a.hour == b.hour
      && a.minute / 10 == b.minute / 10
  {
    WindowKeyIsFloor(a);
    WindowKeyIsFloor(b);
    var fa, fb := Format(FloorTen(a)), Format(FloorTen(b));
    if fa == fb {
      assert fa[..4] == Four(a.year) && fb[..4] == Four(b.year);
      assert fa[5..7] == Two(a.month) && fb[5..7] == Two(b.month);
      assert fa[8..10] == Two(a.day) && fb[8..10] == Two(b.day);
      assert fa[11..13] == Two(a.hour) && fb[11..13] == Two(b.hour);
      assert fa[14..16] == Two(FloorTen(a).minute) && fb[14..16] == Two(FloorTen(b).minute);
      FourInjective(a.year, b.year);
      TwoInjective(a.month, b.month);
      TwoInjective(a.day, b.day);
      TwoInjective(a.hour, b.hour);
      TwoInjective(FloorTen(a).minute, FloorTen(b).minute);
    }
  }
}

=== FILE: controller.dfy ===
/** The pure helpers of `LogAnalysisController`: the debug line parser and
    its import summary, the keyword severity inferrer, and the two labels
    the analyses listing shows. */
module Controller {
  import opened Options
  import opened Strings
  import opened Patterns
  import PatternLemmas
  import opened Records
  import Severity
  import Importer
  import Preprocessor
  import Decision
  import Seqs

  // Severity inference

  /** `detectSeverity`: the importer's order, critical/fatal, then
      error/exception, then warning/warn, and info for everything else. */
  function DetectSeverity(line: string): (r: string)
    ensures r in Severity.Names
    ensures var t := ToLower(line);
      && (r == "critical" <==> Severity.SaysCritical(t))
      && (r == "error" <==> !Severity.SaysCritical(t) && Severity.SaysError(t))
      && (r == "warning" <==> !Severity.SaysCritical(t) && !Severity.SaysError(t) && Severity.SaysWarning(t))
      && (r == "info" <==> !Severity.SaysCritical(t) && !Severity.SaysError(t) && !Severity.SaysWarning(t))
  {
    Severity.FromLine(line).Name()
  }

  // The debug line parser

  /** The formats `debugParseLine` reports, in the order it tries them. */
  datatype Format = LaravelLog | BracketedTimestamp | PlainWithLevel | TimestampPrefix | Generic {
    function Name(): string
    {
      match this
      case LaravelLog => "Laravel"
      case BracketedTimestamp => "Bracketed timestamp"
      case PlainWithLevel => "Plain timestamp with level"
      case TimestampPrefix => "Timestamp prefix"
      case Generic => "Generic (no timestamp)"
    }
  }

  /** One parsed line, as the debug endpoint shows it. */
  datatype DebugRecord = DebugRecord(format: Format, timestamp: string, severity: string, message: string)

  /** The timestamp text of a line with none. */
  const CurrentTime := "current time"

  /** Messages are cut to this many bytes. */
  const MessageWidth := 100

  /** A record the importer's parser built from a captured timestamp, as
      the debug parser reports it: same timestamp and severity, message cut. */
  function Reported(format: Format, p: Importer.Parsed): (r: DebugRecord)
    requires p.timestamp.Text?
    ensures r.timestamp == p.timestamp.text && r.severity == p.severity
    ensures |r.message| <= MessageWidth && r.message <= p.message
  {
    DebugRecord(format, p.timestamp.text, p.severity, Prefix(p.message, MessageWidth))
  }

  /** `debugParseLine`: the importer's formats 1, 2, 3 and 5 (not the
      Apache one), tried in that order; a line none of them fits gets
      "current time" and the severity of the whole line. Every line yields
      a record, and no message is longer than 100 bytes. */
  function DebugParseLine(line: string): (r: DebugRecord)
    ensures |r.message| <= MessageWidth
    ensures r.format == LaravelLog <==> BracketLevel(line).Some?
    ensures r.format == BracketedTimestamp <==> BracketLevel(line).None? && BracketStamp(line).Some?
    ensures r.format == PlainWithLevel <==> BracketStamp(line).None? && PlainLevel(line).Some?
    ensures r.format == TimestampPrefix <==>
      BracketStamp(line).None? && PlainLevel(line).None? && Importer.LeadingStamp(line).Some?
    ensures r.format == TimestampPrefix ==> |r.timestamp| >= 10
    ensures r.format == Generic ==>
      r.timestamp == CurrentTime && r.severity == DetectSeverity(line) && r.message == Prefix(Trim(line), MessageWidth)
    ensures r.format != Generic ==> |r.timestamp| > 0 && Contains(line, r.timestamp)
    // each captured format reports the importer's record for that format
    ensures r.format == LaravelLog ==> r == Reported(LaravelLog, Importer.Laravel(line).value)
    ensures r.format == BracketedTimestamp ==> r == Reported(BracketedTimestamp, Importer.Bracketed(line).value)
    ensures r.format == PlainWithLevel ==> r == Reported(PlainWithLevel, Importer.PlainWithLevel(line).value)
    ensures r.format == TimestampPrefix ==> r == Reported(TimestampPrefix, Importer.Prefixed(line).value)
  {
    PatternLemmas.NoBracketStampNoBracketLevel(line);
    match Importer.Laravel(line)
    case Some(p) => Reported(LaravelLog, p)
    case None =>
      match Importer.Bracketed(line)
      case Some(p) => Reported(BracketedTimestamp, p)
      case None =>
        match Importer.PlainWithLevel(line)
        case Some(p) => Reported(PlainWithLevel, p)
        case None =>
          match Importer.Prefixed(line)
          case Some(p) => Reported(TimestampPrefix, p)
          case None => DebugRecord(Generic, CurrentTime, DetectSeverity(line), Prefix(Trim(line), MessageWidth))
  }

  /** The debug parser follows the importer's parser on every line the
      importer's Apache format does not capture first: same severity, the
      same timestamp where one was captured, and the importer's message cut
      to 100 bytes. */
  lemma DebugAgreesWithImporter(line: string)
    requires ApacheBracket(line).None? || BracketStamp(line).Some? || PlainLevel(line).Some?
    ensures var d, p := DebugParseLine(line), Importer.ParseLogLine(line);
      && d.severity == p.severity
      && d.message == Prefix(p.message, MessageWidth)
      && (d.format == Generic <==> p.timestamp.Now?)
      && (p.timestamp.Text? ==> d.timestamp == p.timestamp.text)
  {
    PatternLemmas.NoBracketStampNoBracketLevel(line);
  }

  // The debug import summary

  /** What `debugImport` records for one line: its number, its first 150
      bytes, and the parse. The parser always returns, so the `failed`
      entries of the source never occur and are not represented. */
  datatype Sample = Sample(lineNumber: nat, original: string, parsed: DebugRecord)

  datatype DebugSummary = DebugSummary(
    totalLinesChecked: nat,
    successfullyParsed: nat,
    failedToParse: nat,
    successRate: Message,
    recommendation: string)

  const AllParsed := "All sample lines parsed successfully!"
  const CheckFailed := "Check the failed lines format. You may need to adjust your log format."

  /** Whether each line of the file is kept once trimmed: `debugImport`
      skips the PHP-empty ones, "" and "0". */
  function Kept(lines: seq<string>): (keep: seq<bool>)
    ensures |keep| == |lines|
    ensures forall i :: 0 <= i < |lines| ==> keep[i] == !IsPhpEmpty(Trim(lines[i]))
  {
    seq(|lines|, i requires 0 <= i < |lines| => !IsPhpEmpty(Trim(lines[i])))
  }

  /** The `success_rate` text: the percentage to the cent, "0%" when no
      line was checked. */
  function SuccessRate(succeeded: nat, checked: nat): (r: Message)
    ensures checked == 0 ==> r == Plain("0%")
    ensures 0 < checked == succeeded ==> r == WithNumber("", 100.0, "%")
    ensures checked > 0 ==> r.WithNumber? && r.value - 0.005 <= succeeded as real / checked as real * 100.0 <= r.value + 0.005
  {
    if checked > 0 then
      var percent := succeeded as real / checked as real * 100.0;
      assert succeeded == checked ==> percent == 100.0 by {
        if succeeded == checked {
          assert succeeded as real / checked as real == 1.0;
        }
      }
      WithNumber("", Decision.RoundCents(percent), "%")
    else Plain("0%")
  }

  /** The 1-based numbers of the kept lines among the first `n`, in order. */
  function Numbers(keep: seq<bool>, n: nat): (r: seq<nat>)
    requires n <= |keep|
    ensures forall k :: 0 <= k < |r| ==> 1 <= r[k] <= n && keep[r[k] - 1]
    ensures forall k, l :: 0 <= k < l < |r| ==> r[k] < r[l]
  {
    if n == 0 then []
    else Numbers(keep, n - 1) + (if keep[n - 1] then [n] else [])
  }

  /** Every kept line among the first `n` is numbered. */
  lemma {:induction false} NumbersComplete(keep: seq<bool>, n: nat, i: nat)
    requires i < n <= |keep| && keep[i]
    ensures i + 1 in Numbers(keep, n)
  {
    var init, last := Numbers(keep, n - 1), if keep[n - 1] then [n] else [];
    assert Numbers(keep, n) == init + last;
    if i < n - 1 {
      NumbersComplete(keep, n - 1, i);
    } else {
      assert last == [i + 1];
      assert Numbers(keep, n)[|init|] == i + 1;
    }
  }

  /** The sample of line number `number` (1-based). */
  function SampleOf(lines: seq<string>, number: nat): (r: Sample)
    requires 1 <= number <= |lines|
    ensures r.lineNumber == number && |r.original| <= 150 && |r.parsed.message| <= MessageWidth
  {
    var line := Trim(lines[number - 1]);
    Sample(number, Prefix(line, 150), DebugParseLine(line))
  }

  /** What `debugImport` answers: the samples and their summary. */
  datatype DebugReport = DebugReport(samples: seq<Sample>, summary: DebugSummary)

  /** `debugImport` over the lines the file reader yields: at most the first
      `maxLines` lines are read and trimmed; the PHP-empty ones are skipped
      but still counted, and each other line is parsed. The summary counts
      the samples: all succeed, none fail. */
  function DebugImport(lines: seq<string>, maxLines: nat): (r: DebugReport)
    ensures var numbers := Numbers(Kept(lines), if |lines| < maxLines then |lines| else maxLines);
      |r.samples| == |numbers| && forall k :: 0 <= k < |numbers| ==> r.samples[k] == SampleOf(lines, numbers[k])
    ensures r.summary.totalLinesChecked == |r.samples|
    ensures r.summary.successfullyParsed + r.summary.failedToParse == r.summary.totalLinesChecked
    ensures r.summary.failedToParse == 0 && r.summary.recommendation == AllParsed
    ensures r.summary.totalLinesChecked == 0 ==> r.summary.successRate == Plain("0%")
    ensures r.summary.totalLinesChecked > 0 ==> r.summary.successRate == WithNumber("", 100.0, "%")
  {
    var numbers := Numbers(Kept(lines), if |lines| < maxLines then |lines| else maxLines);
    var samples := Seqs.Map(numbers, (n: nat) => if 1 <= n <= |lines| then SampleOf(lines, n) else Sample(n, "", DebugRecord(Generic, CurrentTime, "info", "")));
    var succeeded, failed := |samples|, 0;
    DebugReport(samples, DebugSummary(|samples|, succeeded, failed, SuccessRate(succeeded, |samples|),
                                      if failed > 0 then CheckFailed else AllParsed))
  }

  /** A line is sampled exactly when it is among the first `maxLines` and
      is not PHP-empty once trimmed. */
  lemma DebugImportSamples(lines: seq<string>, maxLines: nat, i: nat)
    requires i < |lines|
    ensures var numbers := Numbers(Kept(lines), if |lines| < maxLines then |lines| else maxLines);
      i + 1 in numbers <==> i < maxLines && !IsPhpEmpty(Trim(lines[i]))
  {
    var keep := Kept(lines);
    var n := if |lines| < maxLines then |lines| else maxLines;
    if i < maxLines && !IsPhpEmpty(Trim(lines[i])) {
      NumbersComplete(keep, n, i);
    }
  }

  // Labels of the analyses listing

  /** `getSeverityLevel`, with the marks reproduced as the source text
      shows them. */
  function SeverityLevel(critical: nat, errors: nat): (r: string)
    ensures r == "ðŸ”´ CRITICAL" <==> critical > 0
    ensures r == "ðŸŸ  HIGH" <==> critical == 0 && errors > 10
    ensures r == "ðŸŸ¡ MEDIUM" <==> critical == 0 && 0 < errors <= 10
    ensures r == "ðŸŸ¢ LOW" <==> critical == 0 && errors == 0
  {
    if critical > 0 then "ðŸ”´ CRITICAL"
    else if errors > 10 then "ðŸŸ  HIGH"
    else if errors > 0 then "ðŸŸ¡ MEDIUM"
    else "ðŸŸ¢ LOW"
  }

  /** The listing counts error entries alone where the decision engine's
      impact counts errors and critical entries together; the two ladders
      still name the same level for the same log. */
  lemma SeverityLevelMatchesImpact(b: Preprocessor.Counts)
    ensures var level := Decision.ImpactSeverityOf(b.critical, b.error + b.critical).Name();
      SeverityLevel(b.critical, b.error)[|SeverityLevel(b.critical, b.error)| - |level|..] == level
  {
  }

  /** The word `generateQuickSummary` opens with. */
  function QuickSeverity(errors: nat, critical: nat): (r: string)
    ensures r == "Critical" <==> critical > 0
    ensures r == "High" <==> critical == 0 && errors > 10
    ensures r == "Medium" <==> critical == 0 && errors <= 10
  {
    if critical > 0 then "Critical" else if errors > 10 then "High" else "Medium"
  }

  /** The quick summary never says Low: with no errors at all it says
      Medium, where the severity level beside it says LOW. Otherwise the two
      labels name the same level. */
  lemma QuickSeverityDisagreesOnlyWhenQuiet(errors: nat, critical: nat)
    ensures QuickSeverity(errors, critical) != "Low"
    ensures (SeverityLevel(critical, errors) == "ðŸŸ¢ LOW") <==> (errors == 0 && critical == 0)
    ensures errors > 0 || critical > 0 ==>
      var word, level := QuickSeverity(errors, critical), SeverityLevel(critical, errors);
      && (word == "Critical" <==> level == "ðŸ”´ CRITICAL")
      && (word == "High" <==> level == "ðŸŸ  HIGH")
      && (word == "Medium" <==> level == "ðŸŸ¡ MEDIUM")
  {
  }

  /** `generateQuickSummary`: the severity word, the likely cause, and the
      confidence as a rounded percentage. */
  function QuickSummary(likelyCause: string, confidence: real, errors: nat, critical: nat): (r: Message)
    ensures r.WithNumber? && r.after == "%)"
    ensures r.before == QuickSeverity(errors, critical) + " issue detected: " + likelyCause + " (Confidence: "
    ensures r.value - 0.5 <= confidence * 100.0 <= r.value + 0.5
  {
    WithNumber(QuickSeverity(errors, critical) + " issue detected: " + likelyCause + " (Confidence: ",
               Decision.Round(confidence * 100.0) as real, "%)")
  }
}

=== FILE: decision.dfy ===
/** `DecisionEngine`: score the proposed causes against the metrics, rank
    them, pick the top one (or a default), and synthesise the root-cause
    analysis around it. `now()` is not modelled (see the timeline). */
module Decision {
  import opened Options
  import opened Strings
  import opened Seqs
  import opened Records
  import Preprocessor
  import Analysis

  /** `str_contains(strtolower($cause['cause']), word)`. */
  predicate Says(c: Cause, word: string)
  {
    Contains(ToLower(c.cause), word)
  }

  // Correlation boost

  predicate IsDatabaseCause(c: Cause) { Says(c, "database") || Says(c, "db") }
  predicate IsCpuCause(c: Cause) { Says(c, "cpu") || Says(c, "resource") }
  predicate IsMemoryCause(c: Cause) { Says(c, "memory") || Says(c, "oom") }
  predicate IsTimeoutCause(c: Cause) { Says(c, "timeout") || Says(c, "connection") }

  /** `amount` when `condition` holds, nothing otherwise. */
  function Bonus(condition: bool, amount: real): real
  {
    if condition then amount else 0.0
  }

  /** What each keyword group's metric thresholds are worth, whether or not
      the cause mentions the group. */
  function DatabaseBoost(m: Metrics, s: Preprocessor.Summary): real
  {
    Bonus(m.dbLatency > 300.0, 0.1) + Bonus(m.dbLatency > 500.0, 0.05) + Bonus(s.breakdown.error > 5, 0.05)
  }

  function CpuBoost(m: Metrics): real
  {
    Bonus(m.cpuUsage > 80.0, 0.1) + Bonus(m.requestsPerSec > 1000.0, 0.05)
  }

  function MemoryBoost(m: Metrics): real
  {
    Bonus(m.memoryUsage > 85.0, 0.15)
  }

  function TimeoutBoost(m: Metrics): real
  {
    Bonus(m.dbLatency > 400.0, 0.1)
  }

  /** `calculateCorrelationBoost`, accumulated test by test as the source
      does. The groups add up independently: each contributes its metric
      bonus exactly when the cause mentions one of its keywords, so the
      boost lies between 0 and 0.6. */
  function CorrelationBoost(c: Cause, m: Metrics, s: Preprocessor.Summary): (b: real)
    ensures b == Bonus(IsDatabaseCause(c), DatabaseBoost(m, s)) + Bonus(IsCpuCause(c), CpuBoost(m))
               + Bonus(IsMemoryCause(c), MemoryBoost(m)) + Bonus(IsTimeoutCause(c), TimeoutBoost(m))
    ensures 0.0 <= b <= 0.6
  {
    var db, cpu, memory, timeout := IsDatabaseCause(c), IsCpuCause(c), IsMemoryCause(c), IsTimeoutCause(c);
    var b := 0.0;
    var b := if db && m.dbLatency > 300.0 then b + 0.1 else b;
    var b := if db && m.dbLatency > 500.0 then b + 0.05 else b;
    var b := if db && s.breakdown.error > 5 then b + 0.05 else b;
    var b := if cpu && m.cpuUsage > 80.0 then b + 0.1 else b;
    var b := if cpu && m.requestsPerSec > 1000.0 then b + 0.05 else b;
    var b := if memory && m.memoryUsage > 85.0 then b + 0.15 else b;
    var b := if timeout && m.dbLatency > 400.0 then b + 0.1 else b;
    b
  }

  /** `enhanceCause`: the confidence becomes `min(0.99, c + boost)`, the
      boost is recorded, and nothing else about the cause changes. */
  function EnhanceCause(c: Cause, m: Metrics, s: Preprocessor.Summary): (r: Cause)
    ensures r.correlationBoost == Some(CorrelationBoost(c, m, s))
    ensures r == c.(confidence := r.confidence, correlationBoost := r.correlationBoost)
    ensures r.confidence <= 0.99 && r.confidence <= c.confidence + CorrelationBoost(c, m, s)
    ensures r.confidence == 0.99 || r.confidence == c.confidence + CorrelationBoost(c, m, s)
    ensures c.confidence <= 0.99 ==> c.confidence <= r.confidence
  {
    var boost := CorrelationBoost(c, m, s);
    var raised := c.confidence + boost;
    c.(confidence := if 0.99 <= raised then 0.99 else raised, correlationBoost := Some(boost))
  }

  /** Every cause, enhanced (the `array_map` in `decide`). */
  function EnhanceAll(cs: seq<Cause>, m: Metrics, s: Preprocessor.Summary): (r: seq<Cause>)
    ensures |r| == |cs|
    ensures forall i :: 0 <= i < |cs| ==> r[i] == EnhanceCause(cs[i], m, s)
  {
    Map(cs, (c: Cause) => EnhanceCause(c, m, s))
  }

  // Ranking

  /** Non-increasing confidence. */
  predicate SortedByConfidence(cs: seq<Cause>)
  {
    forall i, j :: 0 <= i < j < |cs| ==> cs[i].confidence >= cs[j].confidence
  }

  /** Place `x`, which came before every cause of `cs` in the input, ahead
      of the first cause whose confidence is not higher than its own. */
  function Insert(x: Cause, cs: seq<Cause>): (r: seq<Cause>)
    ensures |r| == |cs| + 1
    ensures multiset(r) == multiset(cs) + multiset{x}
    decreases |cs|
  {
    if |cs| == 0 || cs[0].confidence <= x.confidence then [x] + cs
    else
      assert cs == [cs[0]] + cs[1..];
      [cs[0]] + Insert(x, cs[1..])
  }

  /** Inserting into a ranked list keeps it ranked. */
  lemma {:induction false} InsertSorted(x: Cause, cs: seq<Cause>)
    requires SortedByConfidence(cs)
    ensures SortedByConfidence(Insert(x, cs))
    decreases |cs|
  {
    if |cs| > 0 && cs[0].confidence > x.confidence {
      var rest := Insert(x, cs[1..]);
      InsertSorted(x, cs[1..]);
      forall y | y in rest
        ensures y.confidence <= cs[0].confidence
      {
        assert y in multiset(rest);
        assert y == x || y in cs[1..];
      }
      assert Insert(x, cs) == [cs[0]] + rest;
    }
  }

  /** `usort` by descending confidence. PHP 8's sort is stable, and this
      insertion sort keeps equal confidences in input order too. */
  function Rank(cs: seq<Cause>): (r: seq<Cause>)
    ensures |r| == |cs|
    ensures multiset(r) == multiset(cs)
    ensures SortedByConfidence(r)
    decreases |cs|
  {
    if |cs| == 0 then []
    else
      assert cs == [cs[0]] + cs[1..];
      InsertSorted(cs[0], Rank(cs[1..]));
      Insert(cs[0], Rank(cs[1..]))
  }

  /** The causes with a given confidence. */
  function WithConfidence(v: real): Cause -> bool
  {
    (c: Cause) => c.confidence == v
  }

  /** Filtering one cause. */
  function Only(x: Cause, v: real): seq<Cause>
  {
    if x.confidence == v then [x] else []
  }

  lemma FilterCons(x: Cause, cs: seq<Cause>, v: real)
    ensures Filter([x] + cs, WithConfidence(v)) == Only(x, v) + Filter(cs, WithConfidence(v))
  {
    FilterConcat([x], cs, WithConfidence(v));
    FilterSingleton(x, WithConfidence(v));
  }

  /** Inserting a cause puts it ahead of its equals. */
  lemma {:induction false} InsertKeepsEqualsInOrder(x: Cause, cs: seq<Cause>, v: real)
    ensures Filter(Insert(x, cs), WithConfidence(v)) == Only(x, v) + Filter(cs, WithConfidence(v))
    decreases |cs|
  {
    if |cs| == 0 || cs[0].confidence <= x.confidence {
      FilterCons(x, cs, v);
    } else {
      var rest := Insert(x, cs[1..]);
      InsertKeepsEqualsInOrder(x, cs[1..], v);
      FilterCons(cs[0], rest, v);
      FilterCons(cs[0], cs[1..], v);
      assert cs == [cs[0]] + cs[1..];
      if x.confidence == v {
        assert Only(cs[0], v) == [];
      }
    }
  }

  /** The ranking is stable: the causes of any one confidence appear in the
      order they were proposed in. */
  lemma {:induction false} RankIsStable(cs: seq<Cause>, v: real)
    ensures Filter(Rank(cs), WithConfidence(v)) == Filter(cs, WithConfidence(v))
    decreases |cs|
  {
    if |cs| > 0 {
      RankIsStable(cs[1..], v);
      InsertKeepsEqualsInOrder(cs[0], Rank(cs[1..]), v);
      FilterCons(cs[0], cs[1..], v);
      assert cs == [cs[0]] + cs[1..];
    }
  }

  // Default cause and next steps

  /** `getDefaultCause`. */
  const DefaultCause := Cause("Unknown issue - requires manual investigation", 0.3,
                              "Insufficient data to determine root cause", [], [], None)

  const DatabaseSteps := ["Check database connection pool size", "Review slow query log", "Verify database server resources"]
  const CpuSteps := ["Profile application for CPU hotspots", "Check for infinite loops or inefficient algorithms"]
  const MemorySteps := ["Check for memory leaks", "Review object caching strategy"]

  /** The fixed steps each keyword calls for, with its condition. */
  function KeywordBlocks(c: Cause): seq<(bool, seq<string>)>
  {
    [(Says(c, "database"), DatabaseSteps), (Says(c, "cpu"), CpuSteps), (Says(c, "memory"), MemorySteps)]
  }

  /** The fixed steps a cause's keywords call for. */
  function KeywordSteps(c: Cause): seq<string>
  {
    Appended(KeywordBlocks(c))
  }

  /** The fixed steps never repeat one another. */
  lemma KeywordStepsHaveNoDup(c: Cause)
    ensures NoDup(KeywordSteps(c))
  {
    var blocks := KeywordBlocks(c);
    EverythingOfThree(blocks[0], blocks[1], blocks[2]);
    AppendedNoDup(blocks);
  }

  /** `generateNextSteps`: the cause's own steps, then the fixed steps for
      its keywords, with later repeats dropped: a fixed step the cause
      already brought keeps the cause's place. */
  function NextSteps(c: Cause): (r: seq<string>)
    ensures NoDup(r)
    ensures r == Dedup(c.nextSteps) + Filter(KeywordSteps(c), Outside(c.nextSteps))
    ensures |Dedup(c.nextSteps)| <= |r| && r[..|Dedup(c.nextSteps)|] == Dedup(c.nextSteps)
    ensures c.nextSteps == [] ==> r == KeywordSteps(c)
  {
    DedupConcatPrefix(c.nextSteps, KeywordSteps(c));
    KeywordStepsHaveNoDup(c);
    DedupConcatNoDup(c.nextSteps, KeywordSteps(c));
    DedupOfNoDup(KeywordSteps(c));
    assert c.nextSteps == [] ==> c.nextSteps + KeywordSteps(c) == KeywordSteps(c);
    Dedup(c.nextSteps + KeywordSteps(c))
  }

  /** A step is suggested exactly when the cause brought it or one of the
      cause's keywords calls for it. */
  lemma NextStepsMembership(c: Cause, step: string)
    ensures step in NextSteps(c) <==>
      || step in c.nextSteps
      || (Says(c, "database") && step in DatabaseSteps)
      || (Says(c, "cpu") && step in CpuSteps)
      || (Says(c, "memory") && step in MemorySteps)
  {
    var blocks := KeywordBlocks(c);
    DedupMembership(c.nextSteps + KeywordSteps(c), step);
    AppendedMembership(blocks, step);
    assert (exists i :: 0 <= i < |blocks| && blocks[i].0 && step in blocks[i].1) <==>
      (blocks[0].0 && step in blocks[0].1) || (blocks[1].0 && step in blocks[1].1) || (blocks[2].0 && step in blocks[2].1);
  }

  // Correlated signals

  datatype Strength = Strong | Medium {
    function Name(): string
    {
      match this
      case Strong => "strong"
      case Medium => "medium"
    }
  }

  /** One correlated signal, with the figures behind it by name. */
  datatype Signal = Signal(signal: string, strength: Strength, figures: seq<(string, real)>)

  const LatencySignal := "High DB latency with error spike"
  const LoadSignal := "CPU saturation under load"
  const SustainedSignal := "Sustained issue across multiple time windows"

  /** Where a signal sits in the fixed order. */
  function SignalRank(name: string): nat
  {
    if name == LatencySignal then 0 else if name == LoadSignal then 1 else 2
  }

  /** `getCorrelatedSignals`: up to three signals in a fixed order, each
      present exactly when its two conditions (or one) hold. */
  function CorrelatedSignals(m: Metrics, s: Preprocessor.Summary): (r: seq<Signal>)
    ensures |r| <= 3
    ensures (exists g :: g in r && g.signal == LatencySignal) <==> m.dbLatency > 300.0 && s.breakdown.error > 0
    ensures (exists g :: g in r && g.signal == LoadSignal) <==> m.cpuUsage > 75.0 && m.requestsPerSec > 500.0
    ensures (exists g :: g in r && g.signal == SustainedSignal) <==> s.windowCount > 3
    ensures forall g :: g in r ==> g.signal == LatencySignal || g.signal == LoadSignal || g.signal == SustainedSignal
    ensures forall g :: g in r ==> (g.strength == Strong <==> g.signal == LatencySignal)
    ensures forall g :: g in r && g.signal == LatencySignal ==>
      g.figures == [("db_latency", m.dbLatency), ("error_count", s.breakdown.error as real)]
    ensures forall g :: g in r && g.signal == LoadSignal ==>
      g.figures == [("cpu_usage", m.cpuUsage), ("requests_per_sec", m.requestsPerSec)]
    ensures forall g :: g in r && g.signal == SustainedSignal ==> g.figures == [("window_count", s.windowCount as real)]
  {
    var latency := Signal(LatencySignal, Strong, [("db_latency", m.dbLatency), ("error_count", s.breakdown.error as real)]);
    var load := Signal(LoadSignal, Medium, [("cpu_usage", m.cpuUsage), ("requests_per_sec", m.requestsPerSec)]);
    var sustained := Signal(SustainedSignal, Medium, [("window_count", s.windowCount as real)]);
    var withLatency := m.dbLatency > 300.0 && s.breakdown.error > 0;
    var withLoad := m.cpuUsage > 75.0 && m.requestsPerSec > 500.0;
    var withSustained := s.windowCount > 3;
    var r := (if withLatency then [latency] else []) + (if withLoad then [load] else [])
      + (if withSustained then [sustained] else []);
    assert |LatencySignal| != |LoadSignal| && |LoadSignal| != |SustainedSignal| && |LatencySignal| != |SustainedSignal|;
    assert forall g :: g in r <==> (withLatency && g == latency) || (withLoad && g == load) || (withSustained && g == sustained);
    r
  }

  /** The signals come in the fixed order, so none is listed twice. */
  lemma CorrelatedSignalsInOrder(m: Metrics, s: Preprocessor.Summary)
    ensures var r := CorrelatedSignals(m, s);
      forall i, j :: 0 <= i < j < |r| ==> SignalRank(r[i].signal) < SignalRank(r[j].signal)
  {
  }

  // Timeline and impact

  /** `buildTimeline`. The two instants are Carbon readings, counted here in
      seconds; their `Y-m-d H:i:s` rendering is not modelled. */
  datatype Timeline = Timeline(
    incidentDetected: int,
    estimatedStart: int,
    durationMinutes: nat,
    windowsAffected: nat,
    status: string)

  /** The incident is taken to span five minutes per window and to have
      ended at `now`, the clock reading the analysis is made at. */
  function BuildTimeline(s: Preprocessor.Summary, now: int): (t: Timeline)
    ensures t.durationMinutes == 5 * t.windowsAffected && t.windowsAffected == s.windowCount
    ensures t.incidentDetected == now
    ensures t.estimatedStart + 60 * t.durationMinutes == t.incidentDetected
    ensures t.estimatedStart <= t.incidentDetected
    ensures t.status == "analyzed"
  {
    var duration := s.windowCount * 5;
    Timeline(now, now - duration * 60, duration, s.windowCount, "analyzed")
  }

  datatype ImpactSeverity = CRITICAL | HIGH | MEDIUM | LOW {
    function Name(): string
    {
      match this
      case CRITICAL => "CRITICAL"
      case HIGH => "HIGH"
      case MEDIUM => "MEDIUM"
      case LOW => "LOW"
    }
  }

  /** The severity ladder of `assessImpact`: any critical entry makes it
      critical; otherwise more than ten errors is high, some is medium. */
  function ImpactSeverityOf(critical: nat, totalErrors: nat): (r: ImpactSeverity)
    ensures r == CRITICAL <==> critical > 0
    ensures r == HIGH <==> critical == 0 && totalErrors > 10
    ensures r == MEDIUM <==> critical == 0 && 0 < totalErrors <= 10
    ensures r == LOW <==> critical == 0 && totalErrors == 0
  {
    if critical > 0 then CRITICAL
    else if totalErrors > 10 then HIGH
    else if totalErrors > 0 then MEDIUM
    else LOW
  }

  /** `getBusinessImpact`, on the severity's text. */
  function BusinessImpact(severity: string): string
  {
    match severity
    case "CRITICAL" => "Severe service degradation - immediate action required"
    case "HIGH" => "Significant impact on user experience"
    case "MEDIUM" => "Moderate impact - some users affected"
    case "LOW" => "Minor impact - isolated incidents"
    case _ => "Impact assessment in progress"
  }

  /** The severity `assessImpact` passes is always one of the four labels,
      so the "in progress" default is never reached, and the four labels
      lead to four different descriptions. */
  lemma BusinessImpactIsAlwaysAssessed(a: ImpactSeverity, b: ImpactSeverity)
    ensures BusinessImpact(a.Name()) != "Impact assessment in progress"
    ensures BusinessImpact(a.Name()) == BusinessImpact(b.Name()) <==> a == b
  {
  }

  /** `$totalErrors / max(1, $total_logs) * 100`. */
  function ErrorRate(totalErrors: nat, totalLogs: nat): (rate: real)
    ensures totalLogs > 0 ==> rate * totalLogs as real == 100.0 * totalErrors as real
    ensures totalLogs == 0 ==> rate == 100.0 * totalErrors as real
    ensures 0.0 <= rate
    ensures totalErrors <= totalLogs ==> rate <= 100.0
  {
    var divisor := if totalLogs > 1 then totalLogs else 1;
    totalErrors as real / divisor as real * 100.0
  }

  /** PHP `round($x)`: to the nearest integer, halves away from zero. */
  function Round(x: real): (n: int)
    ensures n as real - 0.5 <= x <= n as real + 0.5
    ensures x >= 0.0 ==> x < n as real + 0.5
    ensures x < 0.0 ==> n as real - 0.5 < x
  {
    if x >= 0.0 then (x + 0.5).Floor else -((0.5 - x).Floor)
  }

  /** PHP `round($x, 2)`. */
  function RoundCents(x: real): (r: real)
    ensures r - 0.005 <= x <= r + 0.005
  {
    Round(x * 100.0) as real / 100.0
  }

  datatype Health = Critical | Warning | Healthy {
    /** The label, with the marks reproduced as the source text shows them. */
    function Label(): string
    {
      match this
      case Critical => "游댮 Critical"
      case Warning => "游리 Warning"
      case Healthy => "游릭 Healthy"
    }
  }

  /** `getHealthStatus`. Both arms of its `inverse` test compare the same
      way, so the flag never matters. */
  function HealthStatus(value: real, warning: real, critical: real, inverse: bool := false): (h: Health)
    ensures h == Critical <==> value >= critical
    ensures h == Warning <==> value < critical && value >= warning
    ensures h == Healthy <==> value < critical && value < warning
  {
    if inverse then
      if value >= critical then Critical else if value >= warning then Warning else Healthy
    else
      if value >= critical then Critical else if value >= warning then Warning else Healthy
  }

  datatype SystemHealth = SystemHealth(cpu: Health, memory: Health, database: Health)

  datatype Impact = Impact(
    severity: ImpactSeverity,
    totalErrors: nat,
    criticalErrors: nat,
    errorRatePercentage: real,
    estimatedAffectedRequests: int,
    businessImpact: string,
    systemHealth: SystemHealth)

  /** The requests estimated to have failed over the incident: the request
      rate over five minutes per window, scaled by the error rate. */
  function AffectedRequests(m: Metrics, s: Preprocessor.Summary, rate: real): int
  {
    Round(m.requestsPerSec * s.windowCount as real * 5.0 * (rate / 100.0))
  }

  /** `assessImpact`: the error counts and their severity, the error rate
      to the cent, the requests it affected, and each metric's health. */
  function AssessImpact(s: Preprocessor.Summary, m: Metrics): (r: Impact)
    ensures r.totalErrors == s.breakdown.error + s.breakdown.critical
    ensures r.criticalErrors == s.breakdown.critical
    ensures r.severity == ImpactSeverityOf(r.criticalErrors, r.totalErrors)
    ensures var rate := ErrorRate(r.totalErrors, s.totalLogs);
      && r.errorRatePercentage - 0.005 <= rate <= r.errorRatePercentage + 0.005
      && r.estimatedAffectedRequests == AffectedRequests(m, s, rate)
    ensures r.businessImpact == BusinessImpact(r.severity.Name())
    ensures r.systemHealth.cpu == HealthStatus(m.cpuUsage, 80.0, 90.0, false)
    ensures r.systemHealth.memory == HealthStatus(m.memoryUsage, 80.0, 90.0, false)
    ensures r.systemHealth.database == HealthStatus(m.dbLatency, 300.0, 500.0, true)
  {
    var totalErrors := s.breakdown.error + s.breakdown.critical;
    var critical := s.breakdown.critical;
    var severity := ImpactSeverityOf(critical, totalErrors);
    var rate := ErrorRate(totalErrors, s.totalLogs);
    Impact(severity, totalErrors, critical, RoundCents(rate), AffectedRequests(m, s, rate),
           BusinessImpact(severity.Name()),
           SystemHealth(HealthStatus(m.cpuUsage, 80.0, 90.0),
                        HealthStatus(m.memoryUsage, 80.0, 90.0),
                        HealthStatus(m.dbLatency, 300.0, 500.0, true)))
  }

  /** Without errors the incident is rated low, at a zero error rate, with
      no requests affected. */
  lemma NoErrorsNoImpact(s: Preprocessor.Summary, m: Metrics)
    requires s.breakdown.error + s.breakdown.critical == 0
    ensures AssessImpact(s, m).severity == LOW
    ensures AssessImpact(s, m).errorRatePercentage == 0.0
    ensures AssessImpact(s, m).estimatedAffectedRequests == 0
  {
  }

  /** For a summary whose counts cover its logs (as `getSummary`'s always
      do), the error rate is a percentage. */
  lemma ErrorRateIsPercentage(s: Preprocessor.Summary)
    requires Preprocessor.Total(s.breakdown) == s.totalLogs
    ensures 0.0 <= ErrorRate(s.breakdown.error + s.breakdown.critical, s.totalLogs) <= 100.0
  {
  }

  // The five whys

  datatype Why = Why(question: string, answer: Message)

  /** Which line of questioning a cause gets: database or connection first,
      then cpu or resource, then memory or oom, else a generic one. */
  datatype WhyTheme = DatabaseWhys | CpuWhys | MemoryWhys | GenericWhys

  function WhyThemeOf(c: Cause): (t: WhyTheme)
    ensures t == DatabaseWhys <==> Says(c, "database") || Says(c, "connection")
    ensures t == CpuWhys <==> !(Says(c, "database") || Says(c, "connection")) && (Says(c, "cpu") || Says(c, "resource"))
    ensures t == MemoryWhys <==>
      && !(Says(c, "database") || Says(c, "connection")) && !(Says(c, "cpu") || Says(c, "resource"))
      && (Says(c, "memory") || Says(c, "oom"))
  {
    if Says(c, "database") || Says(c, "connection") then DatabaseWhys
    else if Says(c, "cpu") || Says(c, "resource") then CpuWhys
    else if Says(c, "memory") || Says(c, "oom") then MemoryWhys
    else GenericWhys
  }

  const DatabaseQuestions := ["Why did the application fail?", "Why did connections timeout?",
                               "Why was database slow?", "Why was there high query load?",
                               "Why couldn't system handle the load?"]
  const CpuQuestions := ["Why is the application slow?", "Why is CPU usage high?", "Why is code inefficient?",
                          "Why wasn't this caught earlier?", "Why no monitoring alerts?"]
  const MemoryQuestions := ["Why did the application crash?", "Why did memory run out?",
                             "Why is there a memory leak?", "Why weren't objects released?",
                             "Why wasn't this detected?"]
  const GenericQuestions := ["Why did the issue occur?", "Why did this cause problems?", "Why wasn't it prevented?",
                              "Why no monitoring?", "Why not configured?"]

  /** The answers that quote nothing, in the order they are given. */
  const DatabaseAnswers := ["Database connections timed out", "High query load or inefficient queries",
                             "Connection pool or query optimization not configured for peak load"]
  const CpuAnswers := ["Processing too many requests or inefficient code",
                        "Possible infinite loops, heavy computations, or missing caching",
                        "Insufficient load testing or monitoring", "Alert thresholds not configured or too high"]
  const MemoryAnswers := ["Memory leak or large data processing",
                           "Objects not being garbage collected or caching issues",
                           "Improper resource management in code", "No memory profiling or monitoring in place"]
  const GenericAnswers := ["Insufficient monitoring or testing", "Alert thresholds not configured",
                            "Needs review of monitoring strategy"]

  const SlowDatabase := "Database was slow to respond (latency: "
  const TrafficSpike := "Traffic spike ("
  const HighCpu := "CPU usage is high ("
  const OutOfMemory := "Out of memory error (usage: "

  /** Pair the five questions with their answers. */
  function Chain(questions: seq<string>, answers: seq<Message>): (r: seq<Why>)
    requires |questions| == 5 && |answers| == 5
    ensures |r| == 5 && forall i :: 0 <= i < 5 ==> r[i] == Why(questions[i], answers[i])
  {
    seq(5, i requires 0 <= i < 5 => Why(questions[i], answers[i]))
  }

  /** `generateFiveWhys`: always five, the metric that matters spliced into
      the themed ones, and the cause's own words in the generic one. */
  function FiveWhys(c: Cause, m: Metrics): (r: seq<Why>)
    ensures |r| == 5
    ensures WhyThemeOf(c) == DatabaseWhys ==>
      && r[1] == Why(DatabaseQuestions[1], WithNumber(SlowDatabase, m.dbLatency, "ms)"))
      && r[3] == Why(DatabaseQuestions[3], WithNumber(TrafficSpike, m.requestsPerSec, " req/sec)"))
    ensures WhyThemeOf(c) == CpuWhys ==> r[0] == Why(CpuQuestions[0], WithNumber(HighCpu, m.cpuUsage, "%)"))
    ensures WhyThemeOf(c) == MemoryWhys ==>
      r[0] == Why(MemoryQuestions[0], WithNumber(OutOfMemory, m.memoryUsage, "%)"))
    ensures WhyThemeOf(c) == GenericWhys ==>
      r[0] == Why(GenericQuestions[0], Plain(c.cause)) && r[1] == Why(GenericQuestions[1], Plain(c.reasoning))
  {
    match WhyThemeOf(c)
    case DatabaseWhys =>
      Chain(DatabaseQuestions,
            [Plain(DatabaseAnswers[0]),
             WithNumber(SlowDatabase, m.dbLatency, "ms)"),
             Plain(DatabaseAnswers[1]),
             WithNumber(TrafficSpike, m.requestsPerSec, " req/sec)"),
             Plain(DatabaseAnswers[2])])
    case CpuWhys =>
      Chain(CpuQuestions,
            [WithNumber(HighCpu, m.cpuUsage, "%)"),
             Plain(CpuAnswers[0]), Plain(CpuAnswers[1]), Plain(CpuAnswers[2]), Plain(CpuAnswers[3])])
    case MemoryWhys =>
      Chain(MemoryQuestions,
            [WithNumber(OutOfMemory, m.memoryUsage, "%)"),
             Plain(MemoryAnswers[0]), Plain(MemoryAnswers[1]), Plain(MemoryAnswers[2]), Plain(MemoryAnswers[3])])
    case GenericWhys =>
      Chain(GenericQuestions,
            [Plain(c.cause),
             Plain(c.reasoning),
             Plain(GenericAnswers[0]), Plain(GenericAnswers[1]), Plain(GenericAnswers[2])])
  }

  // Contributing factors

  /** A contributing factor, with the figure it quotes. */
  datatype Factor =
    | HighTraffic(requestsPerSec: real)
    | ElevatedCpu(cpuUsage: real)
    | HighMemory(memoryUsage: real)
    | SlowResponse(dbLatency: real)
    | CriticalErrors(occurrences: nat)
    | Sustained(windows: nat)
    | PoolExhaustion
    | TimeoutIssues
  {
    /** The sentence the source lists for the factor. */
    function Text(): Message
    {
      match this
      case HighTraffic(r) => WithNumber("High traffic load (", r, " requests/sec)")
      case ElevatedCpu(u) => WithNumber("Elevated CPU usage (", u, "%)")
      case HighMemory(u) => WithNumber("High memory usage (", u, "%)")
      case SlowResponse(l) => WithNumber("Slow database response (", l, "ms)")
      case CriticalErrors(n) => Plain("Critical errors present (" + NatToString(n) + " occurrences)")
      case Sustained(w) => Plain("Sustained issue across " + NatToString(w) + " time windows")
      case PoolExhaustion => Plain("Possible connection pool exhaustion")
      case TimeoutIssues => Plain("Network or query timeout issues")
    }
  }

  /** The factors `identifyContributingFactors` tests for, in its order,
      each with its condition. */
  function FactorBlocks(c: Cause, m: Metrics, s: Preprocessor.Summary): seq<(bool, seq<Factor>)>
  {
    [(m.requestsPerSec > 500.0, [HighTraffic(m.requestsPerSec)]),
     (m.cpuUsage > 75.0, [ElevatedCpu(m.cpuUsage)]),
     (m.memoryUsage > 80.0, [HighMemory(m.memoryUsage)]),
     (m.dbLatency > 300.0, [SlowResponse(m.dbLatency)]),
     (s.breakdown.critical > 0, [CriticalErrors(s.breakdown.critical)]),
     (s.windowCount > 3, [Sustained(s.windowCount)]),
     (Says(c, "connection"), [PoolExhaustion]),
     (Says(c, "timeout"), [TimeoutIssues])]
  }

  /** The eight factors are eight different values. */
  lemma FactorsDiffer(c: Cause, m: Metrics, s: Preprocessor.Summary)
    ensures NoDup(Everything(FactorBlocks(c, m, s)))
  {
    var blocks := FactorBlocks(c, m, s);
    assert blocks == blocks[..4] + blocks[4..];
    EverythingAppend(blocks[..4], blocks[4..]);
    EverythingOfFour(blocks[0], blocks[1], blocks[2], blocks[3]);
    EverythingOfFour(blocks[4], blocks[5], blocks[6], blocks[7]);
    assert blocks[..4] == [blocks[0], blocks[1], blocks[2], blocks[3]];
    assert blocks[4..] == [blocks[4], blocks[5], blocks[6], blocks[7]];
  }

  /** The factors whose condition holds, in the order they are tested. */
  lemma FactorsInOrder(c: Cause, m: Metrics, s: Preprocessor.Summary)
    ensures Appended(FactorBlocks(c, m, s)) ==
      (if m.requestsPerSec > 500.0 then [HighTraffic(m.requestsPerSec)] else [])
      + (if m.cpuUsage > 75.0 then [ElevatedCpu(m.cpuUsage)] else [])
      + (if m.memoryUsage > 80.0 then [HighMemory(m.memoryUsage)] else [])
      + (if m.dbLatency > 300.0 then [SlowResponse(m.dbLatency)] else [])
      + (if s.breakdown.critical > 0 then [CriticalErrors(s.breakdown.critical)] else [])
      + (if s.windowCount > 3 then [Sustained(s.windowCount)] else [])
      + (if Says(c, "connection") then [PoolExhaustion] else [])
      + (if Says(c, "timeout") then [TimeoutIssues] else [])
  {
    var blocks := FactorBlocks(c, m, s);
    AppendedOfEight(blocks[0], blocks[1], blocks[2], blocks[3], blocks[4], blocks[5], blocks[6], blocks[7]);
  }

  /** Each factor is listed exactly when its condition holds. */
  lemma FactorsPresent(c: Cause, m: Metrics, s: Preprocessor.Summary)
    ensures var r := Appended(FactorBlocks(c, m, s));
      && (HighTraffic(m.requestsPerSec) in r <==> m.requestsPerSec > 500.0)
      && (ElevatedCpu(m.cpuUsage) in r <==> m.cpuUsage > 75.0)
      && (HighMemory(m.memoryUsage) in r <==> m.memoryUsage > 80.0)
      && (SlowResponse(m.dbLatency) in r <==> m.dbLatency > 300.0)
      && (CriticalErrors(s.breakdown.critical) in r <==> s.breakdown.critical > 0)
      && (Sustained(s.windowCount) in r <==> s.windowCount > 3)
      && (PoolExhaustion in r <==> Says(c, "connection"))
      && (TimeoutIssues in r <==> Says(c, "timeout"))
  {
    var blocks := FactorBlocks(c, m, s);
    FactorsDiffer(c, m, s);
    AppendedHoldsUnique(blocks, 0, blocks[0].1[0]);
    AppendedHoldsUnique(blocks, 1, blocks[1].1[0]);
    AppendedHoldsUnique(blocks, 2, blocks[2].1[0]);
    AppendedHoldsUnique(blocks, 3, blocks[3].1[0]);
    AppendedHoldsUnique(blocks, 4, blocks[4].1[0]);
    AppendedHoldsUnique(blocks, 5, blocks[5].1[0]);
    AppendedHoldsUnique(blocks, 6, blocks[6].1[0]);
    AppendedHoldsUnique(blocks, 7, blocks[7].1[0]);
  }

  /** `identifyContributingFactors`: each factor is listed exactly when its
      condition holds, quoting the figure it was judged on, in the order
      the conditions are tested, and no factor is listed twice. */
  function ContributingFactors(c: Cause, m: Metrics, s: Preprocessor.Summary): (r: seq<Factor>)
    ensures r ==
      (if m.requestsPerSec > 500.0 then [HighTraffic(m.requestsPerSec)] else [])
      + (if m.cpuUsage > 75.0 then [ElevatedCpu(m.cpuUsage)] else [])
      + (if m.memoryUsage > 80.0 then [HighMemory(m.memoryUsage)] else [])
      + (if m.dbLatency > 300.0 then [SlowResponse(m.dbLatency)] else [])
      + (if s.breakdown.critical > 0 then [CriticalErrors(s.breakdown.critical)] else [])
      + (if s.windowCount > 3 then [Sustained(s.windowCount)] else [])
      + (if Says(c, "connection") then [PoolExhaustion] else [])
      + (if Says(c, "timeout") then [TimeoutIssues] else [])
    ensures HighTraffic(m.requestsPerSec) in r <==> m.requestsPerSec > 500.0
    ensures ElevatedCpu(m.cpuUsage) in r <==> m.cpuUsage > 75.0
    ensures HighMemory(m.memoryUsage) in r <==> m.memoryUsage > 80.0
    ensures SlowResponse(m.dbLatency) in r <==> m.dbLatency > 300.0
    ensures CriticalErrors(s.breakdown.critical) in r <==> s.breakdown.critical > 0
    ensures Sustained(s.windowCount) in r <==> s.windowCount > 3
    ensures PoolExhaustion in r <==> Says(c, "connection")
    ensures TimeoutIssues in r <==> Says(c, "timeout")
    ensures NoDup(r)
  {
    var blocks := FactorBlocks(c, m, s);
    FactorsDiffer(c, m, s);
    FactorsInOrder(c, m, s);
    FactorsPresent(c, m, s);
    AppendedNoDup(blocks);
    Appended(blocks)
  }

  // Immediate actions

  /** Each action carries a mark, urgent or soon, reproduced as the source
      text shows it ("游댮" and "游리"). */
  const DatabaseActions := ["游댮 URGENT: Increase database connection pool size",
                            "游댮 Check database server health and resources",
                            "游리 Review and kill long-running queries",
                            "游리 Enable query caching if not already enabled"]
  const CpuActions := ["游댮 URGENT: Scale up application servers",
                       "游리 Profile application to identify CPU hotspots",
                       "游리 Check for infinite loops or heavy computations"]
  const MemoryActions := ["游댮 URGENT: Restart affected services to free memory",
                          "游리 Check for memory leaks",
                          "游리 Review caching strategy"]
  const GenericActions := ["游리 Review application logs for detailed error messages",
                           "游리 Check system resources (CPU, Memory, Disk)",
                           "游리 Verify external service dependencies"]

  predicate NeedsDatabaseActions(c: Cause) { Says(c, "database") || Says(c, "connection") }
  predicate NeedsCpuActions(c: Cause, m: Metrics) { Says(c, "cpu") || m.cpuUsage > 80.0 }
  predicate NeedsMemoryActions(c: Cause, m: Metrics) { Says(c, "memory") || m.memoryUsage > 85.0 }

  function ActionBlocks(c: Cause, m: Metrics): seq<(bool, seq<string>)>
  {
    [(NeedsDatabaseActions(c), DatabaseActions),
     (NeedsCpuActions(c, m), CpuActions),
     (NeedsMemoryActions(c, m), MemoryActions)]
  }

  /** No action text is used twice. */
  lemma ActionsDiffer(c: Cause, m: Metrics)
    ensures NoDup(Everything(ActionBlocks(c, m)))
    ensures forall i :: 0 <= i < |ActionBlocks(c, m)| ==> GenericActions[0] !in ActionBlocks(c, m)[i].1
  {
    var blocks := ActionBlocks(c, m);
    EverythingOfThree(blocks[0], blocks[1], blocks[2]);
  }

  /** The flagged action groups, before the generic fallback: the groups in
      order, each whole or absent, no action twice, never the generic one. */
  lemma ImmediateBlocks(c: Cause, m: Metrics)
    ensures var actions := Appended(ActionBlocks(c, m));
      && NoDup(actions) && GenericActions[0] !in actions
      && actions == (if NeedsDatabaseActions(c) then DatabaseActions else [])
                  + (if NeedsCpuActions(c, m) then CpuActions else [])
                  + (if NeedsMemoryActions(c, m) then MemoryActions else [])
      && (forall a :: a in DatabaseActions ==> (a in actions <==> NeedsDatabaseActions(c)))
      && (forall a :: a in CpuActions ==> (a in actions <==> NeedsCpuActions(c, m)))
      && (forall a :: a in MemoryActions ==> (a in actions <==> NeedsMemoryActions(c, m)))
  {
    var blocks := ActionBlocks(c, m);
    ActionsDiffer(c, m);
    forall k, a | 0 <= k < 3 && a in blocks[k].1 ensures a in Appended(blocks) <==> blocks[k].0 {
      AppendedHoldsUnique(blocks, k, a);
    }
    AppendedNoDup(blocks);
    AppendedMembership(blocks, GenericActions[0]);
    AppendedOfThree(blocks[0], blocks[1], blocks[2]);
  }

  /** `generateImmediateActions`: each group of actions is listed exactly
      when its condition holds, in the source's order (database, CPU,
      memory), and the generic ones exactly when none does; so the list is
      never empty, and it never repeats an action. */
  function ImmediateActions(c: Cause, m: Metrics): (r: seq<string>)
    ensures |r| > 0 && NoDup(r)
    ensures forall a :: a in DatabaseActions ==> (a in r <==> NeedsDatabaseActions(c))
    ensures forall a :: a in CpuActions ==> (a in r <==> NeedsCpuActions(c, m))
    ensures forall a :: a in MemoryActions ==> (a in r <==> NeedsMemoryActions(c, m))
    ensures GenericActions[0] !in r ==>
      r == (if NeedsDatabaseActions(c) then DatabaseActions else [])
         + (if NeedsCpuActions(c, m) then CpuActions else [])
         + (if NeedsMemoryActions(c, m) then MemoryActions else [])
    ensures GenericActions[0] in r <==> !NeedsDatabaseActions(c) && !NeedsCpuActions(c, m) && !NeedsMemoryActions(c, m)
    ensures GenericActions[0] in r ==> r == GenericActions
  {
    ImmediateBlocks(c, m);
    var actions := Appended(ActionBlocks(c, m));
    if |actions| == 0 then GenericActions else actions
  }

  // Prevention steps and lessons

  const DatabasePrevention := ["Implement auto-scaling for database connection pool",
                               "Set up monitoring alerts for DB latency > 200ms",
                               "Regular database query optimization reviews",
                               "Implement read replicas for load distribution"]
  const PerformancePrevention := ["Implement horizontal auto-scaling based on CPU metrics",
                                  "Regular performance profiling and optimization",
                                  "Load testing before major releases",
                                  "Implement caching strategy (Redis/Memcached)"]
  const MemoryPrevention := ["Regular memory profiling to detect leaks",
                             "Implement memory limits and monitoring",
                             "Review object lifecycle and garbage collection"]
  const GeneralPrevention := ["Set up comprehensive monitoring and alerting",
                              "Implement circuit breakers for external dependencies",
                              "Regular disaster recovery drills",
                              "Document runbooks for common incidents"]

  /** The steps `generatePreventionSteps` collects before `array_unique`. */
  function PreventionBlocks(c: Cause): seq<(bool, seq<string>)>
  {
    [(Says(c, "database"), DatabasePrevention),
     (Says(c, "cpu") || Says(c, "performance"), PerformancePrevention),
     (Says(c, "memory"), MemoryPrevention),
     (true, GeneralPrevention)]
  }

  /** No prevention step is used twice. */
  lemma PreventionDiffers(c: Cause)
    ensures NoDup(Everything(PreventionBlocks(c)))
  {
    var blocks := PreventionBlocks(c);
    EverythingOfFour(blocks[0], blocks[1], blocks[2], blocks[3]);
  }

  /** `generatePreventionSteps`: each group of steps is listed exactly when
      its keywords occur, and the four general steps always close the list.
      The collected steps never repeat, so `array_unique` drops nothing. */
  function PreventionSteps(c: Cause): (r: seq<string>)
    ensures NoDup(r)
    ensures r == Appended(PreventionBlocks(c))
    ensures DatabasePrevention[0] in r <==> Says(c, "database")
    ensures PerformancePrevention[0] in r <==> Says(c, "cpu") || Says(c, "performance")
    ensures MemoryPrevention[0] in r <==> Says(c, "memory")
    ensures |r| >= 4 && r[|r| - 4..] == GeneralPrevention
  {
    var blocks := PreventionBlocks(c);
    PreventionDiffers(c);
    AppendedHoldsUnique(blocks, 0, DatabasePrevention[0]);
    AppendedHoldsUnique(blocks, 1, PerformancePrevention[0]);
    AppendedHoldsUnique(blocks, 2, MemoryPrevention[0]);
    AppendedNoDup(blocks);
    DedupOfNoDup(Appended(blocks));
    assert Appended(blocks) == Appended(blocks[..3]) + GeneralPrevention;
    Dedup(Appended(blocks))
  }

  /** A lesson `generateLessonsLearned` can draw. */
  datatype Lesson =
    | PoolNotSized
    | ConnectionPlanning
    | Persisted(minutes: nat)
    | FasterAlerting
    | ThresholdsReview
    | EarlierScaling
    | FailureModeTesting
    | Dashboards
  {
    /** The sentence the source lists for the lesson. */
    function Text(): string
    {
      match this
      case PoolNotSized => "Connection pool size was not optimized for peak load"
      case ConnectionPlanning => "Need better capacity planning for database connections"
      case Persisted(n) => "Issue persisted for " + NatToString(n) + " minutes before detection"
      case FasterAlerting => "Need faster alerting for critical errors"
      case ThresholdsReview => "Resource thresholds need to be reviewed and adjusted"
      case EarlierScaling => "Auto-scaling should trigger earlier"
      case FailureModeTesting => "Load testing scenarios should include this failure mode"
      case Dashboards => "Need better monitoring dashboards for quick diagnosis"
    }
  }

  const TestingLessons := [FailureModeTesting, Dashboards]

  /** The lessons each condition of `generateLessonsLearned` adds; the
      monitoring lesson quotes five minutes per window. */
  function LessonBlocks(c: Cause, m: Metrics, s: Preprocessor.Summary): seq<(bool, seq<Lesson>)>
  {
    [(Says(c, "connection") || Says(c, "pool"), [PoolNotSized, ConnectionPlanning]),
     (s.windowCount > 2, [Persisted(s.windowCount * 5), FasterAlerting]),
     (m.cpuUsage > 80.0 || m.memoryUsage > 80.0, [ThresholdsReview, EarlierScaling]),
     (true, TestingLessons)]
  }

  /** The lessons whose condition holds, in the order they are tested. */
  lemma LessonsInOrder(c: Cause, m: Metrics, s: Preprocessor.Summary)
    ensures Appended(LessonBlocks(c, m, s)) ==
      (if Says(c, "connection") || Says(c, "pool") then [PoolNotSized, ConnectionPlanning] else [])
      + (if s.windowCount > 2 then [Persisted(s.windowCount * 5), FasterAlerting] else [])
      + (if m.cpuUsage > 80.0 || m.memoryUsage > 80.0 then [ThresholdsReview, EarlierScaling] else [])
      + TestingLessons
  {
    var blocks := LessonBlocks(c, m, s);
    AppendedOfFour(blocks[0], blocks[1], blocks[2], blocks[3]);
  }

  /** `generateLessonsLearned`: each pair of lessons is listed exactly when
      its condition holds, and the testing lessons always close the list.
      The source does not deduplicate, and it need not: no lesson repeats. */
  function LessonsLearned(c: Cause, m: Metrics, s: Preprocessor.Summary): (r: seq<Lesson>)
    ensures NoDup(r)
    ensures PoolNotSized in r <==> Says(c, "connection") || Says(c, "pool")
    ensures FasterAlerting in r <==> s.windowCount > 2
    ensures ThresholdsReview in r <==> m.cpuUsage > 80.0 || m.memoryUsage > 80.0
    ensures |r| >= 2 && r[|r| - 2..] == TestingLessons
    ensures r ==
      (if Says(c, "connection") || Says(c, "pool") then [PoolNotSized, ConnectionPlanning] else [])
      + (if s.windowCount > 2 then [Persisted(s.windowCount * 5), FasterAlerting] else [])
      + (if m.cpuUsage > 80.0 || m.memoryUsage > 80.0 then [ThresholdsReview, EarlierScaling] else [])
      + TestingLessons
  {
    var blocks := LessonBlocks(c, m, s);
    EverythingOfFour(blocks[0], blocks[1], blocks[2], blocks[3]);
    LessonsInOrder(c, m, s);
    AppendedHoldsUnique(blocks, 0, PoolNotSized);
    AppendedHoldsUnique(blocks, 1, FasterAlerting);
    AppendedHoldsUnique(blocks, 2, ThresholdsReview);
    AppendedNoDup(blocks);
    assert Appended(blocks) == Appended(blocks[..3]) + TestingLessons;
    Appended(blocks)
  }

  /** The monitoring lesson is drawn exactly when the incident spans more
      than two windows, and the duration it quotes is the timeline's. */
  lemma LessonQuotesTimeline(c: Cause, m: Metrics, s: Preprocessor.Summary, now: int)
    ensures (exists l :: l in LessonsLearned(c, m, s) && l.Persisted?) <==> s.windowCount > 2
    ensures forall l :: l in LessonsLearned(c, m, s) && l.Persisted? ==> l.minutes == BuildTimeline(s, now).durationMinutes
  {
    var configuration := if Says(c, "connection") || Says(c, "pool") then [PoolNotSized, ConnectionPlanning] else [];
    var monitoring := if s.windowCount > 2 then [Persisted(s.windowCount * 5), FasterAlerting] else [];
    var resources := if m.cpuUsage > 80.0 || m.memoryUsage > 80.0 then [ThresholdsReview, EarlierScaling] else [];
    var r := LessonsLearned(c, m, s);
    assert r == configuration + monitoring + resources + TestingLessons;
    forall l | l in r
      ensures l.Persisted? <==> l in monitoring && l == Persisted(s.windowCount * 5)
    {
      assert l in configuration || l in monitoring || l in resources || l in TestingLessons;
    }
    assert s.windowCount > 2 ==> monitoring[0] in r;
  }

  // The decision

  /** The root-cause analysis `buildRCA` assembles. */
  datatype Rca = Rca(
    rootCause: string,
    confidence: real,
    timeline: Timeline,
    impact: Impact,
    fiveWhys: seq<Why>,
    contributingFactors: seq<Factor>,
    evidence: seq<Message>,
    immediateActions: seq<string>,
    preventionSteps: seq<string>,
    lessonsLearned: seq<Lesson>)

  /** `buildRCA`: the analysis of the top cause, each part drawn from the
      step that builds it, whose lists never repeat an entry. */
  function BuildRca(top: Cause, m: Metrics, s: Preprocessor.Summary, now: int): (r: Rca)
    ensures r.rootCause == top.cause && r.confidence == top.confidence && r.evidence == top.evidence
    ensures r.timeline == BuildTimeline(s, now) && r.impact == AssessImpact(s, m) && r.fiveWhys == FiveWhys(top, m)
    ensures r.contributingFactors == ContributingFactors(top, m, s)
    ensures r.immediateActions == ImmediateActions(top, m) && r.preventionSteps == PreventionSteps(top)
    ensures r.lessonsLearned == LessonsLearned(top, m, s)
    ensures r.timeline.durationMinutes == 5 * s.windowCount && r.timeline.incidentDetected == now
    ensures |r.fiveWhys| == 5
    ensures NoDup(r.immediateActions) && NoDup(r.preventionSteps) && NoDup(r.lessonsLearned)
  {
    Rca(top.cause, top.confidence, BuildTimeline(s, now), AssessImpact(s, m), FiveWhys(top, m),
        ContributingFactors(top, m, s), top.evidence, ImmediateActions(top, m), PreventionSteps(top),
        LessonsLearned(top, m, s))
  }

  /** The ranked causes, and the one `decide` takes. */
  datatype Choice = Choice(ranked: seq<Cause>, top: Cause)

  /** Enhance and rank the proposed causes, and take the first, or the
      default cause when none was proposed. */
  function Choose(causes: seq<Cause>, m: Metrics, s: Preprocessor.Summary): (ch: Choice)
    ensures multiset(ch.ranked) == multiset(EnhanceAll(causes, m, s)) && SortedByConfidence(ch.ranked)
    ensures |ch.ranked| > 0 ==>
      && ch.top == ch.ranked[0] && ch.top.confidence <= 0.99
      && forall c :: c in ch.ranked ==> c.confidence <= ch.top.confidence
    ensures |ch.ranked| == 0 ==> ch.top == DefaultCause && |causes| == 0
  {
    var enhanced := EnhanceAll(causes, m, s);
    var ranked := Rank(enhanced);
    var top := if |ranked| > 0 then ranked[0] else DefaultCause;
    assert |ranked| > 0 ==> top.confidence <= 0.99 by {
      if |ranked| > 0 {
        assert top in multiset(enhanced);
      }
    }
    assert |ranked| > 0 ==> forall c :: c in ranked ==> c.confidence <= top.confidence by {
      if |ranked| > 0 {
        FirstIsMostConfident(ranked);
      }
    }
    Choice(ranked, top)
  }

  /** The head of a ranked list is at least as confident as every cause in it. */
  lemma FirstIsMostConfident(cs: seq<Cause>)
    requires |cs| > 0 && SortedByConfidence(cs)
    ensures forall c :: c in cs ==> c.confidence <= cs[0].confidence
  {
  }

  /** Every proposed cause is ranked, and none is more confident than the
      one taken. */
  lemma ChooseTakesTheMostConfident(causes: seq<Cause>, m: Metrics, s: Preprocessor.Summary, c: Cause)
    requires c in causes
    ensures EnhanceCause(c, m, s) in Choose(causes, m, s).ranked
    ensures EnhanceCause(c, m, s).confidence <= Choose(causes, m, s).top.confidence
  {
    var i :| 0 <= i < |causes| && causes[i] == c;
    var enhanced := EnhanceAll(causes, m, s);
    assert enhanced[i] in multiset(enhanced);
  }

  datatype Decision = Decision(
    likelyCause: string,
    confidence: real,
    reasoning: string,
    nextSteps: seq<string>,
    aiSuggestions: Analysis.Suggestions,
    correlatedSignals: seq<Signal>,
    allCauses: seq<Cause>,
    rca: Rca)

  /** `decide`: enhance and rank the proposed causes (none when
      `probable_causes` is missing), take the first or the default, and build
      the analysis around it, timed at `now`. */
  function Decide(suggestions: Analysis.Suggestions, m: Metrics, s: Preprocessor.Summary, now: int): (d: Decision)
    ensures var enhanced := EnhanceAll(suggestions.probableCauses.GetOr([]), m, s);
      multiset(d.allCauses) == multiset(enhanced) && SortedByConfidence(d.allCauses)
    ensures |d.allCauses| > 0 ==>
      && d.likelyCause == d.allCauses[0].cause
      && d.confidence == d.allCauses[0].confidence
      && d.reasoning == d.allCauses[0].reasoning
      && d.confidence <= 0.99
      && forall c :: c in d.allCauses ==> c.confidence <= d.confidence
    ensures |d.allCauses| == 0 ==>
      && d.likelyCause == "Unknown issue - requires manual investigation"
      && d.confidence == 0.3
      && d.reasoning == "Insufficient data to determine root cause"
    ensures d.rca.rootCause == d.likelyCause && d.rca.confidence == d.confidence
    ensures d.rca.timeline.incidentDetected == now
    ensures NoDup(d.nextSteps)
    ensures d.aiSuggestions == suggestions
    ensures var top := if |d.allCauses| > 0 then d.allCauses[0] else DefaultCause;
      && d.nextSteps == NextSteps(top)
      && d.correlatedSignals == CorrelatedSignals(m, s)
      && d.rca == BuildRca(top, m, s, now)
  {
    var ch := Choose(suggestions.probableCauses.GetOr([]), m, s);
    Decision(ch.top.cause, ch.top.confidence, ch.top.reasoning, NextSteps(ch.top), suggestions,
             CorrelatedSignals(m, s), ch.ranked, BuildRca(ch.top, m, s, now))
  }

  /** The chosen cause has the highest enhanced confidence of all proposed,
      and every proposed cause is ranked. */
  lemma DecideTakesTheMostConfident(suggestions: Analysis.Suggestions, m: Metrics, s: Preprocessor.Summary,
                                    now: int, c: Cause)
    requires suggestions.probableCauses.Some? && c in suggestions.probableCauses.value
    ensures EnhanceCause(c, m, s) in Decide(suggestions, m, s, now).allCauses
    ensures EnhanceCause(c, m, s).confidence <= Decide(suggestions, m, s, now).confidence
  {
    ChooseTakesTheMostConfident(suggestions.probableCauses.value, m, s, c);
  }
}

=== FILE: grouping.dfy ===
/** Grouping a list by a key the way PHP builds `$grouped[$key][] = $x` and
    then `array_merge(...array_values($grouped))`: keys in order of first
    appearance, each bucket in input order, buckets concatenated. */
module Grouping {
  import opened Seqs

  /** Whether an element has key `w`, as a function value for `Filter`. */
  function HasKey<T, K(==)>(key: T -> K, w: K): T -> bool
  {
    x => key(x) == w
  }

  /** The elements with key `w`, in their original order. */
  function WithKey<T, K(==)>(xs: seq<T>, key: T -> K, w: K): seq<T>
  {
    Filter(xs, HasKey(key, w))
  }

  /** The buckets one after the other. */
  function Flatten<T>(bs: seq<seq<T>>): seq<T>
    decreases |bs|
  {
    if |bs| == 0 then [] else Flatten(bs[..|bs| - 1]) + bs[|bs| - 1]
  }

  /** No element of `xs` has key `w`. */
  lemma {:induction false} WithKeyAbsent<T, K>(xs: seq<T>, key: T -> K, w: K)
    requires w !in Map(xs, key)
    ensures WithKey(xs, key, w) == []
    decreases |xs|
  {
    if |xs| > 0 {
      var init := xs[..|xs| - 1];
      assert Map(xs, key)[..|xs| - 1] == Map(init, key);
      assert key(xs[|xs| - 1]) == Map(xs, key)[|xs| - 1];
      WithKeyAbsent(init, key, w);
    }
  }

  /** Growing one bucket by one element grows the flattened list by that element. */
  lemma {:induction false} FlattenUpdate<T>(bs: seq<seq<T>>, b: nat, x: T)
    requires b < |bs|
    ensures multiset(Flatten(bs[b := bs[b] + [x]])) == multiset(Flatten(bs)) + multiset{x}
    decreases |bs|
  {
    var bs' := bs[b := bs[b] + [x]];
    var n := |bs| - 1;
    assert Flatten(bs) == Flatten(bs[..n]) + bs[n];
    assert Flatten(bs') == Flatten(bs'[..n]) + bs'[n];
    if b < n {
      assert bs'[..n] == bs[..n][b := bs[b] + [x]] && bs'[n] == bs[n];
      FlattenUpdate(bs[..n], b, x);
    } else {
      assert bs'[..n] == bs[..n] && bs'[n] == bs[n] + [x];
    }
  }

  /** Selecting key `w` from the bucket of key `k`. */
  lemma WithKeyTwice<T, K>(xs: seq<T>, key: T -> K, k: K, w: K)
    ensures WithKey(WithKey(xs, key, k), key, w) == if k == w then WithKey(xs, key, w) else []
  {
    var f := WithKey(xs, key, k);
    forall x | x in f
      ensures key(x) == k
    {
      FilterMembership(xs, HasKey(key, k), x);
    }
    if k == w {
      FilterAll(f, HasKey(key, w));
    } else {
      FilterNone(f, HasKey(key, w));
    }
  }

  /** Key `w`'s elements among the first `n` buckets: all of them if `w` is
      one of the first `n` keys, none otherwise. */
  lemma {:induction false} WithKeyFlattenPrefix<T, K>(xs: seq<T>, key: T -> K, ws: seq<K>, bs: seq<seq<T>>, n: nat, w: K)
    requires |bs| == |ws| && n <= |ws| && NoDup(ws)
    requires forall b :: 0 <= b < |bs| ==> bs[b] == WithKey(xs, key, ws[b])
    ensures WithKey(Flatten(bs[..n]), key, w) == if w in ws[..n] then WithKey(xs, key, w) else []
    decreases n
  {
    if n > 0 {
      var front, last := bs[..n - 1], bs[n - 1];
      WithKeyFlattenPrefix(xs, key, ws, bs, n - 1, w);
      assert bs[..n] == front + [last];
      assert Flatten(bs[..n]) == Flatten(front) + last;
      FilterConcat(Flatten(front), last, HasKey(key, w));
      WithKeyTwice(xs, key, ws[n - 1], w);
      assert ws[..n] == ws[..n - 1] + [ws[n - 1]];
      if w == ws[n - 1] {
        assert w !in ws[..n - 1];
      }
    }
  }

  /** Bucket `b` holds the elements of `xs` with key `keys[b]`. */
  ghost predicate Buckets<T, K>(xs: seq<T>, key: T -> K, keys: seq<K>, buckets: seq<seq<T>>)
  {
    |buckets| == |keys| && forall b :: 0 <= b < |buckets| ==> buckets[b] == WithKey(xs, key, keys[b])
  }

  /** `keys` and `buckets` are the grouping of `xs`. */
  ghost predicate GroupedSoFar<T, K>(xs: seq<T>, key: T -> K, keys: seq<K>, buckets: seq<seq<T>>)
  {
    && keys == Dedup(Map(xs, key))
    && Buckets(xs, key, keys, buckets)
    && multiset(Flatten(buckets)) == multiset(xs)
  }

  /** The position of `x` in `s`. */
  function IndexOf<K(==)>(s: seq<K>, x: K): (i: nat)
    requires x in s
    ensures i < |s| && s[i] == x
  {
    if s[0] == x then 0 else 1 + IndexOf(s[1..], x)
  }

  /** Appending an element opens a new key exactly when its key is new. */
  lemma KeysStep<T, K>(xs: seq<T>, key: T -> K, x: T)
    ensures var keys := Dedup(Map(xs, key));
      Dedup(Map(xs + [x], key)) == if key(x) in keys then keys else keys + [key(x)]
  {
    var m := Map(xs + [x], key);
    assert m[..|xs|] == Map(xs, key);
    assert m[|xs|] == key(x);
  }

  /** Appending an element adds it to its own key's bucket only. */
  lemma BucketStep<T, K>(xs: seq<T>, key: T -> K, x: T, w: K)
    ensures WithKey(xs + [x], key, w) == WithKey(xs, key, w) + (if key(x) == w then [x] else [])
  {
    FilterConcat(xs, [x], HasKey(key, w));
    assert Filter([x], HasKey(key, w)) == if key(x) == w then [x] else [];
  }

  /** Appending an element whose key already has bucket `b`. */
  lemma OldKeyStep<T, K>(xs: seq<T>, key: T -> K, keys: seq<K>, buckets: seq<seq<T>>, x: T, b: nat)
    requires Buckets(xs, key, keys, buckets) && NoDup(keys)
    requires b < |keys| && keys[b] == key(x)
    ensures Buckets(xs + [x], key, keys, buckets[b := buckets[b] + [x]])
  {
    var buckets' := buckets[b := buckets[b] + [x]];
    forall c | 0 <= c < |buckets'|
      ensures buckets'[c] == WithKey(xs + [x], key, keys[c])
    {
      BucketStep(xs, key, x, keys[c]);
      if c != b {
        assert keys[c] != keys[b];
      }
    }
  }

  /** Appending an element whose key has no bucket yet. */
  lemma NewKeyStep<T, K>(xs: seq<T>, key: T -> K, keys: seq<K>, buckets: seq<seq<T>>, x: T)
    requires Buckets(xs, key, keys, buckets)
    requires key(x) !in Map(xs, key) && key(x) !in keys
    ensures Buckets(xs + [x], key, keys + [key(x)], buckets + [[x]])
  {
    WithKeyAbsent(xs, key, key(x));
    var keys', buckets' := keys + [key(x)], buckets + [[x]];
    forall c | 0 <= c < |buckets'|
      ensures buckets'[c] == WithKey(xs + [x], key, keys'[c])
    {
      BucketStep(xs, key, x, keys'[c]);
      if c < |buckets| {
        assert buckets'[c] == buckets[c] && keys'[c] == keys[c];
      } else {
        assert WithKey(xs, key, keys'[c]) == [];
      }
    }
  }

  /** One step of the loop: append `x` to its key's bucket, opening the
      bucket first if the key is new. */
  method Add<T, K(==)>(ghost xs: seq<T>, key: T -> K, keys: seq<K>, buckets: seq<seq<T>>, x: T)
    returns (keys': seq<K>, buckets': seq<seq<T>>)
    requires GroupedSoFar(xs, key, keys, buckets)
    ensures GroupedSoFar(xs + [x], key, keys', buckets')
  {
    var k := key(x);
    KeysStep(xs, key, x);
    if k in keys {
      var b := IndexOf(keys, k);
      OldKeyStep(xs, key, keys, buckets, x, b);
      FlattenUpdate(buckets, b, x);
      keys', buckets' := keys, buckets[b := buckets[b] + [x]];
    } else {
      NewKeyStep(xs, key, keys, buckets, x);
      keys', buckets' := keys + [k], buckets + [[x]];
      assert buckets'[..|buckets'| - 1] == buckets;
    }
  }

  /** Concatenating the buckets leaves every key's elements, and their
      order, as they were. */
  lemma RegroupedKeys<T, K>(xs: seq<T>, key: T -> K, keys: seq<K>, buckets: seq<seq<T>>)
    requires Buckets(xs, key, keys, buckets) && NoDup(keys)
    requires forall i :: 0 <= i < |xs| ==> key(xs[i]) in keys
    ensures forall w :: WithKey(Flatten(buckets), key, w) == WithKey(xs, key, w)
  {
    forall w
      ensures WithKey(Flatten(buckets), key, w) == WithKey(xs, key, w)
    {
      WithKeyFlattenPrefix(xs, key, keys, buckets, |keys|, w);
      assert buckets[..|keys|] == buckets && keys[..|keys|] == keys;
      if w !in keys {
        assert w !in Map(xs, key);
        WithKeyAbsent(xs, key, w);
      }
    }
  }

  /** What a completed grouping guarantees. */
  lemma Regrouped<T, K>(xs: seq<T>, key: T -> K, keys: seq<K>, buckets: seq<seq<T>>)
    requires GroupedSoFar(xs, key, keys, buckets)
    ensures NoDup(keys) && multiset(Flatten(buckets)) == multiset(xs)
    ensures forall w :: WithKey(Flatten(buckets), key, w) == WithKey(xs, key, w)
  {
    forall i | 0 <= i < |xs|
      ensures key(xs[i]) in keys
    {
      assert Map(xs, key)[i] == key(xs[i]);
      DedupMembership(Map(xs, key), key(xs[i]));
    }
    RegroupedKeys(xs, key, keys, buckets);
  }

  /** Each key's elements, key by key. */
  function BucketsOf<T, K(==)>(xs: seq<T>, key: T -> K, keys: seq<K>): (bs: seq<seq<T>>)
    ensures |bs| == |keys| && forall b :: 0 <= b < |keys| ==> bs[b] == WithKey(xs, key, keys[b])
  {
    Map(keys, w => WithKey(xs, key, w))
  }

  /** The reference grouping: for each key in turn, its elements in input order. */
  function Regroup<T, K(==)>(xs: seq<T>, key: T -> K, keys: seq<K>): seq<T>
  {
    Flatten(BucketsOf(xs, key, keys))
  }

  /** Buckets that hold each key's elements flatten to the reference grouping. */
  lemma BucketsRegroup<T, K>(xs: seq<T>, key: T -> K, keys: seq<K>, buckets: seq<seq<T>>)
    requires Buckets(xs, key, keys, buckets)
    ensures Flatten(buckets) == Regroup(xs, key, keys)
  {
    assert buckets == BucketsOf(xs, key, keys);
  }

  /** What a loop that has consumed all of `xs` has built. */
  lemma GroupedAll<T, K>(xs: seq<T>, key: T -> K, keys: seq<K>, buckets: seq<seq<T>>)
    requires GroupedSoFar(xs, key, keys, buckets)
    ensures keys == Dedup(Map(xs, key)) && NoDup(keys)
    ensures Flatten(buckets) == Regroup(xs, key, keys)
    ensures multiset(Flatten(buckets)) == multiset(xs)
    ensures forall w :: WithKey(Flatten(buckets), key, w) == WithKey(xs, key, w)
  {
    BucketsRegroup(xs, key, keys, buckets);
    Regrouped(xs, key, keys, buckets);
  }

  /** Group `xs` by `key`: the keys in order of first appearance, and the
      elements reordered bucket by bucket. */
  method GroupBy<T, K(==)>(xs: seq<T>, key: T -> K) returns (grouped: seq<T>, keys: seq<K>)
    ensures keys == Dedup(Map(xs, key)) && NoDup(keys)
    ensures grouped == Regroup(xs, key, keys)
    ensures multiset(grouped) == multiset(xs)
    ensures forall w :: WithKey(grouped, key, w) == WithKey(xs, key, w)
  {
    keys := [];
    var buckets: seq<seq<T>> := [];
    for i := 0 to |xs|
      invariant GroupedSoFar(xs[..i], key, keys, buckets)
    {
      keys, buckets := Add(xs[..i], key, keys, buckets, xs[i]);
      assert xs[..i] + [xs[i]] == xs[..i + 1];
    }
    assert xs[..|xs|] == xs;
    GroupedAll(xs, key, keys, buckets);
    grouped := Flatten(buckets);
  }
}

=== FILE: importer.dfy ===
/** `LogFileImporter::parseLogLine`: six formats tried in order, the first
    that matches decides the record, and the last one always applies. */
module Importer {
  import opened Options
  import opened Strings
  import opened Patterns
  import PatternLemmas
  import opened Records
  import Severity

  /** What the importer stores for one line, besides the raw line itself. */
  datatype Parsed = Parsed(timestamp: Timestamp, severity: string, message: string)

  /** The severities a parsed line can carry apart from format 1's free level word. */
  predicate KnownSeverity(s: string) { s in LevelNames }

  /** No ASCII upper-case letter. */
  predicate IsLowerCase(s: string) { forall k :: 0 <= k < |s| ==> !IsUpper(s[k]) }

  /** Lower-casing leaves no upper-case letter. */
  lemma ToLowerIsLowerCase(s: string)
    ensures IsLowerCase(ToLower(s))
  {
  }

  /** The name of the level inferred from `text` by the importer's rule order. */
  function Inferred(text: string): string
  {
    Severity.FromLine(text).Name()
  }

  /** What every record the importer builds satisfies: the message is the
      trimmed text of some part of the line, the severity is a non-empty
      lower-case word, and a captured timestamp is a non-empty run of
      timestamp bytes taken from the line. */
  predicate WellFormed(line: string, r: Parsed)
  {
    && IsTrimmed(r.message) && Contains(line, r.message)
    && IsLowerCase(r.severity) && |r.severity| > 0
    && (r.timestamp.Text? ==>
          && |r.timestamp.text| > 0 && Contains(line, r.timestamp.text)
          && AllIn(r.timestamp.text, 0, |r.timestamp.text|, PrefixClass))
  }

  /** A record built from a captured timestamp and message. */
  function Captured(line: string, stamp: Span, severity: string, message: Span): (r: Parsed)
    requires stamp.lo < stamp.hi && AllIn(line, stamp.lo, stamp.hi, PrefixClass)
    requires message.Within(line)
    requires IsLowerCase(severity) && |severity| > 0
    ensures WellFormed(line, r)
    ensures r.timestamp == Text(line[stamp.lo..stamp.hi]) && r.severity == severity
    ensures r.message == Trim(line[message.lo..message.hi])
  {
    var msg := message.Of(line);
    TrimContained(msg);
    ContainsInSlice(line, message.lo, message.hi, Trim(msg));
    var text := stamp.Of(line);
    assert OccursAt(line, text, stamp.lo);
    ContainsAt(line, text, stamp.lo);
    Parsed(Text(text), severity, Trim(msg))
  }

  /** A record for a line with no usable timestamp: the whole trimmed line,
      severity inferred from the whole line, stamped with the import time. */
  function Uncaptured(line: string): (r: Parsed)
    ensures WellFormed(line, r) && KnownSeverity(r.severity)
    ensures r.timestamp.Now? && r.severity == Inferred(line) && r.message == Trim(line)
  {
    TrimContained(line);
    InferredKnown(line);
    Parsed(Now, Inferred(line), Trim(line))
  }

  /** The severities the inferrer names are among the six. */
  lemma InferredKnown(text: string)
    ensures KnownSeverity(Inferred(text)) && IsLowerCase(Inferred(text)) && |Inferred(text)| > 0
  {
  }

  /** Stamp bytes are prefix-class bytes. */
  lemma StampIsPrefixClass(s: string, lo: nat, hi: nat)
    requires AllIn(s, lo, hi, Stamp)
    ensures AllIn(s, lo, hi, PrefixClass)
  {
    forall k | lo <= k < hi ensures In(s[k], PrefixClass) {
      assert In(s[k], Stamp);
    }
  }

  /** Format 1: `[timestamp] env.LEVEL: message`. */
  function Laravel(line: string): (r: Option<Parsed>)
    ensures r.Some? <==> BracketLevel(line).Some?
    ensures r.Some? ==> WellFormed(line, r.value)
    ensures r.Some? ==> var g := BracketLevel(line).value.groups;
      && r.value.timestamp == Text(g.stamp.Of(line))
      && r.value.severity == ToLower(g.level.Of(line))
      && r.value.message == Trim(g.message.Of(line))
  {
    match BracketLevel(line)
    case None => None
    case Some(f) =>
      var g := f.groups;
      StampIsPrefixClass(line, g.stamp.lo, g.stamp.hi);
      ToLowerIsLowerCase(g.level.Of(line));
      Some(Captured(line, g.stamp, ToLower(g.level.Of(line)), g.message))
  }

  /** Format 2: `[timestamp] message`, severity inferred from the message. */
  function Bracketed(line: string): (r: Option<Parsed>)
    ensures r.Some? <==> BracketStamp(line).Some?
    ensures r.Some? ==> WellFormed(line, r.value) && KnownSeverity(r.value.severity)
    ensures r.Some? ==> var g := BracketStamp(line).value.groups;
      && r.value.timestamp == Text(g.stamp.Of(line))
      && r.value.severity == Inferred(g.message.Of(line))
      && r.value.message == Trim(g.message.Of(line))
  {
    match BracketStamp(line)
    case None => None
    case Some(f) =>
      var g := f.groups;
      StampIsPrefixClass(line, g.stamp.lo, g.stamp.hi);
      InferredKnown(g.message.Of(line));
      Some(Captured(line, g.stamp, Inferred(g.message.Of(line)), g.message))
  }

  /** Format 3: `timestamp LEVEL: message` for the six level words, any case. */
  function PlainWithLevel(line: string): (r: Option<Parsed>)
    ensures r.Some? <==> PlainLevel(line).Some?
    ensures r.Some? ==> WellFormed(line, r.value) && KnownSeverity(r.value.severity)
    ensures r.Some? ==> var g := PlainLevel(line).value.groups;
      && r.value.timestamp == Text(g.stamp.Of(line))
      && r.value.severity == ToLower(g.level.Of(line))
      && r.value.message == Trim(g.message.Of(line))
  {
    match PlainLevel(line)
    case None => None
    case Some(f) =>
      var g := f.groups;
      StampIsPrefixClass(line, g.stamp.lo, g.stamp.hi);
      var level := ToLower(g.level.Of(line));
      ToLowerIsLowerCase(g.level.Of(line));
      PlainLevelWordLower(line, g);
      Some(Captured(line, g.stamp, level, g.message))
  }

  /** The anchored prefix match, when its timestamp has ten bytes or more. */
  function LeadingStamp(line: string): (m: Option<Groups2>)
    ensures m.Some? ==> TimestampPrefixShape(line, m.value) && m.value.stamp.hi >= 10
    ensures m.None? ==> TimestampPrefix(line).None? || TimestampPrefix(line).value.stamp.hi < 10
  {
    match TimestampPrefix(line)
    case Some(g) => if g.stamp.hi >= 10 then Some(g) else None
    case None => None
  }

  /** Format 5: a leading timestamp of at least ten bytes, severity inferred
      from the rest of the line. */
  function Prefixed(line: string): (r: Option<Parsed>)
    ensures r.Some? <==> LeadingStamp(line).Some?
    ensures r.Some? ==> WellFormed(line, r.value) && KnownSeverity(r.value.severity)
    ensures r.Some? ==> var g := LeadingStamp(line).value;
      && r.value.timestamp == Text(g.stamp.Of(line)) && |r.value.timestamp.text| >= 10
      && r.value.severity == Inferred(g.message.Of(line))
      && r.value.message == Trim(g.message.Of(line))
  {
    match LeadingStamp(line)
    case None => None
    case Some(g) =>
      InferredKnown(g.message.Of(line));
      Some(Captured(line, g.stamp, Inferred(g.message.Of(line)), g.message))
  }

  /** The importer's line parser. Every line yields a record: the first
      format whose pattern matches decides it, and a line no format takes is
      kept whole with the import time. */
  function ParseLogLine(line: string): (r: Parsed)
    ensures WellFormed(line, r)
    ensures BracketLevel(line).Some? ==> r == Laravel(line).value
    ensures BracketLevel(line).None? && BracketStamp(line).Some? ==> r == Bracketed(line).value
    ensures BracketStamp(line).None? && PlainLevel(line).Some? ==> r == PlainWithLevel(line).value
    ensures BracketStamp(line).None? && PlainLevel(line).None? && ApacheBracket(line).Some? ==>
              r == Uncaptured(line)
    ensures BracketStamp(line).None? && PlainLevel(line).None? && ApacheBracket(line).None? ==>
              r == if LeadingStamp(line).Some? then Prefixed(line).value else Uncaptured(line)
    // only format 1 can yield a level outside the six names
    ensures !KnownSeverity(r.severity) ==> BracketLevel(line).Some?
    // the import time is used only by the Apache and generic formats, which keep the whole line
    ensures r.timestamp.Now? ==> r.message == Trim(line) && r.severity == Inferred(line)
  {
    PatternLemmas.NoBracketStampNoBracketLevel(line);
    if Laravel(line).Some? then Laravel(line).value
    else if Bracketed(line).Some? then Bracketed(line).value
    else if PlainWithLevel(line).Some? then PlainWithLevel(line).value
    else if ApacheBracket(line).Some? then Uncaptured(line)
    else if Prefixed(line).Some? then Prefixed(line).value
    else Uncaptured(line)
  }

  /** The level word of the plain level pattern lower-cases to one of the six names. */
  lemma PlainLevelWordLower(line: string, g: Groups3)
    requires PlainLevelShape(line, g.stamp.lo, g)
    ensures KnownSeverity(ToLower(line[g.level.lo..g.level.hi]))
  {
    LevelWordName(line, g.level.lo, g.level.hi);
  }
}

=== FILE: options.dfy ===
/** The optional value used for PHP's `null` / missing array keys and for
    pattern matches that may fail. */
module Options {

  datatype Option<+T> = None | Some(value: T) {

    /** The value, or `default` when absent (PHP's `??` operator). */
    function GetOr(default: T): T
    {
      match this
      case Some(v) => v
      case None => default
    }
  }
}

=== FILE: pattern_lemmas.dfy ===
/** Completeness of the matchers in `Patterns`. Each matcher is already
    sound (what it returns has the pattern's shape); the lemmas here show
    the converse: wherever the shape occurs the matcher finds a match, and
    the match it returns is the one PCRE's quantifiers prefer among all that
    fit — the most spaces for a greedy `\s+` or timestamp class, the first
    `]` or word for a lazy `.*?`. Together with soundness this pins each
    returned group down exactly. */
module PatternLemmas {
  import opened Options
  import Strings
  import opened Patterns

  // ---------------------------------------------------------------------
  // Shared pieces

  /** A run of `n` class bytes at `i` is taken whole by the greedy run. */
  lemma {:induction false} RunAtLeast(s: string, i: nat, n: nat, cls: Class)
    requires AllIn(s, i, i + n, cls)
    ensures Run(s, i, cls) >= n
    decreases n
  {
    if n > 0 {
      RunAtLeast(s, i + 1, n - 1, cls);
    }
  }

  /** The back-off loop reaches any way of fitting `\s+(.+)` that starts
      the group at or before `q`, and stops no earlier than it. */
  lemma {:induction false} BackOffComplete(s: string, p: nat, q: nat, dotAll: bool, g: Span)
    requires p < q <= |s| && AllIn(s, p, q, Space)
    requires SpacesThenRest(s, p, g, dotAll, false) && g.lo <= q
    ensures BackOff(s, p, q, dotAll).Some? && BackOff(s, p, q, dotAll).value.lo >= g.lo
    decreases q
  {
    if !(q < |s| && In(s[q], Dot(dotAll))) {
      assert q != g.lo;
      BackOffComplete(s, p, q - 1, dotAll, g);
    }
  }

  /** `\s+(.+)` at `p`: wherever it fits, the matcher finds it, with `\s+`
      taking at least as many spaces as any other fit. */
  lemma SpaceThenRestComplete(s: string, p: nat, dotAll: bool, g: Span)
    requires SpacesThenRest(s, p, g, dotAll, false)
    ensures SpaceThenRest(s, p, dotAll).Some? && SpaceThenRest(s, p, dotAll).value.lo >= g.lo
  {
    RunAtLeast(s, p, g.lo - p, Space);
    BackOffComplete(s, p, p + Run(s, p, Space), dotAll, g);
  }

  /** `\s+(.*)` at `p`: wherever it fits, the matcher finds it, with `\s+`
      taking at least as many spaces as any other fit. */
  lemma SpaceThenLineComplete(s: string, p: nat, g: Span)
    requires SpacesThenRest(s, p, g, false, true)
    ensures SpaceThenLine(s, p).Some? && SpaceThenLine(s, p).value.lo >= g.lo
  {
    RunAtLeast(s, p, g.lo - p, Space);
  }

  /** `(\w+):` at a word's start: wherever it fits, the matcher returns
      exactly that word. */
  lemma WordThenColonComplete(s: string, g: Span)
    requires WordThenColonShape(s, g)
    ensures WordThenColon(s, g.lo) == Some(g)
  {
    RunUnique(s, g.lo, g.hi - g.lo, Word);
  }

  /** `\s+\w+\.` at `p`: wherever it fits, the matcher finds that dot. */
  lemma EnvDotComplete(s: string, p: nat, dot: nat)
    requires EnvDotShape(s, p, dot)
    ensures EnvDot(s, p) == Some(dot)
  {
    var b :| p < b < dot && AllIn(s, p, b, Space) && AllIn(s, b, dot, Word);
    assert In(s[b], Word);
    RunUnique(s, p, b - p, Space);
    RunUnique(s, b, dot - b, Word);
  }

  /** `\s+\w+\.(\w+):` at `p`: wherever it fits, the matcher returns exactly
      that level group. */
  lemma ChannelLevelComplete(s: string, p: nat, level: Span)
    requires ChannelLevelShape(s, p, level)
    ensures ChannelLevel(s, p) == Some(level)
  {
    EnvDotComplete(s, p, level.lo - 1);
    WordThenColonComplete(s, level);
  }

  /** `\[([\d\-\s:]+)\]` at `i`: wherever it fits, the matcher returns
      exactly that timestamp group. */
  lemma BracketedStampComplete(s: string, i: nat, g: Span)
    requires BracketedStampShape(s, i, g)
    ensures BracketedStamp(s, i) == Some(g)
  {
    RunUnique(s, i + 1, g.hi - (i + 1), Stamp);
  }

  // ---------------------------------------------------------------------
  // `\[([\d\-\s:]+)\]\s+\w+\.(\w+):\s+(.+)`

  /** `\s+\w+\.(\w+):\s+(.+)` at `p`: wherever it fits, the matcher finds the
      same level group. */
  lemma ChannelLevelRestComplete(s: string, p: nat, level: Span, message: Span)
    requires ChannelLevelShape(s, p, level) && SpacesThenRest(s, level.hi + 1, message, true, false)
    ensures ChannelLevelRest(s, p).Some?
    ensures ChannelLevelRest(s, p).value.0 == level
    ensures ChannelLevelRest(s, p).value.1.lo >= message.lo
  {
    ChannelLevelComplete(s, p, level);
    SpaceThenRestComplete(s, level.hi + 1, true, message);
    ChannelLevelRestOf(s, p, level, SpaceThenRest(s, level.hi + 1, true).value);
  }

  /** How `ChannelLevelRest` puts its two pieces together. */
  lemma ChannelLevelRestOf(s: string, p: nat, level: Span, msg: Span)
    requires p <= |s| && ChannelLevel(s, p) == Some(level)
    requires SpaceThenRest(s, level.hi + 1, true) == Some(msg)
    ensures ChannelLevelRest(s, p) == Some((level, msg))
  {
  }

  /** Wherever the bracketed Laravel pattern fits at `i`, the matcher finds
      it there with the same timestamp and level groups. */
  lemma BracketLevelComplete(s: string, i: nat, g: Groups3)
    requires BracketLevelShape(s, i, g)
    ensures BracketLevelAt(s, i).Some?
    ensures var m := BracketLevelAt(s, i).value;
      m.stamp == g.stamp && m.level == g.level && m.message.lo >= g.message.lo
  {
    BracketedStampComplete(s, i, g.stamp);
    ChannelLevelRestComplete(s, g.stamp.hi + 1, g.level, g.message);
    BracketLevelAtOf(s, i, g.stamp, ChannelLevelRest(s, g.stamp.hi + 1).value);
  }

  /** How `BracketLevelAt` puts its two pieces together. */
  lemma BracketLevelAtOf(s: string, i: nat, stamp: Span, rest: (Span, Span))
    requires BracketedStamp(s, i) == Some(stamp) && ChannelLevelRest(s, stamp.hi + 1) == Some(rest)
    ensures BracketLevelAt(s, i) == Some(Groups3(stamp, rest.0, rest.1))
  {
  }

  /** `preg_match` finds the bracketed Laravel pattern at the first offset
      where it fits. */
  lemma BracketLevelFindsLeftmost(s: string, i: nat, g: Groups3)
    requires BracketLevelShape(s, i, g)
    ensures BracketLevel(s).Some? && BracketLevel(s).value.start <= i
  {
    BracketLevelComplete(s, i, g);
  }

  // ---------------------------------------------------------------------
  // `\[([\d\-\s:]+)\]\s+(.+)`

  /** Wherever the bracketed-timestamp pattern fits at `i`, the matcher
      finds it there with the same timestamp group. */
  lemma BracketStampComplete(s: string, i: nat, g: Groups2)
    requires BracketStampShape(s, i, g)
    ensures BracketStampAt(s, i).Some?
    ensures var m := BracketStampAt(s, i).value;
      m.stamp == g.stamp && m.message.lo >= g.message.lo
  {
    BracketedStampComplete(s, i, g.stamp);
    SpaceThenRestComplete(s, g.stamp.hi + 1, true, g.message);
    BracketStampAtOf(s, i, g.stamp, SpaceThenRest(s, g.stamp.hi + 1, true).value);
  }

  /** How `BracketStampAt` puts its two pieces together. */
  lemma BracketStampAtOf(s: string, i: nat, stamp: Span, msg: Span)
    requires BracketedStamp(s, i) == Some(stamp) && SpaceThenRest(s, stamp.hi + 1, true) == Some(msg)
    ensures BracketStampAt(s, i) == Some(Groups2(stamp, msg))
  {
  }

  /** `preg_match` finds the bracketed-timestamp pattern at the first
      offset where it fits. */
  lemma BracketStampFindsLeftmost(s: string, i: nat, g: Groups2)
    requires BracketStampShape(s, i, g)
    ensures BracketStamp(s).Some? && BracketStamp(s).value.start <= i
  {
    BracketStampComplete(s, i, g);
  }

  /** Wherever the bracketed Laravel pattern matches, the bracketed-timestamp
      pattern matches too, with the same timestamp: the second format can
      only be reached on lines the first one rejects. */
  lemma BracketLevelImpliesStamp(s: string, i: nat)
    requires BracketLevelAt(s, i).Some?
    ensures BracketStampAt(s, i).Some?
    ensures BracketStampAt(s, i).value.stamp == BracketLevelAt(s, i).value.stamp
  {
    var g := BracketLevelAt(s, i).value;
    var b :| g.stamp.hi + 1 < b < g.level.lo - 1
             && AllIn(s, g.stamp.hi + 1, b, Space) && AllIn(s, b, g.level.lo - 1, Word);
    BracketStampComplete(s, i, Groups2(g.stamp, Span(b, |s|)));
  }

  /** Wherever the bracketed-timestamp pattern is absent, so is the
      bracketed Laravel pattern. */
  lemma NoBracketStampNoBracketLevel(s: string)
    ensures BracketStamp(s).None? ==> BracketLevel(s).None?
  {
    if BracketLevel(s).Some? {
      BracketLevelImpliesStamp(s, BracketLevel(s).value.start);
    }
  }

  // ---------------------------------------------------------------------
  // `([\d\-\s:]+)\s+(ERROR|WARNING|INFO|CRITICAL|DEBUG|NOTICE):\s+(.+)`

  /** The first byte of a caseless match lower-cases to the word's first byte. */
  lemma CaselessFirst(s: string, p: nat, word: string)
    requires |word| > 0 && CaselessAt(s, p, word)
    ensures p < |s| && Strings.LowerChar(s[p]) == word[0]
  {
    assert Strings.LowerChar(s[p + 0]) == word[0];
  }

  /** The alternation at `p`: wherever an alternative fits, the matcher
      returns where it ends (the six names start with six different
      letters, so no earlier alternative fits), and the word starts with a
      letter, which the timestamp class excludes. */
  lemma LevelWordEndComplete(s: string, p: nat, hi: nat)
    requires LevelWordEnds(s, p, hi)
    ensures LevelWordEnd(s, p) == Some(hi)
    ensures p < |s| && !In(s[p], Stamp)
  {
    forall w | w in LevelNames && CaselessAt(s, p, w)
      ensures Strings.LowerChar(s[p]) == w[0]
    {
      CaselessFirst(s, p, w);
    }
  }

  /** `(ERROR|…|NOTICE):\s+(.+)` at `p`: wherever it fits, the matcher finds
      the same level word. */
  lemma LevelColonRestComplete(s: string, p: nat, hi: nat, msg: Span)
    requires p <= hi < |s| && LevelWordEnds(s, p, hi) && s[hi] == ':'
    requires SpacesThenRest(s, hi + 1, msg, false, false)
    ensures LevelColonRest(s, p).Some?
    ensures LevelColonRest(s, p).value.0 == hi && LevelColonRest(s, p).value.1.lo >= msg.lo
    ensures !In(s[p], Stamp)
  {
    LevelWordEndComplete(s, p, hi);
    SpaceThenRestComplete(s, hi + 1, false, msg);
    LevelColonRestOf(s, p, hi, SpaceThenRest(s, hi + 1, false).value);
  }

  /** How `LevelColonRest` puts its pieces together. */
  lemma LevelColonRestOf(s: string, p: nat, hi: nat, msg: Span)
    requires p <= |s| && LevelWordEnd(s, p) == Some(hi) && hi < |s| && s[hi] == ':'
    requires SpaceThenRest(s, hi + 1, false) == Some(msg)
    ensures LevelColonRest(s, p) == Some((hi, msg))
  {
  }

  /** Wherever the plain level pattern fits at `i`, the matcher finds it
      there with the same level group; the greedy timestamp group keeps at
      least as many bytes as any other fit. */
  lemma PlainLevelComplete(s: string, i: nat, g: Groups3)
    requires PlainLevelShape(s, i, g)
    ensures PlainLevelAt(s, i).Some?
    ensures var m := PlainLevelAt(s, i).value;
      && m.stamp.lo == i && m.stamp.hi >= g.stamp.hi && m.level == g.level
      && m.message.lo >= g.message.lo
  {
    LevelColonRestComplete(s, g.level.lo, g.level.hi, g.message);
    assert AllIn(s, i, g.level.lo, Stamp) by {
      assert forall k :: g.stamp.hi <= k < g.level.lo ==> In(s[k], Space);
    }
    RunUnique(s, i, g.level.lo - i, Stamp);
    assert In(s[g.level.lo - 1], Space);
    PlainLevelAtOf(s, i, g.level.lo, LevelColonRest(s, g.level.lo).value);
  }

  /** How `PlainLevelAt` puts its pieces together, the greedy timestamp run
      ending at `p`. */
  lemma PlainLevelAtOf(s: string, i: nat, p: nat, rest: (nat, Span))
    requires i + 2 <= p <= |s| && Run(s, i, Stamp) == p - i && IsSpace(s[p - 1])
    requires LevelColonRest(s, p) == Some(rest)
    ensures PlainLevelAt(s, i) == Some(Groups3(Span(i, p - 1), Span(p, rest.0), rest.1))
  {
  }

  /** `preg_match` finds the plain level pattern at the first offset where
      it fits. */
  lemma PlainLevelFindsLeftmost(s: string, i: nat, g: Groups3)
    requires PlainLevelShape(s, i, g)
    ensures PlainLevel(s).Some? && PlainLevel(s).value.start <= i
  {
    PlainLevelComplete(s, i, g);
  }

  // ---------------------------------------------------------------------
  // `\[([\d\/\w:+\s]+)\]`

  /** Wherever the Apache/Nginx bracket fits at `i`, the matcher returns
      exactly that span. */
  lemma ApacheBracketComplete(s: string, i: nat, m: Span)
    requires ApacheBracketShape(s, i, m)
    ensures ApacheBracketAt(s, i) == Some(m)
  {
    RunUnique(s, i + 1, m.hi - (i + 1), Apache);
  }

  /** `preg_match` finds the Apache/Nginx bracket at the first offset where
      it fits. */
  lemma ApacheBracketFindsLeftmost(s: string, i: nat, m: Span)
    requires ApacheBracketShape(s, i, m)
    ensures ApacheBracket(s).Some? && ApacheBracket(s).value.start <= i
  {
    ApacheBracketComplete(s, i, m);
  }

  // ---------------------------------------------------------------------
  // `^([\d\-\/\s:]+)\s+(.+)`

  /** The prefix back-off reaches any fit whose timestamp ends at or before
      `k`, and stops no earlier than it. */
  lemma {:induction false} PrefixBackOffComplete(s: string, k: nat, g: Groups2)
    requires AllIn(s, 0, k, PrefixClass) && TimestampPrefixShape(s, g) && g.stamp.hi <= k
    ensures PrefixBackOff(s, k).Some? && PrefixBackOff(s, k).value.stamp.hi >= g.stamp.hi
    decreases k
  {
    if !(k + 1 < |s| && IsSpace(s[k])) {
      assert In(s[g.stamp.hi], Space);
      PrefixBackOffComplete(s, k - 1, g);
    }
  }

  /** Wherever the timestamp-prefix pattern fits, the matcher finds it, with
      the greedy timestamp group at least as long as in any other fit. */
  lemma TimestampPrefixComplete(s: string, g: Groups2)
    requires TimestampPrefixShape(s, g)
    ensures TimestampPrefix(s).Some? && TimestampPrefix(s).value.stamp.hi >= g.stamp.hi
  {
    RunAtLeast(s, 0, g.stamp.hi, PrefixClass);
    PrefixBackOffComplete(s, Run(s, 0, PrefixClass), g);
  }

  // ---------------------------------------------------------------------
  // `\[(.*?)\]\s+\w+\.(\w+):\s+(.*)`

  /** `\s+\w+\.(\w+):\s+(.*)` at `p`: wherever it fits, the matcher finds the
      same level group. */
  lemma ReaderLaravelTailComplete(s: string, p: nat, level: Span, message: Span)
    requires ReaderLaravelTailShape(s, p, level, message)
    ensures ReaderLaravelTail(s, p).Some?
    ensures ReaderLaravelTail(s, p).value.0 == level
    ensures ReaderLaravelTail(s, p).value.1.lo >= message.lo
  {
    ChannelLevelComplete(s, p, level);
    SpaceThenLineComplete(s, level.hi + 1, message);
    ReaderLaravelTailOf(s, p, level, SpaceThenLine(s, level.hi + 1).value);
  }

  /** How `ReaderLaravelTail` puts its two pieces together. */
  lemma ReaderLaravelTailOf(s: string, p: nat, level: Span, msg: Span)
    requires p <= |s| && ChannelLevel(s, p) == Some(level)
    requires SpaceThenLine(s, level.hi + 1) == Some(msg)
    ensures ReaderLaravelTail(s, p) == Some((level, msg))
  {
  }

  /** The lazy `(.*?)\]`, tried from `j`, closes the bracket at the first
      `]` whose tail fits: no later than any such `]` at or after `j`. */
  lemma {:induction false} LazyCloseComplete(s: string, lo: nat, j: nat, close: nat)
    requires lo <= j <= close < |s| && AllIn(s, lo, close, NotNewline)
    requires s[close] == ']' && ReaderLaravelTail(s, close + 1).Some?
    ensures LazyClose(s, lo, j).Some? && LazyClose(s, lo, j).value.stamp.hi <= close
    decreases close - j
  {
    if s[j] == ']' && ReaderLaravelTail(s, j + 1).Some? {
      LazyCloseHere(s, lo, j);
    } else {
      LazyCloseComplete(s, lo, j + 1, close);
      LazyCloseOn(s, lo, j);
    }
  }

  /** `LazyClose` closes the bracket at a `]` whose tail fits. */
  lemma LazyCloseHere(s: string, lo: nat, j: nat)
    requires lo <= j < |s| && AllIn(s, lo, j, NotNewline)
    requires s[j] == ']' && ReaderLaravelTail(s, j + 1).Some?
    ensures LazyClose(s, lo, j).Some? && LazyClose(s, lo, j).value.stamp.hi == j
  {
  }

  /** `LazyClose` moves past any other byte but a newline. */
  lemma LazyCloseOn(s: string, lo: nat, j: nat)
    requires lo <= j < |s| && AllIn(s, lo, j + 1, NotNewline)
    requires !(s[j] == ']' && ReaderLaravelTail(s, j + 1).Some?)
    ensures LazyClose(s, lo, j) == LazyClose(s, lo, j + 1)
  {
    assert In(s[j], NotNewline);
  }

  /** Wherever the reader's Laravel pattern fits at `i`, the matcher finds
      it there, closing the timestamp group at the first `]` that lets the
      rest of the pattern match. */
  lemma ReaderLaravelComplete(s: string, i: nat, g: Groups3)
    requires ReaderLaravelShape(s, i, g)
    ensures ReaderLaravelAt(s, i).Some? && ReaderLaravelAt(s, i).value.stamp.hi <= g.stamp.hi
  {
    ReaderLaravelTailComplete(s, g.stamp.hi + 1, g.level, g.message);
    LazyCloseComplete(s, i + 1, i + 1, g.stamp.hi);
    ReaderLaravelAtOf(s, i);
  }

  /** `ReaderLaravelAt` starts the lazy search right after the `[`. */
  lemma ReaderLaravelAtOf(s: string, i: nat)
    requires i < |s| && s[i] == '['
    ensures ReaderLaravelAt(s, i) == LazyClose(s, i + 1, i + 1)
  {
  }

  /** `preg_match` finds the reader's Laravel pattern at the first offset
      where it fits. */
  lemma ReaderLaravelFindsLeftmost(s: string, i: nat, g: Groups3)
    requires ReaderLaravelShape(s, i, g)
    ensures ReaderLaravel(s).Some? && ReaderLaravel(s).value.start <= i
  {
    ReaderLaravelComplete(s, i, g);
  }

  // ---------------------------------------------------------------------
  // `(\d{4}-\d{2}-\d{2}\s+\d{2}:\d{2}:\d{2}).*?(\w+):\s+(.*)`

  /** Wherever the date-time fits, the matcher finds it, ending at the
      same byte. */
  lemma DateTimeComplete(s: string, i: nat, e: nat)
    requires DateTimeShape(s, i, e)
    ensures DateTimeAt(s, i) == Some(e)
  {
    assert In(s[e - 8], Digit);
    RunUnique(s, i + 10, e - 8 - (i + 10), Space);
  }

  /** Wherever `(\w+):\s+(.*)` fits at a word's start, the matcher finds the
      same level group there. */
  lemma WordColonComplete(s: string, level: Span, message: Span)
    requires WordColonShape(s, level, message)
    ensures WordColonAt(s, level.lo).Some?
    ensures WordColonAt(s, level.lo).value.0 == level
    ensures WordColonAt(s, level.lo).value.1.lo >= message.lo
  {
    WordThenColonComplete(s, level);
    SpaceThenLineComplete(s, level.hi + 1, message);
    WordColonAtOf(s, level, SpaceThenLine(s, level.hi + 1).value);
  }

  /** How `WordColonAt` puts its two pieces together. */
  lemma WordColonAtOf(s: string, level: Span, msg: Span)
    requires level.lo <= |s| && WordThenColon(s, level.lo) == Some(level)
    requires SpaceThenLine(s, level.hi + 1) == Some(msg)
    ensures WordColonAt(s, level.lo) == Some((level, msg))
  {
  }

  /** The lazy `.*?`, tried from `t`, stops at the first position where
      `(\w+):\s+(.*)` fits: no later than any such position on the line. */
  lemma {:induction false} LazyWordComplete(s: string, e: nat, t: nat, word: nat)
    requires e <= t <= word <= |s| && AllIn(s, e, word, NotNewline)
    requires WordColonAt(s, word).Some?
    ensures LazyWord(s, e, t).Some? && LazyWord(s, e, t).value.0.lo <= word
    decreases word - t
  {
    if WordColonAt(s, t).Some? {
      LazyWordHere(s, e, t);
    } else {
      LazyWordComplete(s, e, t + 1, word);
      LazyWordOn(s, e, t);
    }
  }

  /** `LazyWord` stops where `(\w+):\s+(.*)` fits. */
  lemma LazyWordHere(s: string, e: nat, t: nat)
    requires e <= t <= |s| && AllIn(s, e, t, NotNewline) && WordColonAt(s, t).Some?
    ensures LazyWord(s, e, t) == WordColonAt(s, t) && LazyWord(s, e, t).value.0.lo == t
  {
  }

  /** `LazyWord` moves past any other byte but a newline. */
  lemma LazyWordOn(s: string, e: nat, t: nat)
    requires e <= t < |s| && AllIn(s, e, t + 1, NotNewline) && WordColonAt(s, t).None?
    ensures LazyWord(s, e, t) == LazyWord(s, e, t + 1)
  {
    assert In(s[t], NotNewline);
  }

  /** Wherever the reader's generic pattern fits at `i`, the matcher finds
      it there with the same timestamp, taking the first level word after
      it. */
  lemma ReaderGenericComplete(s: string, i: nat, g: Groups3)
    requires ReaderGenericShape(s, i, g)
    ensures ReaderGenericAt(s, i).Some?
    ensures ReaderGenericAt(s, i).value.stamp == g.stamp
    ensures ReaderGenericAt(s, i).value.level.lo <= g.level.lo
  {
    DateTimeComplete(s, i, g.stamp.hi);
    WordColonComplete(s, g.level, g.message);
    LazyWordComplete(s, g.stamp.hi, g.stamp.hi, g.level.lo);
    ReaderGenericAtOf(s, i, g.stamp.hi, LazyWord(s, g.stamp.hi, g.stamp.hi).value);
  }

  /** How `ReaderGenericAt` puts its two pieces together. */
  lemma ReaderGenericAtOf(s: string, i: nat, e: nat, t: (Span, Span))
    requires e <= |s| && DateTimeAt(s, i) == Some(e) && LazyWord(s, e, e) == Some(t)
    ensures ReaderGenericAt(s, i) == Some(Groups3(Span(i, e), t.0, t.1))
  {
  }

  /** `preg_match` finds the reader's generic pattern at the first offset
      where it fits. */
  lemma ReaderGenericFindsLeftmost(s: string, i: nat, g: Groups3)
    requires ReaderGenericShape(s, i, g)
    ensures ReaderGeneric(s).Some? && ReaderGeneric(s).value.start <= i
  {
    ReaderGenericComplete(s, i, g);
  }
}

=== FILE: patterns.dfy ===
/** Hand-written matchers for the PCRE patterns the three line parsers use.
    Each `…At(s, i)` tries one pattern at start offset `i` following PCRE's
    backtracking order (greedy or lazy as written); the unanchored patterns
    are then searched leftmost-first, as `preg_match` does. Character
    classes use PCRE's default (ASCII) tables on byte strings. */
module Patterns {
  import opened Options
  import Strings

  /** PCRE `\d`. */
  predicate IsDigit(c: char) { '0' <= c <= '9' }

  /** PCRE `\s`: space, and \t, \n, \x0B, \f, \r (bytes 9 to 13). */
  predicate IsSpace(c: char)
  {
    c == ' ' || '\t' <= c <= '\r'
  }

  /** PCRE `\w`: ASCII letters, digits and underscore. */
  predicate IsWord(c: char)
  {
    'a' <= c <= 'z' || 'A' <= c <= 'Z' || IsDigit(c) || c == '_'
  }

  /** `[\d\-\s:]`: the bytes of a bracketed or leading timestamp. */
  predicate IsStampChar(c: char) { IsDigit(c) || c == '-' || IsSpace(c) || c == ':' }

  /** The character classes the patterns use. */
  datatype Class =
    | Digit        // \d
    | Space        // \s
    | Word         // \w
    | NotNewline   // . without the s modifier
    | AnyByte      // . with the s modifier
    | Stamp        // [\d\-\s:]
    | PrefixClass  // [\d\-\/\s:]
    | Apache       // [\d\/\w:+\s]

  /** Class membership. */
  predicate In(c: char, cls: Class)
  {
    match cls
    case Digit => IsDigit(c)
    case Space => IsSpace(c)
    case Word => IsWord(c)
    case NotNewline => c != '\n'
    case AnyByte => true
    case Stamp => IsStampChar(c)
    case PrefixClass => IsStampChar(c) || c == '/'
    case Apache => IsWord(c) || c == '/' || c == ':' || c == '+' || IsSpace(c)
  }

  /** `.` under the given modifier. */
  function Dot(dotAll: bool): Class
  {
    if dotAll then AnyByte else NotNewline
  }

  /** Every byte of `s[lo..hi]` is in the class. */
  predicate AllIn(s: string, lo: nat, hi: nat, cls: Class)
  {
    lo <= hi <= |s| && forall k {:trigger In(s[k], cls)} :: lo <= k < hi ==> In(s[k], cls)
  }

  /** Length of the longest run of class bytes starting at `i`: what a greedy
      `[…]*` over that class consumes. */
  function Run(s: string, i: nat, cls: Class): (n: nat)
    requires i <= |s|
    ensures AllIn(s, i, i + n, cls)
    ensures i + n == |s| || !In(s[i + n], cls)
    decreases |s| - i
  {
    if i == |s| || !In(s[i], cls) then 0 else 1 + Run(s, i + 1, cls)
  }

  /** A run of class bytes ended by the end of the text or by a byte outside
      the class is the greedy run. */
  lemma {:induction false} RunUnique(s: string, i: nat, n: nat, cls: Class)
    requires AllIn(s, i, i + n, cls)
    requires i + n == |s| || !In(s[i + n], cls)
    ensures Run(s, i, cls) == n
    decreases n
  {
    if n > 0 {
      RunUnique(s, i + 1, n - 1, cls);
    }
  }

  /** A capture group: the bytes `s[lo..hi]`. */
  datatype Span = Span(lo: nat, hi: nat) {
    predicate Within(s: string) { lo <= hi <= |s| }
    function Of(s: string): string
      requires Within(s)
    {
      s[lo..hi]
    }
  }

  /** The groups of a timestamp / level / message pattern. */
  datatype Groups3 = Groups3(stamp: Span, level: Span, message: Span)

  /** The groups of a timestamp / message pattern. */
  datatype Groups2 = Groups2(stamp: Span, message: Span)

  /** A successful unanchored match: where it starts, and its groups. */
  datatype Found<M> = Found(start: nat, groups: M)

  /** `preg_match`'s leftmost-first search over the start offsets `i..end`. */
  function FirstMatch<M>(at: nat -> Option<M>, i: nat, end: nat): (r: Option<Found<M>>)
    ensures r.Some? ==> i <= r.value.start < end && at(r.value.start) == Some(r.value.groups)
    ensures r.Some? ==> forall k :: i <= k < r.value.start ==> at(k).None?
    ensures r.None? ==> forall k :: i <= k < end ==> at(k).None?
    decreases end - i
  {
    if i >= end then None
    else match at(i)
      case Some(g) => Some(Found(i, g))
      case None => FirstMatch(at, i + 1, end)
  }

  // ---------------------------------------------------------------------
  // Shared pieces

  /** `s[lo..hi]` is `\s+\w+`: spaces, then word bytes, both non-empty. */
  ghost predicate SpacesThenWord(s: string, lo: nat, hi: nat)
  {
    exists b :: lo < b < hi && AllIn(s, lo, b, Space) && AllIn(s, b, hi, Word)
  }

  /** `\s+(.+)` (or `\s+(.*)` when `emptyOk`) ending a pattern at offset `p`
      captured `g`: spaces from `p` up to the group, then a maximal run of
      `.` bytes. */
  ghost predicate SpacesThenRest(s: string, p: nat, g: Span, dotAll: bool, emptyOk: bool)
  {
    && p < g.lo && (if emptyOk then g.lo <= g.hi else g.lo < g.hi)
    && AllIn(s, p, g.lo, Space)
    && AllIn(s, g.lo, g.hi, Dot(dotAll))
    && (g.hi == |s| || !In(s[g.hi], Dot(dotAll)))
  }

  /** `\s+(.+)` ending a pattern, tried at `p`: the greedy `\s+` gives back
      one byte at a time until `.+` can take at least one byte, and `.+`
      then takes every `.` byte it can. */
  function SpaceThenRest(s: string, p: nat, dotAll: bool): (g: Option<Span>)
    requires p <= |s|
    ensures g.Some? ==> SpacesThenRest(s, p, g.value, dotAll, false)
  {
    var w := Run(s, p, Space);
    if w == 0 then None else BackOff(s, p, p + w, dotAll)
  }

  /** The back-off loop of `SpaceThenRest`, trying `.+` at `q`, `q-1`, … `p+1`. */
  function BackOff(s: string, p: nat, q: nat, dotAll: bool): (g: Option<Span>)
    requires p < q <= |s|
    requires AllIn(s, p, q, Space)
    ensures g.Some? ==> SpacesThenRest(s, p, g.value, dotAll, false) && g.value.lo <= q
    decreases q
  {
    if q < |s| && In(s[q], Dot(dotAll)) then Some(Span(q, q + Run(s, q, Dot(dotAll))))
    else if q - 1 > p then BackOff(s, p, q - 1, dotAll)
    else None
  }

  /** `\s+(.*)` ending a pattern at `p`: `\s+` takes every space and `(.*)`
      the following non-newline bytes; no back-off is ever needed. */
  function SpaceThenLine(s: string, p: nat): (g: Option<Span>)
    requires p <= |s|
    ensures g.Some? ==> SpacesThenRest(s, p, g.value, false, true)
  {
    var w := Run(s, p, Space);
    if w == 0 then None
    else Some(Span(p + w, p + w + Run(s, p + w, NotNewline)))
  }

  /** `s[g.lo..g.hi + 1]` is `(\w+):`, capturing `g`. */
  ghost predicate WordThenColonShape(s: string, g: Span)
  {
    g.lo < g.hi < |s| && AllIn(s, g.lo, g.hi, Word) && s[g.hi] == ':'
  }

  /** `(\w+):` at `t`: the word group. */
  function WordThenColon(s: string, t: nat): (g: Option<Span>)
    requires t <= |s|
    ensures g.Some? ==> g.value.lo == t && WordThenColonShape(s, g.value)
  {
    var r := Run(s, t, Word);
    if r == 0 || t + r >= |s| || s[t + r] != ':' then None else Some(Span(t, t + r))
  }

  /** `s[p..dot + 1]` is `\s+\w+\.`. */
  ghost predicate EnvDotShape(s: string, p: nat, dot: nat)
  {
    p < dot < |s| && SpacesThenWord(s, p, dot) && s[dot] == '.'
  }

  /** `\s+\w+\.` at `p`: where the dot is. */
  function EnvDot(s: string, p: nat): (dot: Option<nat>)
    requires p <= |s|
    ensures dot.Some? ==> EnvDotShape(s, p, dot.value)
  {
    var w := Run(s, p, Space);
    var e := Run(s, p + w, Word);
    var dot := p + w + e;
    if w == 0 || e == 0 || dot >= |s| || s[dot] != '.' then None
    else
      assert AllIn(s, p, p + w, Space) && AllIn(s, p + w, dot, Word);
      Some(dot)
  }

  /** `s[p..level.hi + 1]` is `\s+\w+\.(\w+):`, the environment and level
      of a Laravel line, capturing `level`. */
  ghost predicate ChannelLevelShape(s: string, p: nat, level: Span)
  {
    0 < level.lo && EnvDotShape(s, p, level.lo - 1) && WordThenColonShape(s, level)
  }

  /** `\s+\w+\.(\w+):` at `p`: the level group. Every quantifier stops at a
      byte its class excludes, so nothing backtracks. */
  function ChannelLevel(s: string, p: nat): (level: Option<Span>)
    requires p <= |s|
    ensures level.Some? ==> ChannelLevelShape(s, p, level.value)
  {
    match EnvDot(s, p)
    case None => None
    case Some(dot) => WordThenColon(s, dot + 1)
  }

  /** `s[i..g.hi + 1]` is `\[([\d\-\s:]+)\]`, capturing `g`. */
  ghost predicate BracketedStampShape(s: string, i: nat, g: Span)
  {
    && i < |s| && s[i] == '[' && g.lo == i + 1
    && g.lo < g.hi < |s| && AllIn(s, g.lo, g.hi, Stamp)
    && s[g.hi] == ']'
  }

  /** `\[([\d\-\s:]+)\]` at `i`: the timestamp group. The class excludes
      `]`, so the greedy run ends exactly at the closing bracket. */
  function BracketedStamp(s: string, i: nat): (g: Option<Span>)
    ensures g.Some? ==> BracketedStampShape(s, i, g.value)
  {
    if i >= |s| || s[i] != '[' then None
    else
      var n := Run(s, i + 1, Stamp);
      var close := i + 1 + n;
      if n == 0 || close >= |s| || s[close] != ']' then None
      else Some(Span(i + 1, close))
  }

  // ---------------------------------------------------------------------
  // `\[([\d\-\s:]+)\]\s+\w+\.(\w+):\s+(.+)`  (modifier s)

  /** What a match of the bracketed Laravel pattern at `i` looks like. */
  ghost predicate BracketLevelShape(s: string, i: nat, g: Groups3)
  {
    && BracketedStampShape(s, i, g.stamp)
    && ChannelLevelShape(s, g.stamp.hi + 1, g.level)
    && SpacesThenRest(s, g.level.hi + 1, g.message, true, false)
  }

  /** The bracketed Laravel pattern tried at `i`. Every quantifier before the
      final `\s+(.+)` stops at a byte its class excludes, so only that tail
      ever backtracks. */
  function BracketLevelAt(s: string, i: nat): (m: Option<Groups3>)
    ensures m.Some? ==> BracketLevelShape(s, i, m.value)
  {
    match BracketedStamp(s, i)
    case None => None
    case Some(stamp) =>
      match ChannelLevelRest(s, stamp.hi + 1)
      case None => None
      case Some(t) => Some(Groups3(stamp, t.0, t.1))
  }

  /** `\s+\w+\.(\w+):\s+(.+)` (modifier s) at `p`: the level and message groups. */
  function ChannelLevelRest(s: string, p: nat): (m: Option<(Span, Span)>)
    requires p <= |s|
    ensures m.Some? ==> && ChannelLevelShape(s, p, m.value.0)
                        && SpacesThenRest(s, m.value.0.hi + 1, m.value.1, true, false)
  {
    match ChannelLevel(s, p)
    case None => None
    case Some(level) =>
      match SpaceThenRest(s, level.hi + 1, true)
      case None => None
      case Some(msg) => Some((level, msg))
  }

  /** `preg_match` of the bracketed Laravel pattern. */
  function BracketLevel(s: string): (r: Option<Found<Groups3>>)
    ensures r.Some? ==> BracketLevelShape(s, r.value.start, r.value.groups)
    ensures r.Some? ==> forall k :: 0 <= k < r.value.start ==> BracketLevelAt(s, k).None?
    ensures r.None? ==> forall k :: 0 <= k < |s| ==> BracketLevelAt(s, k).None?
  {
    var at := k => BracketLevelAt(s, k);
    assert forall k :: at(k) == BracketLevelAt(s, k);
    FirstMatch(at, 0, |s|)
  }

  // ---------------------------------------------------------------------
  // `\[([\d\-\s:]+)\]\s+(.+)`  (modifier s)

  /** What a match of the bracketed-timestamp pattern at `i` looks like. */
  ghost predicate BracketStampShape(s: string, i: nat, g: Groups2)
  {
    && BracketedStampShape(s, i, g.stamp)
    && SpacesThenRest(s, g.stamp.hi + 1, g.message, true, false)
  }

  /** The bracketed-timestamp pattern tried at `i`. */
  function BracketStampAt(s: string, i: nat): (m: Option<Groups2>)
    ensures m.Some? ==> BracketStampShape(s, i, m.value)
  {
    match BracketedStamp(s, i)
    case None => None
    case Some(stamp) =>
      match SpaceThenRest(s, stamp.hi + 1, true)
      case None => None
      case Some(msg) => Some(Groups2(stamp, msg))
  }

  /** `preg_match` of the bracketed-timestamp pattern. */
  function BracketStamp(s: string): (r: Option<Found<Groups2>>)
    ensures r.Some? ==> BracketStampShape(s, r.value.start, r.value.groups)
    ensures r.Some? ==> forall k :: 0 <= k < r.value.start ==> BracketStampAt(s, k).None?
    ensures r.None? ==> forall k :: 0 <= k < |s| ==> BracketStampAt(s, k).None?
  {
    var at := k => BracketStampAt(s, k);
    assert forall k :: at(k) == BracketStampAt(s, k);
    FirstMatch(at, 0, |s|)
  }

  // ---------------------------------------------------------------------
  // `([\d\-\s:]+)\s+(ERROR|WARNING|INFO|CRITICAL|DEBUG|NOTICE):\s+(.+)`  (modifier i)

  /** The level alternatives in lower case, in the order the alternation
      tries them. Under the `i` modifier an alternative matches the bytes
      whose ASCII lower-case form is the alternative's lower-case form. */
  const LevelNames: seq<string> := ["error", "warning", "info", "critical", "debug", "notice"]

  /** The lower-case `word` occurs at `p`, ignoring ASCII case. */
  predicate CaselessAt(s: string, p: nat, word: string)
  {
    p + |word| <= |s| && forall j :: 0 <= j < |word| ==> Strings.LowerChar(s[p + j]) == word[j]
  }

  /** One of the level alternatives occupies `s[p..hi]`, in any case. */
  predicate LevelWordEnds(s: string, p: nat, hi: nat)
  {
    || (CaselessAt(s, p, "error") && hi == p + 5)
    || (CaselessAt(s, p, "warning") && hi == p + 7)
    || (CaselessAt(s, p, "info") && hi == p + 4)
    || (CaselessAt(s, p, "critical") && hi == p + 8)
    || (CaselessAt(s, p, "debug") && hi == p + 5)
    || (CaselessAt(s, p, "notice") && hi == p + 6)
  }

  /** `(ERROR|WARNING|INFO|CRITICAL|DEBUG|NOTICE)` with the `i` modifier at
      `p`: where the first alternative that fits ends. */
  function LevelWordEnd(s: string, p: nat): (hi: Option<nat>)
    ensures hi.Some? ==> LevelWordEnds(s, p, hi.value)
  {
    if CaselessAt(s, p, "error") then Some(p + 5)
    else if CaselessAt(s, p, "warning") then Some(p + 7)
    else if CaselessAt(s, p, "info") then Some(p + 4)
    else if CaselessAt(s, p, "critical") then Some(p + 8)
    else if CaselessAt(s, p, "debug") then Some(p + 5)
    else if CaselessAt(s, p, "notice") then Some(p + 6)
    else None
  }

  /** A level word lower-cases to one of the six names. */
  lemma LevelWordName(s: string, p: nat, hi: nat)
    requires LevelWordEnds(s, p, hi)
    ensures p < hi <= |s| && Strings.ToLower(s[p..hi]) in LevelNames
  {
    var word :| word in LevelNames && hi == p + |word| && CaselessAt(s, p, word);
    CaselessLower(s, p, word);
  }

  /** A caseless match lower-cases to the word itself. */
  lemma CaselessLower(s: string, p: nat, word: string)
    requires CaselessAt(s, p, word)
    ensures Strings.ToLower(s[p..p + |word|]) == word
  {
    var t := s[p..p + |word|];
    forall j | 0 <= j < |word| ensures Strings.ToLower(t)[j] == word[j] {
      assert t[j] == s[p + j];
    }
  }

  /** What a match of the plain level pattern at `i` looks like. */
  ghost predicate PlainLevelShape(s: string, i: nat, g: Groups3)
  {
    && g.stamp.lo == i && g.stamp.lo < g.stamp.hi < g.level.lo
    && AllIn(s, g.stamp.lo, g.stamp.hi, Stamp)
    && AllIn(s, g.stamp.hi, g.level.lo, Space)
    && g.level.lo <= g.level.hi < |s|
    && LevelWordEnds(s, g.level.lo, g.level.hi)
    && s[g.level.hi] == ':'
    && SpacesThenRest(s, g.level.hi + 1, g.message, false, false)
  }

  /** The plain level pattern tried at `i`. The greedy timestamp class also
      contains `\s`, so it must give back exactly its last byte, which has to
      be a space; giving back more only puts a space or timestamp byte where
      the level word must start, which cannot match. */
  function PlainLevelAt(s: string, i: nat): (m: Option<Groups3>)
    ensures m.Some? ==> PlainLevelShape(s, i, m.value)
  {
    if i >= |s| then None
    else
      var n := Run(s, i, Stamp);
      if n < 2 || !IsSpace(s[i + n - 1]) then None
      else
        match LevelColonRest(s, i + n)
        case None => None
        case Some((hi, msg)) =>
          var g := Groups3(Span(i, i + n - 1), Span(i + n, hi), msg);
          PlainLevelFound(s, g);
          Some(g)
  }

  /** `(ERROR|…|NOTICE):\s+(.+)` at `p`: where the level word ends, and the
      message group. */
  function LevelColonRest(s: string, p: nat): (r: Option<(nat, Span)>)
    requires p <= |s|
    ensures r.Some? ==>
      && p <= r.value.0 < |s| && LevelWordEnds(s, p, r.value.0) && s[r.value.0] == ':'
      && SpacesThenRest(s, r.value.0 + 1, r.value.1, false, false)
  {
    match LevelWordEnd(s, p)
    case None => None
    case Some(colon) =>
      if colon >= |s| || s[colon] != ':' then None
      else
        match SpaceThenRest(s, colon + 1, false)
        case None => None
        case Some(msg) => Some((colon, msg))
  }

  /** The pieces `PlainLevelAt` checks make up a match. */
  lemma PlainLevelFound(s: string, g: Groups3)
    requires g.stamp.lo < g.stamp.hi && g.stamp.hi + 1 == g.level.lo
    requires AllIn(s, g.stamp.lo, g.level.lo, Stamp) && IsSpace(s[g.stamp.hi])
    requires g.level.lo <= g.level.hi < |s| && LevelWordEnds(s, g.level.lo, g.level.hi)
    requires s[g.level.hi] == ':'
    requires SpacesThenRest(s, g.level.hi + 1, g.message, false, false)
    ensures PlainLevelShape(s, g.stamp.lo, g)
  {
  }

  /** `preg_match` of the plain level pattern. */
  function PlainLevel(s: string): (r: Option<Found<Groups3>>)
    ensures r.Some? ==> PlainLevelShape(s, r.value.start, r.value.groups)
    ensures r.Some? ==> forall k :: 0 <= k < r.value.start ==> PlainLevelAt(s, k).None?
    ensures r.None? ==> forall k :: 0 <= k < |s| ==> PlainLevelAt(s, k).None?
  {
    var at := k => PlainLevelAt(s, k);
    assert forall k :: at(k) == PlainLevelAt(s, k);
    FirstMatch(at, 0, |s|)
  }

  // ---------------------------------------------------------------------
  // `\[([\d\/\w:+\s]+)\]`

  /** What a match of the Apache/Nginx bracket at `i` looks like. */
  ghost predicate ApacheBracketShape(s: string, i: nat, m: Span)
  {
    && i < |s| && s[i] == '[' && m.lo == i + 1 && m.lo < m.hi < |s|
    && AllIn(s, m.lo, m.hi, Apache) && s[m.hi] == ']'
  }

  /** The Apache/Nginx bracket tried at `i`: the span inside the brackets. */
  function ApacheBracketAt(s: string, i: nat): (m: Option<Span>)
    ensures m.Some? ==> ApacheBracketShape(s, i, m.value)
  {
    if i >= |s| || s[i] != '[' then None
    else
      var n := Run(s, i + 1, Apache);
      var close := i + 1 + n;
      if n == 0 || close >= |s| || s[close] != ']' then None
      else Some(Span(i + 1, close))
  }

  /** `preg_match` of the Apache/Nginx bracket. */
  function ApacheBracket(s: string): (r: Option<Found<Span>>)
    ensures r.Some? ==> ApacheBracketShape(s, r.value.start, r.value.groups)
    ensures r.Some? ==> ApacheBracketAt(s, r.value.start) == Some(r.value.groups)
    ensures r.Some? ==> forall k :: 0 <= k < r.value.start ==> ApacheBracketAt(s, k).None?
    ensures r.None? ==> forall k :: 0 <= k < |s| ==> ApacheBracketAt(s, k).None?
  {
    var at := k => ApacheBracketAt(s, k);
    assert forall k :: at(k) == ApacheBracketAt(s, k);
    FirstMatch(at, 0, |s|)
  }

  // ---------------------------------------------------------------------
  // `^([\d\-\/\s:]+)\s+(.+)`  (modifier s)

  /** What a match of the anchored timestamp-prefix pattern looks like. */
  ghost predicate TimestampPrefixShape(s: string, g: Groups2)
  {
    && g.stamp.lo == 0 < g.stamp.hi && AllIn(s, 0, g.stamp.hi, PrefixClass)
    && SpacesThenRest(s, g.stamp.hi, g.message, true, false)
    && g.message.hi == |s|
  }

  /** The anchored timestamp-prefix pattern. */
  function TimestampPrefix(s: string): (m: Option<Groups2>)
    ensures m.Some? ==> TimestampPrefixShape(s, m.value)
  {
    PrefixBackOff(s, Run(s, 0, PrefixClass))
  }

  /** The greedy prefix class gives back bytes until `\s+(.+)` fits after the
      `k` bytes it keeps: that needs a space at `k` and at least one byte after
      it; `\s+` then takes every space up to the last byte, which `.+` needs. */
  function PrefixBackOff(s: string, k: nat): (m: Option<Groups2>)
    requires AllIn(s, 0, k, PrefixClass)
    ensures m.Some? ==> TimestampPrefixShape(s, m.value) && m.value.stamp.hi <= k
    decreases k
  {
    if k == 0 then None
    else if k + 1 < |s| && IsSpace(s[k]) then
      var run := Run(s, k, Space);
      var w := if run < |s| - k - 1 then run else |s| - k - 1;
      Some(Groups2(Span(0, k), Span(k + w, |s|)))
    else PrefixBackOff(s, k - 1)
  }

  // ---------------------------------------------------------------------
  // `\[(.*?)\]\s+\w+\.(\w+):\s+(.*)`  (no modifier)

  /** `s[p..]` starts with `\s+\w+\.(\w+):\s+(.*)` capturing `level` and `message`. */
  ghost predicate ReaderLaravelTailShape(s: string, p: nat, level: Span, message: Span)
  {
    ChannelLevelShape(s, p, level) && SpacesThenRest(s, level.hi + 1, message, false, true)
  }

  /** What a match of the reader's Laravel pattern at `i` looks like. */
  ghost predicate ReaderLaravelShape(s: string, i: nat, g: Groups3)
  {
    && i < |s| && s[i] == '[' && g.stamp.lo == i + 1
    && g.stamp.lo <= g.stamp.hi < |s| && AllIn(s, g.stamp.lo, g.stamp.hi, NotNewline)
    && s[g.stamp.hi] == ']'
    && ReaderLaravelTailShape(s, g.stamp.hi + 1, g.level, g.message)
  }

  /** `\s+\w+\.(\w+):\s+(.*)` at `p`: the level and message groups. */
  function ReaderLaravelTail(s: string, p: nat): (m: Option<(Span, Span)>)
    requires p <= |s|
    ensures m.Some? ==> ReaderLaravelTailShape(s, p, m.value.0, m.value.1)
  {
    match ChannelLevel(s, p)
    case None => None
    case Some(level) =>
      match SpaceThenLine(s, level.hi + 1)
      case None => None
      case Some(msg) => Some((level, msg))
  }

  /** The lazy `(.*?)\]` after the `[` at `lo - 1`: try to close the bracket
      at `j`, `j+1`, … (a `]` whose tail fails is taken into the group) without
      crossing a newline. */
  function LazyClose(s: string, lo: nat, j: nat): (m: Option<Groups3>)
    requires lo <= j <= |s| && AllIn(s, lo, j, NotNewline)
    ensures m.Some? ==> && m.value.stamp.lo == lo && j <= m.value.stamp.hi < |s|
                        && AllIn(s, lo, m.value.stamp.hi, NotNewline) && s[m.value.stamp.hi] == ']'
                        && ReaderLaravelTailShape(s, m.value.stamp.hi + 1, m.value.level, m.value.message)
    decreases |s| - j
  {
    if j >= |s| then None
    else if s[j] == ']' then
      match ReaderLaravelTail(s, j + 1)
      case Some(t) => Some(Groups3(Span(lo, j), t.0, t.1))
      case None => LazyClose(s, lo, j + 1)
    else if s[j] == '\n' then None
    else LazyClose(s, lo, j + 1)
  }

  /** The reader's Laravel pattern tried at `i`. */
  function ReaderLaravelAt(s: string, i: nat): (m: Option<Groups3>)
    ensures m.Some? ==> ReaderLaravelShape(s, i, m.value)
  {
    if i >= |s| || s[i] != '[' then None else LazyClose(s, i + 1, i + 1)
  }

  /** `preg_match` of the reader's Laravel pattern. */
  function ReaderLaravel(s: string): (r: Option<Found<Groups3>>)
    ensures r.Some? ==> ReaderLaravelShape(s, r.value.start, r.value.groups)
    ensures r.Some? ==> forall k :: 0 <= k < r.value.start ==> ReaderLaravelAt(s, k).None?
    ensures r.None? ==> forall k :: 0 <= k < |s| ==> ReaderLaravelAt(s, k).None?
  {
    var at := k => ReaderLaravelAt(s, k);
    assert forall k :: at(k) == ReaderLaravelAt(s, k);
    FirstMatch(at, 0, |s|)
  }

  // ---------------------------------------------------------------------
  // `(\d{4}-\d{2}-\d{2}\s+\d{2}:\d{2}:\d{2}).*?(\w+):\s+(.*)`  (no modifier)

  /** `\d{n}` at `p`. */
  predicate DigitsAt(s: string, p: nat, n: nat)
  {
    AllIn(s, p, p + n, Digit)
  }

  /** `s[i..e]` is `\d{4}-\d{2}-\d{2}\s+\d{2}:\d{2}:\d{2}`. */
  ghost predicate DateTimeShape(s: string, i: nat, e: nat)
  {
    && i + 10 < e - 8 && e <= |s|
    && DigitsAt(s, i, 4) && s[i + 4] == '-' && DigitsAt(s, i + 5, 2)
    && s[i + 7] == '-' && DigitsAt(s, i + 8, 2)
    && AllIn(s, i + 10, e - 8, Space)
    && DigitsAt(s, e - 8, 2) && s[e - 6] == ':'
    && DigitsAt(s, e - 5, 2) && s[e - 3] == ':'
    && DigitsAt(s, e - 2, 2)
  }

  /** `\d{4}-\d{2}-\d{2}\s+\d{2}:\d{2}:\d{2}` at `i`: where it ends. */
  function DateTimeAt(s: string, i: nat): (e: Option<nat>)
    ensures e.Some? ==> DateTimeShape(s, i, e.value)
  {
    if !(DigitsAt(s, i, 4) && i + 10 <= |s| && s[i + 4] == '-' && DigitsAt(s, i + 5, 2)
         && s[i + 7] == '-' && DigitsAt(s, i + 8, 2)) then None
    else
      var w := Run(s, i + 10, Space);
      var t := i + 10 + w;
      if w == 0 || !(DigitsAt(s, t, 2) && t + 8 <= |s| && s[t + 2] == ':' && DigitsAt(s, t + 3, 2)
                     && s[t + 5] == ':' && DigitsAt(s, t + 6, 2)) then None
      else Some(t + 8)
  }

  /** `(\w+):\s+(.*)` captured `level` and `message`. */
  ghost predicate WordColonShape(s: string, level: Span, message: Span)
  {
    WordThenColonShape(s, level) && SpacesThenRest(s, level.hi + 1, message, false, true)
  }

  /** `(\w+):\s+(.*)` at `t`: the level and message groups. */
  function WordColonAt(s: string, t: nat): (m: Option<(Span, Span)>)
    requires t <= |s|
    ensures m.Some? ==> m.value.0.lo == t && WordColonShape(s, m.value.0, m.value.1)
  {
    match WordThenColon(s, t)
    case None => None
    case Some(level) =>
      match SpaceThenLine(s, level.hi + 1)
      case None => None
      case Some(msg) => Some((level, msg))
  }

  /** The lazy `.*?` before `(\w+):`: try the level word at `t`, `t+1`, …
      without crossing a newline. */
  function LazyWord(s: string, e: nat, t: nat): (m: Option<(Span, Span)>)
    requires e <= t <= |s| && AllIn(s, e, t, NotNewline)
    ensures m.Some? ==> && t <= m.value.0.lo && AllIn(s, e, m.value.0.lo, NotNewline)
                        && WordColonAt(s, m.value.0.lo) == m
    decreases |s| - t
  {
    match WordColonAt(s, t)
    case Some(g) => Some(g)
    case None =>
      if t < |s| && s[t] != '\n' then LazyWord(s, e, t + 1) else None
  }

  /** What a match of the reader's generic pattern at `i` looks like. */
  ghost predicate ReaderGenericShape(s: string, i: nat, g: Groups3)
  {
    && g.stamp.lo == i && DateTimeShape(s, i, g.stamp.hi)
    && g.stamp.hi <= g.level.lo && AllIn(s, g.stamp.hi, g.level.lo, NotNewline)
    && WordColonShape(s, g.level, g.message)
  }

  /** The reader's generic pattern tried at `i`. */
  function ReaderGenericAt(s: string, i: nat): (m: Option<Groups3>)
    ensures m.Some? ==> ReaderGenericShape(s, i, m.value)
  {
    match DateTimeAt(s, i)
    case None => None
    case Some(e) =>
      match LazyWord(s, e, e)
      case None => None
      case Some(t) => Some(Groups3(Span(i, e), t.0, t.1))
  }

  /** `preg_match` of the reader's generic pattern. */
  function ReaderGeneric(s: string): (r: Option<Found<Groups3>>)
    ensures r.Some? ==> ReaderGenericShape(s, r.value.start, r.value.groups)
    ensures r.Some? ==> forall k :: 0 <= k < r.value.start ==> ReaderGenericAt(s, k).None?
    ensures r.None? ==> forall k :: 0 <= k < |s| ==> ReaderGenericAt(s, k).None?
  {
    var at := k => ReaderGenericAt(s, k);
    assert forall k :: at(k) == ReaderGenericAt(s, k);
    FirstMatch(at, 0, |s|)
  }
}

=== FILE: preprocessor.dfy ===
/** `LogPreprocessor`: normalise raw logs, mark repeated messages, regroup
    the records window by window, and summarise them. `now()` and
    `Carbon::parse` are parameters; md5 of the message is the message. */
module Preprocessor {
  import opened Options
  import opened Seqs
  import opened Clock
  import Severity
  import Grouping

  /** A raw log's timestamp: already a Carbon instance, or text to parse. */
  datatype TimeInput = At(time: DateTime) | Unparsed(text: string)

  /** One raw log: every key may be missing. */
  datatype RawLog = RawLog(message: Option<string>, timestamp: Option<TimeInput>, raw: Option<string>)

  /** One processed record. */
  datatype Entry = Entry(message: string, time: DateTime, severity: Severity.Level, raw: string, isDuplicate: bool)

  /** `$log['message'] ?? ''`. */
  function MessageOf(log: RawLog): string
  {
    log.message.GetOr("")
  }

  /** `parseTimestamp($log['timestamp'] ?? now())`: a Carbon instance is kept,
      text is parsed, and text Carbon rejects becomes the current time. */
  function TimeOf(log: RawLog, now: DateTime, parse: string -> Option<DateTime>): (t: DateTime)
    ensures log.timestamp.None? ==> t == now
    ensures log.timestamp.Some? && log.timestamp.value.At? ==> t == log.timestamp.value.time
    ensures log.timestamp.Some? && log.timestamp.value.Unparsed? ==>
              t == parse(log.timestamp.value.text).GetOr(now)
  {
    match log.timestamp
    case None => now
    case Some(At(t)) => t
    case Some(Unparsed(text)) => parse(text).GetOr(now)
  }

  /** An earlier log carries the same message. */
  predicate SeenBefore(logs: seq<RawLog>, k: nat)
    requires k < |logs|
  {
    MessageOf(logs[k]) in MessagesOf(logs[..k])
  }

  /** The record built for one log. */
  function Normalise(log: RawLog, isDuplicate: bool, now: DateTime, parse: string -> Option<DateTime>): (e: Entry)
    ensures e.message == MessageOf(log) && e.time == TimeOf(log, now, parse)
    ensures e.severity == Severity.FromMessage(e.message)
    ensures e.raw == log.raw.GetOr(e.message)
    ensures e.isDuplicate == isDuplicate
  {
    var message := MessageOf(log);
    Entry(message, TimeOf(log, now, parse), Severity.FromMessage(message), log.raw.GetOr(message), isDuplicate)
  }

  /** The messages of the logs, in order. */
  function MessagesOf(logs: seq<RawLog>): (ms: seq<string>)
    ensures |ms| == |logs| && forall k :: 0 <= k < |logs| ==> ms[k] == MessageOf(logs[k])
  {
    Map(logs, MessageOf)
  }

  /** The records `process` builds, before grouping, one per log in order;
      a log is a duplicate when its message is among the earlier ones. */
  function Entries(logs: seq<RawLog>, now: DateTime, parse: string -> Option<DateTime>): (es: seq<Entry>)
    ensures |es| == |logs|
    decreases |logs|
  {
    if |logs| == 0 then []
    else
      var init, last := logs[..|logs| - 1], logs[|logs| - 1];
      Entries(init, now, parse) + [Normalise(last, MessageOf(last) in MessagesOf(init), now, parse)]
  }

  /** Record `k` is log `k` normalised, marked duplicate exactly when an
      earlier log had the same message. */
  lemma {:induction false} EntriesAt(logs: seq<RawLog>, now: DateTime, parse: string -> Option<DateTime>, k: nat)
    requires k < |logs|
    ensures Entries(logs, now, parse)[k] == Normalise(logs[k], SeenBefore(logs, k), now, parse)
    decreases |logs|
  {
    var n := |logs| - 1;
    var init := logs[..n];
    assert Entries(logs, now, parse) == Entries(init, now, parse)
      + [Normalise(logs[n], MessageOf(logs[n]) in MessagesOf(init), now, parse)];
    if k < n {
      assert Entries(init, now, parse)[k] == Normalise(logs[k], SeenBefore(logs, k), now, parse) by {
        EntriesAt(init, now, parse, k);
        assert init[..k] == logs[..k] && init[k] == logs[k];
      }
    }
  }

  /** The loop of `process` before grouping, with its set of seen messages. */
  method MarkDuplicates(logs: seq<RawLog>, now: DateTime, parse: string -> Option<DateTime>)
    returns (entries: seq<Entry>)
    ensures entries == Entries(logs, now, parse)
  {
    entries := [];
    var seen: set<string> := {};
    for i := 0 to |logs|
      invariant entries == Entries(logs[..i], now, parse)
      invariant forall m :: m in seen <==> m in MessagesOf(logs[..i])
    {
      var message := MessageOf(logs[i]);
      var isDuplicate := message in seen;
      assert logs[..i + 1][..i] == logs[..i];
      assert MessagesOf(logs[..i + 1]) == MessagesOf(logs[..i]) + [message];
      seen := seen + {message};
      entries := entries + [Normalise(logs[i], isDuplicate, now, parse)];
    }
    assert logs[..|logs|] == logs;
  }

  /** A record's message, as a function value for `Map`. */
  function EntryMessage(e: Entry): string { e.message }

  /** A record not marked as a duplicate. */
  predicate Fresh(e: Entry) { !e.isDuplicate }

  /** One more record keeps the fresh messages equal to the distinct
      messages, when it is marked exactly if its message was seen. */
  lemma FreshSnoc(es: seq<Entry>, e: Entry, ms: seq<string>)
    requires Map(Filter(es, Fresh), EntryMessage) == Dedup(ms)
    requires e.isDuplicate <==> e.message in ms
    ensures Map(Filter(es + [e], Fresh), EntryMessage) == Dedup(ms + [e.message])
  {
    var last := Filter([e], Fresh);
    FilterConcat(es, [e], Fresh);
    MapConcat(Filter(es, Fresh), last, EntryMessage);
    assert Map(last, EntryMessage) == if e.message in ms then [] else [e.message];
    DedupSnoc(ms, e.message);
  }

  /** The messages of the records not marked duplicate are the distinct
      messages, each at its first occurrence. */
  lemma {:induction false} FreshMessagesAreDedup(logs: seq<RawLog>, now: DateTime, parse: string -> Option<DateTime>)
    ensures Map(Filter(Entries(logs, now, parse), Fresh), EntryMessage) == Dedup(MessagesOf(logs))
    decreases |logs|
  {
    if |logs| > 0 {
      var n := |logs| - 1;
      var init := logs[..n];
      var ms := MessagesOf(init);
      var e := Normalise(logs[n], MessageOf(logs[n]) in ms, now, parse);
      var es := Entries(init, now, parse);
      assert Entries(logs, now, parse) == es + [e];
      assert MessagesOf(logs) == ms + [e.message];
      assert Map(Filter(es + [e], Fresh), EntryMessage) == Dedup(ms + [e.message]) by {
        FreshMessagesAreDedup(init, now, parse);
        FreshSnoc(es, e, ms);
      }
    }
  }

  // ---------------------------------------------------------------------
  // Grouping by window

  /** The ten-minute window a record falls in. */
  function KeyOf(e: Entry): string
  {
    WindowKey(e.time)
  }

  /** What `groupByTimeWindow` returns. */
  datatype Grouped = Grouped(logs: seq<Entry>, windows: seq<string>, windowCount: nat)

  /** `groupByTimeWindow`: windows in order of first appearance, each
      window's records in input order, the buckets concatenated. */
  method GroupByTimeWindow(entries: seq<Entry>) returns (g: Grouped)
    ensures g.windows == Dedup(Map(entries, KeyOf))
    ensures NoDup(g.windows) && g.windowCount == |g.windows|
    ensures g.logs == Grouping.Regroup(entries, KeyOf, g.windows)
    ensures multiset(g.logs) == multiset(entries)
    ensures forall w :: Grouping.WithKey(g.logs, KeyOf, w) == Grouping.WithKey(entries, KeyOf, w)
  {
    var logs, windows := Grouping.GroupBy(entries, KeyOf);
    g := Grouped(logs, windows, |windows|);
  }

  /** `process`: mark repeated messages, then regroup by window. */
  method Process(logs: seq<RawLog>, now: DateTime, parse: string -> Option<DateTime>) returns (g: Grouped)
    ensures var es := Entries(logs, now, parse);
      && g.windows == Dedup(Map(es, KeyOf)) && g.windowCount == |g.windows|
      && g.logs == Grouping.Regroup(es, KeyOf, g.windows)
      && multiset(g.logs) == multiset(es)
  {
    var entries := MarkDuplicates(logs, now, parse);
    g := GroupByTimeWindow(entries);
  }

  // ---------------------------------------------------------------------
  // Summary

  /** `severity_breakdown`. */
  datatype Counts = Counts(critical: nat, error: nat, warning: nat, info: nat)

  /** What `getSummary` returns. */
  datatype Summary = Summary(totalLogs: nat, breakdown: Counts, uniqueMessages: seq<string>,
                             windows: seq<string>, windowCount: nat)

  /** `$severityCounts[$log['severity']]++`. */
  function Bump(c: Counts, l: Severity.Level): Counts
  {
    match l
    case Critical => c.(critical := c.critical + 1)
    case Error => c.(error := c.error + 1)
    case Warning => c.(warning := c.warning + 1)
    case Info => c.(info := c.info + 1)
  }

  /** The sum of the four counts. */
  function Total(c: Counts): nat
  {
    c.critical + c.error + c.warning + c.info
  }

  /** The breakdown `getSummary` accumulates over a list of records. Every
      record falls under exactly one of the four keys. */
  function Breakdown(es: seq<Entry>): (c: Counts)
    ensures Total(c) == |es|
    decreases |es|
  {
    if |es| == 0 then Counts(0, 0, 0, 0)
    else Bump(Breakdown(es[..|es| - 1]), es[|es| - 1].severity)
  }

  predicate IsCritical(e: Entry) { e.severity == Severity.Critical }
  predicate IsError(e: Entry) { e.severity == Severity.Error }
  predicate IsWarning(e: Entry) { e.severity == Severity.Warning }
  predicate IsInfo(e: Entry) { e.severity == Severity.Info }

  /** Each count is the number of records with that level. */
  lemma {:induction false} BreakdownCounts(es: seq<Entry>)
    ensures Breakdown(es) == Counts(Count(es, IsCritical), Count(es, IsError), Count(es, IsWarning), Count(es, IsInfo))
    decreases |es|
  {
    if |es| > 0 {
      BreakdownCounts(es[..|es| - 1]);
    }
  }

  /** One more record adds its message to the fresh messages unless it is a duplicate. */
  lemma FreshMessagesSnoc(es: seq<Entry>, e: Entry)
    ensures Map(Filter(es + [e], Fresh), EntryMessage) ==
            Map(Filter(es, Fresh), EntryMessage) + if e.isDuplicate then [] else [e.message]
  {
    assert (es + [e])[..|es|] == es;
    MapConcat(Filter(es, Fresh), if Fresh(e) then [e] else [], EntryMessage);
  }

  /** `getSummary`: one pass over the grouped records counting levels and
      collecting the messages of records not marked duplicate. */
  method GetSummary(g: Grouped) returns (s: Summary)
    ensures s.totalLogs == |g.logs|
    ensures s.breakdown == Breakdown(g.logs)
    ensures s.uniqueMessages == Map(Filter(g.logs, Fresh), EntryMessage)
    ensures s.windows == g.windows && s.windowCount == g.windowCount
  {
    var counts := Counts(0, 0, 0, 0);
    var unique: seq<string> := [];
    for i := 0 to |g.logs|
      invariant counts == Breakdown(g.logs[..i])
      invariant unique == Map(Filter(g.logs[..i], Fresh), EntryMessage)
    {
      var log := g.logs[i];
      assert g.logs[..i + 1] == g.logs[..i] + [log];
      counts := Bump(counts, log.severity);
      FreshMessagesSnoc(g.logs[..i], log);
      if !log.isDuplicate {
        unique := unique + [log.message];
      }
    }
    assert g.logs[..|g.logs|] == g.logs;
    s := Summary(|g.logs|, counts, unique, g.windows, g.windowCount);
  }

  /** Reordering the records does not change the breakdown. */
  lemma BreakdownPermutation(a: seq<Entry>, b: seq<Entry>)
    requires multiset(a) == multiset(b)
    ensures Breakdown(a) == Breakdown(b)
  {
    BreakdownCounts(a);
    BreakdownCounts(b);
    CountPermutation(a, b, IsCritical);
    CountPermutation(a, b, IsError);
    CountPermutation(a, b, IsWarning);
    CountPermutation(a, b, IsInfo);
  }

  /** The fresh messages of any reordering of the records are the distinct
      messages of the logs, each once. */
  lemma FreshMessagesOfReordering(rs: seq<Entry>, logs: seq<RawLog>, now: DateTime, parse: string -> Option<DateTime>)
    requires multiset(rs) == multiset(Entries(logs, now, parse))
    ensures var unique := Map(Filter(rs, Fresh), EntryMessage);
      && multiset(unique) == multiset(Dedup(MessagesOf(logs)))
      && NoDup(unique)
      && forall m :: m in unique <==> m in MessagesOf(logs)
  {
    var es := Entries(logs, now, parse);
    var unique := Map(Filter(rs, Fresh), EntryMessage);
    var d := Dedup(MessagesOf(logs));
    FilterPermutation(rs, es, Fresh);
    MapPermutation(Filter(rs, Fresh), Filter(es, Fresh), EntryMessage);
    FreshMessagesAreDedup(logs, now, parse);
    assert multiset(unique) == multiset(d);
    NoDupPermutation(d, unique);
    forall m
      ensures m in unique <==> m in MessagesOf(logs)
    {
      assert m in unique <==> m in multiset(d);
      DedupMembership(MessagesOf(logs), m);
    }
  }

  /** `process` followed by `getSummary`. */
  method Summarise(logs: seq<RawLog>, now: DateTime, parse: string -> Option<DateTime>) returns (s: Summary)
    ensures var es := Entries(logs, now, parse);
      && s.totalLogs == |logs|
      && s.breakdown == Breakdown(es)
      && s.windows == Dedup(Map(es, KeyOf)) && s.windowCount == |s.windows|
    ensures multiset(s.uniqueMessages) == multiset(Dedup(MessagesOf(logs)))
    ensures NoDup(s.uniqueMessages)
    ensures forall m :: m in s.uniqueMessages <==> m in MessagesOf(logs)
  {
    var g := Process(logs, now, parse);
    s := GetSummary(g);
    BreakdownPermutation(g.logs, Entries(logs, now, parse));
    FreshMessagesOfReordering(g.logs, logs, now, parse);
    assert |g.logs| == |multiset(g.logs)| == |logs|;
  }
}

=== FILE: reader.dfy ===
/** `LogFileReader`: three line formats without keyword inference, and the
    line splitting of the three readers. File access is replaced by the
    file's content (`None` when the file does not exist). */
module Reader {
  import opened Options
  import opened Strings
  import opened Patterns
  import opened Records
  import Seqs

  /** One parsed line; `raw` is the line as given. */
  datatype Record = Record(timestamp: Timestamp, severity: string, message: string, raw: string)

  /** No ASCII upper-case letter. */
  predicate IsLowerCase(s: string) { forall k :: 0 <= k < |s| ==> !IsUpper(s[k]) }

  /** `s[g.lo..g.hi]` occurs in `s` at `g.lo`. */
  function Slice(s: string, g: Span): (r: string)
    requires g.Within(s)
    ensures |r| == g.hi - g.lo && OccursAt(s, r, g.lo)
  {
    g.Of(s)
  }

  /** A record built from captured groups: the timestamp and message
      groups as captured (untrimmed), the level group lower-cased. */
  function Captured(line: string, g: Groups3): (r: Record)
    requires g.stamp.Within(line) && g.level.lo < g.level.hi <= |line| && g.message.Within(line)
    requires AllIn(line, g.message.lo, g.message.hi, NotNewline)
    ensures r.raw == line
    ensures r.timestamp == Text(Slice(line, g.stamp))
    ensures r.severity == ToLower(Slice(line, g.level)) && IsLowerCase(r.severity) && |r.severity| > 0
    ensures r.message == Slice(line, g.message) && '\n' !in r.message
  {
    var level := Slice(line, g.level);
    var msg := Slice(line, g.message);
    assert forall k :: 0 <= k < |msg| ==> msg[k] == line[g.message.lo + k] && In(line[g.message.lo + k], NotNewline);
    Record(Text(Slice(line, g.stamp)), ToLower(level), msg, line)
  }

  /** The Laravel format: `[anything] env.level: message`. */
  function Laravel(line: string): (r: Option<Record>)
    ensures r.Some? <==> ReaderLaravel(line).Some?
    ensures r.Some? ==> r.value == Captured(line, ReaderLaravel(line).value.groups)
  {
    match ReaderLaravel(line)
    case None => None
    case Some(f) => Some(Captured(line, f.groups))
  }

  /** The generic format: a `dddd-dd-dd<spaces>dd:dd:dd` date, then a
      `word: message` later on the same line. */
  function Generic(line: string): (r: Option<Record>)
    ensures r.Some? <==> ReaderGeneric(line).Some?
    ensures r.Some? ==> r.value == Captured(line, ReaderGeneric(line).value.groups)
    ensures r.Some? ==> |r.value.timestamp.text| >= 19 && AllIn(r.value.timestamp.text, 0, 4, Digit)
  {
    match ReaderGeneric(line)
    case None => None
    case Some(f) =>
      var g := f.groups;
      GenericShapeFacts(line, f.start, g);
      Some(Captured(line, g))
  }

  /** The plain facts about a generic match that building a record needs. */
  lemma GenericShapeFacts(s: string, i: nat, g: Groups3)
    requires ReaderGenericShape(s, i, g)
    ensures g.stamp.lo + 19 <= g.stamp.hi <= g.level.lo < g.level.hi < g.message.lo <= g.message.hi <= |s|
    ensures AllIn(s[g.stamp.lo..g.stamp.hi], 0, 4, Digit)
    ensures AllIn(s, g.message.lo, g.message.hi, NotNewline)
  {
  }

  /** The reader's line parser. The Laravel pattern is tried first, then the
      generic one; a line neither matches is kept whole as an info record
      with the current time. */
  function ParseLogLine(line: string): (r: Record)
    ensures r.raw == line
    ensures ReaderLaravel(line).Some? ==> r == Captured(line, ReaderLaravel(line).value.groups)
    ensures ReaderLaravel(line).None? && ReaderGeneric(line).Some? ==>
              r == Captured(line, ReaderGeneric(line).value.groups)
    ensures r.timestamp.Now? <==> ReaderLaravel(line).None? && ReaderGeneric(line).None?
    ensures r.timestamp.Now? ==> r.severity == "info" && r.message == line
  {
    if Laravel(line).Some? then Laravel(line).value
    else if Generic(line).Some? then Generic(line).value
    else Record(Now, "info", line, line)
  }

  /** What every matched line yields: newline-free, untrimmed pieces of the
      line, and a lower-case level word. */
  lemma ParsedPieces(line: string)
    requires ParseLogLine(line).timestamp.Text?
    ensures var r := ParseLogLine(line);
      && Contains(line, r.timestamp.text) && Contains(line, r.message)
      && '\n' !in r.message && IsLowerCase(r.severity) && |r.severity| > 0
  {
    var g := if ReaderLaravel(line).Some? then ReaderLaravel(line).value.groups
             else ReaderGeneric(line).value.groups;
    ContainsAt(line, Slice(line, g.stamp), g.stamp.lo);
    ContainsAt(line, Slice(line, g.message), g.message.lo);
  }

  /** The raw line of a record, as a function value for `Seqs.Map`. */
  function RawOf(r: Record): string { r.raw }

  /** A trimmed line the readers keep: PHP's `empty` rejects "" and "0". */
  predicate Kept(line: string) { !IsPhpEmpty(line) }

  /** The loop shared by `readFromStorage` and `readLaravelLogs`: trim each
      line, skip the empty ones, parse the rest. */
  function ReadLines(lines: seq<string>): (logs: seq<Record>)
    ensures |logs| <= |lines|
    ensures forall k :: 0 <= k < |logs| ==> Kept(logs[k].raw) && IsTrimmed(logs[k].raw)
    ensures forall k :: 0 <= k < |logs| ==> logs[k] == ParseLogLine(logs[k].raw)
    decreases |lines|
  {
    if |lines| == 0 then []
    else
      var line := Trim(lines[|lines| - 1]);
      ReadLines(lines[..|lines| - 1]) + (if Kept(line) then [ParseLogLine(line)] else [])
  }

  /** One record per kept line, in order: the raw lines of the records are
      exactly the trimmed lines that are not PHP-empty. */
  lemma {:induction false} ReadLinesKeepsLines(lines: seq<string>)
    ensures Seqs.Map(ReadLines(lines), RawOf) == Seqs.Filter(Seqs.Map(lines, Trim), Kept)
    decreases |lines|
  {
    if |lines| > 0 {
      var init := lines[..|lines| - 1];
      var line := Trim(lines[|lines| - 1]);
      var last := if Kept(line) then [ParseLogLine(line)] else [];
      ReadLinesKeepsLines(init);
      assert ReadLines(lines) == ReadLines(init) + last;
      Seqs.MapConcat(ReadLines(init), last, RawOf);
      assert Seqs.Map(lines, Trim)[..|lines| - 1] == Seqs.Map(init, Trim);
    }
  }

  /** `readFromStorage`: the content is split on "\n"; a missing file is an error. */
  function ReadFromStorage(content: Option<string>): (r: Option<seq<Record>>)
    ensures r.None? <==> content.None?
    ensures r.Some? ==> r.value == ReadLines(Split(content.value, '\n'))
  {
    match content
    case None => None
    case Some(c) => Some(ReadLines(Split(c, '\n')))
  }

  predicate NonEmpty(line: string) { line != "" }

  /** A line ended by "\n" as `file()` returns it: a '\r' just before the
      "\n" goes too. */
  function DropCr(line: string): (r: string)
    ensures r <= line && |line| - 1 <= |r|
    ensures r != line <==> |line| > 0 && line[|line| - 1] == '\r'
  {
    if |line| > 0 && line[|line| - 1] == '\r' then line[..|line| - 1] else line
  }

  /** `file($path, FILE_IGNORE_NEW_LINES | FILE_SKIP_EMPTY_LINES)`: every
      line ended by "\n" loses it and a '\r' before it, and is skipped when
      nothing is left; the bytes after the last "\n", if any, make a last
      line as they are. */
  function FileLines(content: string): (lines: seq<string>)
    ensures forall k :: 0 <= k < |lines| ==> NonEmpty(lines[k]) && '\n' !in lines[k]
  {
    var parts := Split(content, '\n');
    var last := |parts| - 1;
    var cut := Seqs.Map(parts[..last], DropCr) + [parts[last]];
    assert forall k :: 0 <= k < |cut| ==> '\n' !in cut[k] by {
      forall k | 0 <= k < |cut|
        ensures '\n' !in cut[k]
      {
        if k < last {
          assert '\n' !in parts[k];
          assert cut[k] <= parts[k];
        }
      }
    }
    var lines := Seqs.Filter(cut, NonEmpty);
    forall k | 0 <= k < |lines|
      ensures NonEmpty(lines[k]) && '\n' !in lines[k]
    {
      Seqs.FilterMembership(cut, NonEmpty, lines[k]);
    }
    lines
  }

  /** A file of non-empty lines each ended by "\r\n" reads back as exactly
      those lines. */
  lemma FileLinesOfCrLf(lines: seq<string>)
    requires forall k :: 0 <= k < |lines| ==> NonEmpty(lines[k]) && '\n' !in lines[k]
    ensures FileLines(Join(Seqs.Map(lines, WithCr) + [""], "\n")) == lines
  {
    var mapped := Seqs.Map(lines, WithCr);
    var parts := mapped + [""];
    CrLfSplit(lines);
    assert parts[..|parts| - 1] == mapped;
    CrLfDropped(lines);
    BlankDropped(lines);
  }

  /** Splitting the "\r\n"-ended text gives the lines with their '\r', and
      an empty piece after the last "\n". */
  lemma CrLfSplit(lines: seq<string>)
    requires forall k :: 0 <= k < |lines| ==> '\n' !in lines[k]
    ensures Split(Join(Seqs.Map(lines, WithCr) + [""], "\n"), '\n') == Seqs.Map(lines, WithCr) + [""]
  {
    var parts := Seqs.Map(lines, WithCr) + [""];
    forall k | 0 <= k < |parts|
      ensures '\n' !in parts[k]
    {
      if k < |lines| {
        assert parts[k] == lines[k] + "\r";
      }
    }
    SplitJoin(parts, '\n');
  }

  /** `DropCr` undoes `WithCr`. */
  lemma CrLfDropped(lines: seq<string>)
    ensures Seqs.Map(Seqs.Map(lines, WithCr), DropCr) == lines
  {
    forall k | 0 <= k < |lines|
      ensures DropCr(lines[k] + "\r") == lines[k]
    {
      assert (lines[k] + "\r")[..|lines[k]|] == lines[k];
    }
  }

  /** The empty piece after the last "\n" is skipped. */
  lemma BlankDropped(lines: seq<string>)
    requires forall k :: 0 <= k < |lines| ==> NonEmpty(lines[k])
    ensures Seqs.Filter(lines + [""], NonEmpty) == lines
  {
    Seqs.FilterConcat(lines, [""], NonEmpty);
    Seqs.FilterSingleton("", NonEmpty);
    Seqs.FilterAll(lines, NonEmpty);
    assert lines + [] == lines;
  }

  /** A line with the '\r' of a Windows line ending. */
  function WithCr(line: string): string { line + "\r" }

  /** `readFromFile`: the lines `file()` returns, parsed untrimmed, one
      record each; a missing file is an error. */
  function ReadFromFile(content: Option<string>): (r: Option<seq<Record>>)
    ensures r.None? <==> content.None?
    ensures r.Some? ==> Seqs.Map(r.value, RawOf) == FileLines(content.value)
    ensures r.Some? ==> forall k :: 0 <= k < |r.value| ==> r.value[k] == ParseLogLine(r.value[k].raw)
  {
    match content
    case None => None
    case Some(c) =>
      var lines := FileLines(c);
      var logs := Seqs.Map(lines, ParseLogLine);
      assert Seqs.Map(logs, RawOf) == lines;
      Some(logs)
  }

  /** `readLaravelLogs`: the lines from index `total - lines` to the end,
      read as by `readFromStorage`, where `total` is the index of the last
      line. No file means no records. Its only caller validates `lines` as at
      least 1. */
  function ReadLaravelLogs(content: Option<string>, lines: int): (logs: seq<Record>)
    requires lines >= 0
    ensures content.None? ==> logs == []
    ensures content.Some? ==>
      var all := Split(content.value, '\n');
      var total := |all| - 1;
      && (lines <= total ==> logs == ReadLines(all[total - lines..]))
      && (lines > total ==> logs == ReadLines(all))
  {
    match content
    case None => []
    case Some(c) =>
      var all := Split(c, '\n');
      var total := |all| - 1;
      // `max(0, $totalLines - $lines)`
      var start := if total - lines > 0 then total - lines else 0;
      assert all[0..] == all;
      ReadLines(all[start..])
  }
}

=== FILE: records.dfy ===
/** The records the pipeline passes between its stages. */
module Records {
  import Options

  /** A record's timestamp: text captured from the line, or the current time
      (`now()`), which the model does not compute. */
  datatype Timestamp = Text(text: string) | Now

  /** The system metrics an analysis is run against. A missing key reads as
      PHP `null`, which compares and adds like 0, so every field is total. */
  datatype Metrics = Metrics(cpuUsage: real, memoryUsage: real, dbLatency: real, requestsPerSec: real)

  /** A text the engine emits. Most are fixed; some splice a metric into a
      sentence (`'CPU: ' . $metrics['cpu_usage'] . '%'`), and PHP's rendering
      of a float is not modelled, so those keep the number beside the words. */
  datatype Message = Plain(text: string) | WithNumber(before: string, value: real, after: string)

  /** A probable cause, as proposed by the AI service or the fallback rules
      and as ranked by the decision engine. A missing `next_steps` or
      `evidence` key reads as the empty list, which is how both are used;
      `correlationBoost` is set once the engine has scored the cause. */
  datatype Cause = Cause(
    cause: string,
    confidence: real,
    reasoning: string,
    evidence: seq<Message>,
    nextSteps: seq<string>,
    correlationBoost: Options.Option<real>)
}

=== FILE: seqs.dfy ===
/** Sequence helpers: filtering, PHP's `array_unique` (first occurrence
    wins) and the permutation facts the preprocessor needs. */
module Seqs {

  /** No element occurs twice. */
  predicate NoDup<T(==)>(s: seq<T>)
  {
    forall i, j :: 0 <= i < j < |s| ==> s[i] != s[j]
  }

  /** The elements of `s` that satisfy `p`, in their original order. */
  function Filter<T>(s: seq<T>, p: T -> bool): (r: seq<T>)
    ensures |r| <= |s|
    decreases |s|
  {
    if |s| == 0 then []
    else Filter(s[..|s| - 1], p) + (if p(s[|s| - 1]) then [s[|s| - 1]] else [])
  }

  /** A value is kept by `Filter` exactly when it is in the list and satisfies `p`. */
  lemma {:induction false} FilterMembership<T>(s: seq<T>, p: T -> bool, x: T)
    ensures x in Filter(s, p) <==> x in s && p(x)
    decreases |s|
  {
    if |s| > 0 {
      var init := s[..|s| - 1];
      FilterMembership(init, p, x);
      assert s == init + [s[|s| - 1]];
    }
  }

  /** Filtering distributes over concatenation. */
  lemma {:induction false} FilterConcat<T>(a: seq<T>, b: seq<T>, p: T -> bool)
    ensures Filter(a + b, p) == Filter(a, p) + Filter(b, p)
    decreases |b|
  {
    if |b| == 0 {
      assert a + b == a;
    } else {
      var b' := b[..|b| - 1];
      FilterConcat(a, b', p);
      assert (a + b)[..|a + b| - 1] == a + b';
      assert (a + b)[|a + b| - 1] == b[|b| - 1];
    }
  }

  /** Filtering a single element. */
  lemma FilterSingleton<T>(x: T, p: T -> bool)
    ensures Filter([x], p) == if p(x) then [x] else []
  {
    assert [x][..0] == [];
  }

  /** Removing position `j` removes it from the filtered multiset when it passes. */
  lemma FilterRemove<T>(b: seq<T>, j: nat, p: T -> bool)
    requires j < |b|
    ensures multiset(Filter(b, p)) ==
              multiset(Filter(b[..j] + b[j + 1..], p)) + multiset(Filter([b[j]], p))
  {
    SpliceAt(b, j);
    FilterSplice(b[..j], b[j], b[j + 1..], p);
  }

  /** A list is its prefix, the element at `j`, and its suffix. */
  lemma SpliceAt<T>(b: seq<T>, j: nat)
    requires j < |b|
    ensures b == (b[..j] + [b[j]]) + b[j + 1..]
  {
    assert b[..j + 1] == b[..j] + [b[j]];
  }

  /** `FilterRemove` for a list already written as `left + [x] + right`. */
  lemma FilterSplice<T>(left: seq<T>, x: T, right: seq<T>, p: T -> bool)
    ensures multiset(Filter((left + [x]) + right, p)) ==
              multiset(Filter(left + right, p)) + multiset(Filter([x], p))
  {
    var fl, fx, fr := Filter(left, p), Filter([x], p), Filter(right, p);
    assert Filter((left + [x]) + right, p) == (fl + fx) + fr by {
      FilterConcat(left + [x], right, p);
      FilterConcat(left, [x], p);
    }
    assert Filter(left + right, p) == fl + fr by {
      FilterConcat(left, right, p);
    }
  }

  /** Filtering two permutations of each other gives permutations of each other. */
  lemma {:induction false} FilterPermutation<T>(a: seq<T>, b: seq<T>, p: T -> bool)
    requires multiset(a) == multiset(b)
    ensures multiset(Filter(a, p)) == multiset(Filter(b, p))
    decreases |a|
  {
    if |a| == 0 {
      assert |b| == |multiset(b)| == 0;
    } else {
      var a' := a[..|a| - 1];
      var x := a[|a| - 1];
      assert a == a' + [x];
      assert x in multiset(b);
      var j :| 0 <= j < |b| && b[j] == x;
      var b' := b[..j] + b[j + 1..];
      assert b == b[..j] + [x] + b[j + 1..];
      assert multiset(b') == multiset(b) - multiset{x};
      FilterPermutation(a', b', p);
      FilterConcat(a', [x], p);
      FilterRemove(b, j, p);
    }
  }

  /** Filtering keeps everything when every element passes. */
  lemma {:induction false} FilterAll<T>(s: seq<T>, p: T -> bool)
    requires forall x :: x in s ==> p(x)
    ensures Filter(s, p) == s
    decreases |s|
  {
    if |s| > 0 {
      FilterAll(s[..|s| - 1], p);
      assert s[..|s| - 1] + [s[|s| - 1]] == s;
    }
  }

  /** Filtering keeps nothing when no element passes. */
  lemma {:induction false} FilterNone<T>(s: seq<T>, p: T -> bool)
    requires forall x :: x in s ==> !p(x)
    ensures Filter(s, p) == []
    decreases |s|
  {
    if |s| > 0 {
      FilterNone(s[..|s| - 1], p);
    }
  }

  /** The number of elements of `s` that satisfy `p`. */
  function Count<T>(s: seq<T>, p: T -> bool): nat
  {
    |Filter(s, p)|
  }

  /** Reordering does not change a count. */
  lemma CountPermutation<T>(a: seq<T>, b: seq<T>, p: T -> bool)
    requires multiset(a) == multiset(b)
    ensures Count(a, p) == Count(b, p)
  {
    FilterPermutation(a, b, p);
    assert |Filter(a, p)| == |multiset(Filter(a, p))| == |multiset(Filter(b, p))| == |Filter(b, p)|;
  }

  /** Element-wise image of a sequence. */
  function Map<T, U>(s: seq<T>, f: T -> U): (r: seq<U>)
    ensures |r| == |s|
    ensures forall k :: 0 <= k < |s| ==> r[k] == f(s[k])
    decreases |s|
  {
    if |s| == 0 then [] else Map(s[..|s| - 1], f) + [f(s[|s| - 1])]
  }

  /** Mapping distributes over concatenation. */
  lemma MapConcat<T, U>(a: seq<T>, b: seq<T>, f: T -> U)
    ensures Map(a + b, f) == Map(a, f) + Map(b, f)
  {
    assert forall k :: 0 <= k < |a + b| ==> Map(a + b, f)[k] == (Map(a, f) + Map(b, f))[k];
  }

  /** Removing position `j` removes its image from the multiset of images. */
  lemma MapRemove<T, U>(b: seq<T>, j: nat, f: T -> U)
    requires j < |b|
    ensures multiset(Map(b, f)) == multiset(Map(b[..j] + b[j + 1..], f)) + multiset{f(b[j])}
  {
    SpliceAt(b, j);
    MapSplice(b[..j], b[j], b[j + 1..], f);
  }

  /** `MapRemove` for a list already written as `left + [x] + right`. */
  lemma MapSplice<T, U>(left: seq<T>, x: T, right: seq<T>, f: T -> U)
    ensures multiset(Map((left + [x]) + right, f)) == multiset(Map(left + right, f)) + multiset{f(x)}
  {
    var ml, mr := Map(left, f), Map(right, f);
    assert Map((left + [x]) + right, f) == (ml + [f(x)]) + mr by {
      MapConcat(left + [x], right, f);
      MapConcat(left, [x], f);
    }
    assert Map(left + right, f) == ml + mr by {
      MapConcat(left, right, f);
    }
  }

  /** Mapping two permutations of each other gives permutations of each other. */
  lemma {:induction false} MapPermutation<T, U>(a: seq<T>, b: seq<T>, f: T -> U)
    requires multiset(a) == multiset(b)
    ensures multiset(Map(a, f)) == multiset(Map(b, f))
    decreases |a|
  {
    if |a| == 0 {
      assert |b| == |multiset(b)| == 0;
    } else {
      var a' := a[..|a| - 1];
      var x := a[|a| - 1];
      assert a == a' + [x];
      assert x in multiset(b);
      var j :| 0 <= j < |b| && b[j] == x;
      var b' := b[..j] + b[j + 1..];
      assert b == b[..j] + [x] + b[j + 1..];
      assert multiset(b') == multiset(b) - multiset{x};
      MapPermutation(a', b', f);
      MapConcat(a', [x], f);
      MapRemove(b, j, f);
    }
  }

  /** The blocks whose flag is set, joined in order: what a run of
      `if (condition) { $list[] = ...; }` statements builds. */
  function Appended<T>(blocks: seq<(bool, seq<T>)>): seq<T>
    decreases |blocks|
  {
    if |blocks| == 0 then []
    else
      var last := blocks[|blocks| - 1];
      Appended(blocks[..|blocks| - 1]) + (if last.0 then last.1 else [])
  }

  /** Every block's values, flag or no flag. */
  function Everything<T>(blocks: seq<(bool, seq<T>)>): seq<T>
    decreases |blocks|
  {
    if |blocks| == 0 then [] else Everything(blocks[..|blocks| - 1]) + blocks[|blocks| - 1].1
  }

  /** One more block adds its values after the others. */
  lemma EverythingSnoc<T>(blocks: seq<(bool, seq<T>)>, b: (bool, seq<T>))
    ensures Everything(blocks + [b]) == Everything(blocks) + b.1
  {
    assert (blocks + [b])[..|blocks|] == blocks;
  }

  /** One more block is appended after the others when its flag is set. */
  lemma AppendedSnoc<T>(blocks: seq<(bool, seq<T>)>, b: (bool, seq<T>))
    ensures Appended(blocks + [b]) == Appended(blocks) + (if b.0 then b.1 else [])
  {
    assert (blocks + [b])[..|blocks|] == blocks;
  }

  /** Every value of three blocks. */
  lemma EverythingOfThree<T>(x: (bool, seq<T>), y: (bool, seq<T>), z: (bool, seq<T>))
    ensures Everything([x, y, z]) == x.1 + y.1 + z.1
  {
    EverythingSnoc([], x);
    EverythingSnoc([x], y);
    EverythingSnoc([x, y], z);
    assert [x] + [y] == [x, y] && [x, y] + [z] == [x, y, z];
  }

  /** Every value of four blocks. */
  lemma EverythingOfFour<T>(w: (bool, seq<T>), x: (bool, seq<T>), y: (bool, seq<T>), z: (bool, seq<T>))
    ensures Everything([w, x, y, z]) == w.1 + x.1 + y.1 + z.1
  {
    EverythingOfThree(w, x, y);
    EverythingSnoc([w, x, y], z);
    assert [w, x, y] + [z] == [w, x, y, z];
  }

  /** The values of two runs of blocks, one after the other. */
  lemma {:induction false} EverythingAppend<T>(a: seq<(bool, seq<T>)>, b: seq<(bool, seq<T>)>)
    ensures Everything(a + b) == Everything(a) + Everything(b)
    decreases |b|
  {
    if |b| == 0 {
      assert a + b == a;
    } else {
      var init, last := b[..|b| - 1], b[|b| - 1];
      EverythingAppend(a, init);
      assert a + b == (a + init) + [last];
      EverythingSnoc(a + init, last);
      EverythingSnoc(init, last);
      assert init + [last] == b;
    }
  }

  /** The flagged values of three blocks, in block order. */
  lemma AppendedOfThree<T>(x: (bool, seq<T>), y: (bool, seq<T>), z: (bool, seq<T>))
    ensures Appended([x, y, z]) == (if x.0 then x.1 else []) + (if y.0 then y.1 else []) + (if z.0 then z.1 else [])
  {
    AppendedSnoc([], x);
    AppendedSnoc([x], y);
    AppendedSnoc([x, y], z);
    assert [x] + [y] == [x, y] && [x, y] + [z] == [x, y, z];
  }

  /** The values one block adds: its own when its flag is set, none otherwise. */
  function Flagged<T>(b: (bool, seq<T>)): seq<T>
  {
    if b.0 then b.1 else []
  }

  /** The flagged values of four blocks, in block order. */
  lemma AppendedOfFour<T>(w: (bool, seq<T>), x: (bool, seq<T>), y: (bool, seq<T>), z: (bool, seq<T>))
    ensures Appended([w, x, y, z]) == Flagged(w) + Flagged(x) + Flagged(y) + Flagged(z)
  {
    AppendedOfThree(w, x, y);
    AppendedSnoc([w, x, y], z);
    assert [w, x, y] + [z] == [w, x, y, z];
  }

  /** The flagged values of eight blocks, in block order. */
  lemma AppendedOfEight<T>(b0: (bool, seq<T>), b1: (bool, seq<T>), b2: (bool, seq<T>), b3: (bool, seq<T>),
                           b4: (bool, seq<T>), b5: (bool, seq<T>), b6: (bool, seq<T>), b7: (bool, seq<T>))
    ensures Appended([b0, b1, b2, b3, b4, b5, b6, b7]) ==
      Flagged(b0) + Flagged(b1) + Flagged(b2) + Flagged(b3) + Flagged(b4) + Flagged(b5) + Flagged(b6) + Flagged(b7)
  {
    AppendedAppend([b0, b1, b2, b3], [b4, b5, b6, b7]);
    assert [b0, b1, b2, b3] + [b4, b5, b6, b7] == [b0, b1, b2, b3, b4, b5, b6, b7];
    AppendedOfFour(b0, b1, b2, b3);
    AppendedOfFour(b4, b5, b6, b7);
    var x, y := Flagged(b0) + Flagged(b1) + Flagged(b2) + Flagged(b3), Flagged(b4) + Flagged(b5) + Flagged(b6);
    assert x + (y + Flagged(b7)) == (x + y) + Flagged(b7);
    assert x + Flagged(b4) + Flagged(b5) + Flagged(b6) == x + y;
  }

  /** The flagged values of two runs of blocks, one after the other. */
  lemma {:induction false} AppendedAppend<T>(a: seq<(bool, seq<T>)>, b: seq<(bool, seq<T>)>)
    ensures Appended(a + b) == Appended(a) + Appended(b)
    decreases |b|
  {
    if |b| == 0 {
      assert a + b == a;
    } else {
      var init, last := b[..|b| - 1], b[|b| - 1];
      AppendedAppend(a, init);
      assert a + b == (a + init) + [last];
      AppendedSnoc(a + init, last);
      AppendedSnoc(init, last);
      assert init + [last] == b;
    }
  }

  /** Appending keeps at most every value. */
  lemma {:induction false} AppendedLength<T>(blocks: seq<(bool, seq<T>)>)
    ensures |Appended(blocks)| <= |Everything(blocks)|
    decreases |blocks|
  {
    if |blocks| > 0 {
      AppendedLength(blocks[..|blocks| - 1]);
    }
  }

  /** A value is appended exactly when a block holding it is kept. */
  lemma {:induction false} AppendedMembership<T>(blocks: seq<(bool, seq<T>)>, x: T)
    ensures x in Appended(blocks) <==> exists i :: 0 <= i < |blocks| && blocks[i].0 && x in blocks[i].1
    ensures x in Appended(blocks) ==> x in Everything(blocks)
    decreases |blocks|
  {
    if |blocks| > 0 {
      var init := blocks[..|blocks| - 1];
      AppendedMembership(init, x);
      assert forall i :: 0 <= i < |init| ==> init[i] == blocks[i];
    }
  }

  /** A value that only one block holds is appended exactly when that
      block's flag is set. */
  lemma AppendedHolds<T>(blocks: seq<(bool, seq<T>)>, k: nat, x: T)
    requires k < |blocks| && x in blocks[k].1
    requires forall i :: 0 <= i < |blocks| && i != k ==> x !in blocks[i].1
    ensures x in Appended(blocks) <==> blocks[k].0
  {
    AppendedMembership(blocks, x);
  }

  /** Every block's values are among all the values. */
  lemma {:induction false} EverythingHolds<T>(blocks: seq<(bool, seq<T>)>, k: nat, x: T)
    requires k < |blocks| && x in blocks[k].1
    ensures x in Everything(blocks)
    decreases |blocks|
  {
    if k < |blocks| - 1 {
      var init := blocks[..|blocks| - 1];
      assert init[k] == blocks[k];
      EverythingHolds(init, k, x);
    }
  }

  /** When no value occurs twice among all the blocks, a value is held by
      one block only. */
  lemma {:induction false} EverythingExclusive<T>(blocks: seq<(bool, seq<T>)>, k: nat, i: nat, x: T)
    requires NoDup(Everything(blocks))
    requires k < |blocks| && i < |blocks| && i != k && x in blocks[k].1
    ensures x !in blocks[i].1
    decreases |blocks|
  {
    var init, last := blocks[..|blocks| - 1], blocks[|blocks| - 1];
    var e := Everything(init);
    assert Everything(blocks) == e + last.1;
    if k == |blocks| - 1 {
      assert init[i] == blocks[i];
      if x in blocks[i].1 {
        EverythingHolds(init, i, x);
        NoDupSplit(e, last.1, x);
        assert false;
      }
    } else {
      assert init[k] == blocks[k];
      EverythingHolds(init, k, x);
      if i == |blocks| - 1 {
        NoDupSplit(e, last.1, x);
      } else {
        assert init[i] == blocks[i];
        assert NoDup(e) by {
          assert forall a :: 0 <= a < |e| ==> e[a] == Everything(blocks)[a];
        }
        EverythingExclusive(init, k, i, x);
      }
    }
  }

  /** When no value occurs twice among all the blocks, a block's value is
      appended exactly when that block's flag is set. */
  lemma AppendedHoldsUnique<T>(blocks: seq<(bool, seq<T>)>, k: nat, x: T)
    requires NoDup(Everything(blocks))
    requires k < |blocks| && x in blocks[k].1
    ensures x in Appended(blocks) <==> blocks[k].0
  {
    forall i | 0 <= i < |blocks| && i != k
      ensures x !in blocks[i].1
    {
      EverythingExclusive(blocks, k, i, x);
    }
    AppendedHolds(blocks, k, x);
  }

  /** When no value occurs twice among all the blocks, none is appended twice. */
  lemma {:induction false} AppendedNoDup<T>(blocks: seq<(bool, seq<T>)>)
    requires NoDup(Everything(blocks))
    ensures NoDup(Appended(blocks))
    decreases |blocks|
  {
    if |blocks| > 0 {
      var init, last := blocks[..|blocks| - 1], blocks[|blocks| - 1];
      var e := Everything(init);
      assert Everything(blocks) == e + last.1;
      assert NoDup(e) by {
        assert forall i :: 0 <= i < |e| ==> e[i] == Everything(blocks)[i];
      }
      assert NoDup(last.1) by {
        assert forall i :: 0 <= i < |last.1| ==> last.1[i] == Everything(blocks)[|e| + i];
      }
      AppendedNoDup(init);
      var tail := if last.0 then last.1 else [];
      forall x | x in Appended(init)
        ensures x !in tail
      {
        AppendedMembership(init, x);
        NoDupSplit(e, last.1, x);
      }
      NoDupConcat(Appended(init), tail);
    }
  }

  /** In a list without repetitions, the two halves share no value. */
  lemma NoDupSplit<T>(a: seq<T>, b: seq<T>, x: T)
    requires NoDup(a + b) && x in a
    ensures x !in b
  {
    var i :| 0 <= i < |a| && a[i] == x;
    forall j | 0 <= j < |b|
      ensures b[j] != x
    {
      assert (a + b)[i] == a[i] && (a + b)[|a| + j] == b[j];
    }
  }

  /** PHP `array_unique` on a list: the first occurrence of each value, in
      order of first appearance. */
  function Dedup<T(==)>(s: seq<T>): (r: seq<T>)
    ensures NoDup(r)
    ensures |r| <= |s|
    decreases |s|, 0
  {
    if |s| == 0 then []
    else
      var init := s[..|s| - 1];
      var d := Dedup(init);
      if s[|s| - 1] in init then d
      else
        DedupMembership(init, s[|s| - 1]);
        d + [s[|s| - 1]]
  }

  /** `Dedup` keeps every value and invents none. */
  lemma {:induction false} DedupMembership<T>(s: seq<T>, x: T)
    ensures x in Dedup(s) <==> x in s
    decreases |s|, 1
  {
    if |s| > 0 {
      var init := s[..|s| - 1];
      DedupMembership(init, x);
      assert s == init + [s[|s| - 1]];
    }
  }

  /** `array_unique` on one more element: kept exactly when it is new. */
  lemma DedupSnoc<T>(s: seq<T>, x: T)
    ensures Dedup(s + [x]) == if x in s then Dedup(s) else Dedup(s) + [x]
  {
    assert (s + [x])[..|s|] == s;
  }

  /** A list without repetitions is left as it is. */
  lemma {:induction false} DedupOfNoDup<T>(s: seq<T>)
    requires NoDup(s)
    ensures Dedup(s) == s
    decreases |s|
  {
    if |s| > 0 {
      var init := s[..|s| - 1];
      assert NoDup(init);
      DedupOfNoDup(init);
      assert s[|s| - 1] !in init;
      assert init + [s[|s| - 1]] == s;
    }
  }

  /** Deduplicating a concatenation keeps the deduplicated first part as a
      prefix: later values never displace earlier first occurrences. */
  lemma {:induction false} DedupConcatPrefix<T>(a: seq<T>, b: seq<T>)
    ensures |Dedup(a)| <= |Dedup(a + b)|
    ensures Dedup(a + b)[..|Dedup(a)|] == Dedup(a)
    decreases |b|
  {
    if |b| == 0 {
      assert a + b == a;
    } else {
      var b' := b[..|b| - 1];
      DedupConcatPrefix(a, b');
      assert (a + b)[..|a + b| - 1] == a + b';
    }
  }

  /** Holds of the values not in `a`. */
  function Outside<T(==)>(a: seq<T>): T -> bool
  {
    (x: T) => x !in a
  }

  /** Deduplicating a list followed by one without repetitions keeps the
      deduplicated first list, then the values of the second it lacks. */
  lemma {:induction false} DedupConcatNoDup<T>(a: seq<T>, b: seq<T>)
    requires NoDup(b)
    ensures Dedup(a + b) == Dedup(a) + Filter(b, Outside(a))
    decreases |b|
  {
    if |b| == 0 {
      assert a + b == a;
    } else {
      var init, x := b[..|b| - 1], b[|b| - 1];
      assert NoDup(init);
      DedupConcatNoDup(a, init);
      assert x !in init;
      assert a + b == (a + init) + [x];
      DedupSnoc(a + init, x);
      assert Outside(a)(x) == (x !in a);
    }
  }

  /** Joining two lists without repetitions that share no value gives a
      list without repetitions. */
  lemma NoDupConcat<T>(a: seq<T>, b: seq<T>)
    requires NoDup(a) && NoDup(b)
    requires forall x :: x in a ==> x !in b
    ensures NoDup(a + b)
  {
    forall i, j | 0 <= i < j < |a + b|
      ensures (a + b)[i] != (a + b)[j]
    {
      if i < |a| && j >= |a| {
        assert (a + b)[i] in a && (a + b)[j] == b[j - |a|];
      }
    }
  }

  /** A permutation of a list without repetitions has none either. */
  lemma NoDupPermutation<T>(a: seq<T>, b: seq<T>)
    requires multiset(a) == multiset(b)
    requires NoDup(a)
    ensures NoDup(b)
  {
    forall i, j | 0 <= i < j < |b|
      ensures b[i] != b[j]
    {
      if b[i] == b[j] {
        var x := b[i];
        assert b == b[..i] + [x] + b[i + 1..j] + [x] + b[j + 1..];
        assert multiset(b)[x] >= 2;
        MultiplicityOneInNoDup(a, x);
      }
    }
  }

  /** In a list without repetitions every value occurs at most once. */
  lemma {:induction false} MultiplicityOneInNoDup<T>(s: seq<T>, x: T)
    requires NoDup(s)
    ensures multiset(s)[x] <= 1
    decreases |s|
  {
    if |s| > 0 {
      var init := s[..|s| - 1];
      assert NoDup(init);
      MultiplicityOneInNoDup(init, x);
      assert s == init + [s[|s| - 1]];
      if s[|s| - 1] == x {
        assert x !in init;
      }
    }
  }
}

=== FILE: severity.dfy ===
/** The keyword-based severity inferrers. Two rule orders exist in the code:
    the importer and the controller check "critical" first, the preprocessor
    checks "error" first. Both are ordered rule tables tried first-match. */
module Severity {
  import opened Options
  import opened Strings

  /** The four severities the summaries count. */
  datatype Level = Critical | Error | Warning | Info {
    /** The lower-case name stored in records and used as a summary key. */
    function Name(): (r: string)
      ensures r in Names
    {
      match this
      case Critical => "critical"
      case Error => "error"
      case Warning => "warning"
      case Info => "info"
    }
  }

  /** The four names, which are also the summary's breakdown keys. */
  const Names: seq<string> := ["critical", "error", "warning", "info"]

  /** Names identify levels. */
  lemma NameInjective(a: Level, b: Level)
    ensures a.Name() == b.Name() <==> a == b
  {
  }

  /** One rule: the level given to text mentioning any of the keywords. */
  datatype Rule = Rule(keywords: seq<string>, level: Level)

  /** The text contains at least one of the keywords. */
  predicate Mentions(text: string, keywords: seq<string>)
  {
    exists k :: 0 <= k < |keywords| && Contains(text, keywords[k])
  }

  /** The index of the first rule from `from` on whose keywords the text mentions. */
  function FirstRule(rules: seq<Rule>, text: string, from: nat): (r: Option<nat>)
    requires from <= |rules|
    ensures r.Some? ==> from <= r.value < |rules| && Mentions(text, rules[r.value].keywords)
    ensures r.Some? ==> forall j :: from <= j < r.value ==> !Mentions(text, rules[j].keywords)
    ensures r.None? ==> forall j :: from <= j < |rules| ==> !Mentions(text, rules[j].keywords)
    decreases |rules| - from
  {
    if from == |rules| then None
    else if Mentions(text, rules[from].keywords) then Some(from)
    else FirstRule(rules, text, from + 1)
  }

  /** The level of the first rule that fires, or `Info` when none does. */
  function Classify(rules: seq<Rule>, text: string): Level
  {
    match FirstRule(rules, text, 0)
    case Some(i) => rules[i].level
    case None => Info
  }

  /** The importer's and controller's order (LogFileImporter.php,
      LogAnalysisController.php): critical, error, warning, info. */
  const LineRules: seq<Rule> := [
    Rule(["critical", "fatal"], Critical),
    Rule(["error", "exception"], Error),
    Rule(["warning", "warn"], Warning),
    Rule(["info", "notice"], Info)
  ]

  /** The preprocessor's order (LogPreprocessor.php): error, warning, critical. */
  const MessageRules: seq<Rule> := [
    Rule(["error", "failed", "exception"], Error),
    Rule(["warning", "warn"], Warning),
    Rule(["critical", "fatal"], Critical)
  ]

  predicate SaysCritical(t: string) { Contains(t, "critical") || Contains(t, "fatal") }
  predicate SaysError(t: string) { Contains(t, "error") || Contains(t, "exception") }
  predicate SaysFailure(t: string) { SaysError(t) || Contains(t, "failed") }
  predicate SaysWarning(t: string) { Contains(t, "warning") || Contains(t, "warn") }

  /** A list of two or three keywords is mentioned iff one of them is contained. */
  lemma MentionsSmall(t: string, keywords: seq<string>)
    requires 2 <= |keywords| <= 3
    ensures Mentions(t, keywords) <==>
      Contains(t, keywords[0]) || Contains(t, keywords[1]) || (|keywords| == 3 && Contains(t, keywords[2]))
  {
    if Contains(t, keywords[0]) { assert Contains(t, keywords[0]); }
    if Contains(t, keywords[1]) { assert Contains(t, keywords[1]); }
    if |keywords| == 3 && Contains(t, keywords[2]) { assert Contains(t, keywords[2]); }
  }

  /** `detectSeverityFromLine` (importer) and `detectSeverity` (controller):
      the lower-cased line is checked for critical/fatal, then error/exception,
      then warning/warn; anything else, info/notice included, is info. */
  function FromLine(line: string): (l: Level)
    ensures var t := ToLower(line);
      && (l == Critical <==> SaysCritical(t))
      && (l == Error <==> !SaysCritical(t) && SaysError(t))
      && (l == Warning <==> !SaysCritical(t) && !SaysError(t) && SaysWarning(t))
      && (l == Info <==> !SaysCritical(t) && !SaysError(t) && !SaysWarning(t))
  {
    var t := ToLower(line);
    MentionsSmall(t, LineRules[0].keywords);
    MentionsSmall(t, LineRules[1].keywords);
    MentionsSmall(t, LineRules[2].keywords);
    MentionsSmall(t, LineRules[3].keywords);
    Classify(LineRules, t)
  }

  /** `LogPreprocessor::detectSeverity`: error/failed/exception first, then
      warning/warn, then critical/fatal, otherwise info. */
  function FromMessage(message: string): (l: Level)
    ensures var t := ToLower(message);
      && (l == Error <==> SaysFailure(t))
      && (l == Warning <==> !SaysFailure(t) && SaysWarning(t))
      && (l == Critical <==> !SaysFailure(t) && !SaysWarning(t) && SaysCritical(t))
      && (l == Info <==> !SaysFailure(t) && !SaysWarning(t) && !SaysCritical(t))
  {
    var t := ToLower(message);
    MentionsSmall(t, MessageRules[0].keywords);
    MentionsSmall(t, MessageRules[1].keywords);
    MentionsSmall(t, MessageRules[2].keywords);
    Classify(MessageRules, t)
  }

  /** The two orders disagree: a line naming both a critical and an error
      keyword is critical for the importer but an error for the preprocessor. */
  lemma {:induction false} OrdersDisagree()
    ensures FromLine("critical error") == Critical
    ensures FromMessage("critical error") == Error
  {
    var s := "critical error";
    assert ToLower(s) == s;
    assert OccursAt(s, "critical", 0);
    ContainsAt(s, "critical", 0);
    assert OccursAt(s, "error", 9);
    ContainsAt(s, "error", 9);
  }

  /** Exactly when the two inferrers disagree: a critical keyword together
      with a failure or warning keyword, or "failed" on a line that names no
      critical or error keyword (the importer has no "failed" rule). */
  lemma OrdersDisagreeExactly(text: string)
    ensures var t := ToLower(text);
      FromLine(text) != FromMessage(text) <==>
        (SaysCritical(t) && (SaysFailure(t) || SaysWarning(t)))
        || (!SaysCritical(t) && !SaysError(t) && Contains(t, "failed"))
  {
  }
}

=== FILE: strings.dfy ===
/** The PHP string functions the log pipeline relies on, on byte strings.
    A Dafny `string` stands for a PHP byte string: each `char` is one byte,
    so `strlen` is `|s|` and `substr` is a slice. */
module Strings {

  /** ASCII upper-case letter. */
  predicate IsUpper(c: char) { 'A' <= c <= 'Z' }

  /** `strtolower` on one byte (PHP 8 lower-cases ASCII letters only). */
  function LowerChar(c: char): char
  {
    if IsUpper(c) then (c as int + 32) as char else c
  }

  /** `strtolower`. */
  function ToLower(s: string): (r: string)
    ensures |r| == |s|
    ensures forall k :: 0 <= k < |s| ==> r[k] == LowerChar(s[k])
    decreases |s|
  {
    if |s| == 0 then "" else ToLower(s[..|s|-1]) + [LowerChar(s[|s|-1])]
  }

  /** `str_contains($haystack, $needle)`. */
  predicate Contains(haystack: string, needle: string)
    decreases |haystack|
  {
    needle <= haystack || (|haystack| > 0 && Contains(haystack[1..], needle))
  }

  /** `needle` occurs in `haystack` starting at offset `at`. */
  predicate OccursAt(haystack: string, needle: string, at: nat)
  {
    at + |needle| <= |haystack| && haystack[at..at + |needle|] == needle
  }

  /** An occurrence at a known offset makes `Contains` true. */
  lemma {:induction false} ContainsAt(haystack: string, needle: string, at: nat)
    requires OccursAt(haystack, needle, at)
    ensures Contains(haystack, needle)
    decreases at
  {
    if at == 0 {
      assert needle <= haystack;
    } else {
      assert haystack[1..][at - 1..at - 1 + |needle|] == needle;
      ContainsAt(haystack[1..], needle, at - 1);
    }
  }

  /** `Contains` means there is an offset where the needle occurs. */
  lemma {:induction false} ContainsWitness(haystack: string, needle: string)
    requires Contains(haystack, needle)
    ensures exists at: nat :: OccursAt(haystack, needle, at)
    decreases |haystack|
  {
    if needle <= haystack {
      assert OccursAt(haystack, needle, 0);
    } else {
      ContainsWitness(haystack[1..], needle);
      var at: nat :| OccursAt(haystack[1..], needle, at);
      assert haystack[at + 1..at + 1 + |needle|] == haystack[1..][at..at + |needle|];
      assert OccursAt(haystack, needle, at + 1);
    }
  }

  /** A needle found inside a slice of the haystack is found in the haystack. */
  lemma ContainsInSlice(haystack: string, lo: nat, hi: nat, needle: string)
    requires lo <= hi <= |haystack|
    requires Contains(haystack[lo..hi], needle)
    ensures Contains(haystack, needle)
  {
    ContainsWitness(haystack[lo..hi], needle);
    var at: nat :| OccursAt(haystack[lo..hi], needle, at);
    assert lo + at + |needle| <= hi;
    assert haystack[lo + at..lo + at + |needle|] == needle by {
      forall k | 0 <= k < |needle|
        ensures haystack[lo + at + k] == needle[k]
      {
        assert haystack[lo..hi][at..at + |needle|][k] == needle[k];
      }
    }
    ContainsAt(haystack, needle, lo + at);
  }

  /** The bytes PHP's `trim` removes by default: " \t\n\r\0\x0B". */
  predicate IsTrimChar(c: char)
  {
    c == ' ' || c == '\t' || c == '\n' || c == '\r' || c == '\0' || c == '\U{B}'
  }

  /** No trim byte at either end. */
  predicate IsTrimmed(s: string)
  {
    |s| == 0 || (!IsTrimChar(s[0]) && !IsTrimChar(s[|s| - 1]))
  }

  /** Number of leading trim bytes. */
  function TrimStart(s: string): (a: nat)
    ensures a <= |s|
    ensures forall k :: 0 <= k < a ==> IsTrimChar(s[k])
    ensures a == |s| || !IsTrimChar(s[a])
    decreases |s|
  {
    if |s| == 0 || !IsTrimChar(s[0]) then 0 else 1 + TrimStart(s[1..])
  }

  /** Length of `s` once trailing trim bytes are dropped. */
  function TrimEnd(s: string): (b: nat)
    ensures b <= |s|
    ensures forall k :: b <= k < |s| ==> IsTrimChar(s[k])
    ensures b == 0 || !IsTrimChar(s[b - 1])
    decreases |s|
  {
    if |s| == 0 || !IsTrimChar(s[|s| - 1]) then |s| else TrimEnd(s[..|s| - 1])
  }

  /** PHP `trim($s)`: the slice left once the trim bytes at both ends are gone. */
  function Trim(s: string): (r: string)
    ensures IsTrimmed(r)
    ensures TrimStart(s) + |r| <= |s| && r == s[TrimStart(s)..TrimStart(s) + |r|]
    ensures forall k :: TrimStart(s) + |r| <= k < |s| ==> IsTrimChar(s[k])
  {
    var a := TrimStart(s);
    var b := TrimEnd(s[a..]);
    assert b > 0 ==> !IsTrimChar(s[a..][0]);
    s[a..a + b]
  }

  /** The trimmed string occurs in the original. */
  lemma TrimContained(s: string)
    ensures Contains(s, Trim(s))
  {
    ContainsAt(s, Trim(s), TrimStart(s));
  }

  /** PHP `empty($s)` on a string: "" and "0" are falsy. */
  predicate IsPhpEmpty(s: string)
  {
    s == "" || s == "0"
  }

  /** PHP `substr($s, 0, $n)` for `$n >= 0`. */
  function Prefix(s: string, n: nat): (r: string)
    ensures |r| <= n
    ensures r <= s
    ensures |s| <= n ==> r == s
  {
    if |s| <= n then s else s[..n]
  }

  /** One decimal digit. */
  function DigitChar(d: nat): char
    requires d < 10
  {
    ('0' as int + d) as char
  }

  predicate IsDigit(c: char) { '0' <= c <= '9' }

  /** Decimal rendering of a natural number, as PHP's int-to-string does. */
  function NatToString(n: nat): (r: string)
    ensures |r| >= 1
    ensures forall k :: 0 <= k < |r| ==> IsDigit(r[k])
    decreases n
  {
    if n < 10 then [DigitChar(n)] else NatToString(n / 10) + [DigitChar(n % 10)]
  }

  /** `str_pad($s, $w, $c, STR_PAD_LEFT)`. */
  function PadLeft(s: string, width: nat, c: char): (r: string)
    ensures |r| == if |s| < width then width else |s|
    decreases width - |s|
  {
    if |s| >= width then s else PadLeft([c] + s, width, c)
  }

  /** PHP `explode($sep, $s)` for a one-byte separator: the pieces between
      separators, always at least one. */
  function Split(s: string, sep: char): (parts: seq<string>)
    ensures |parts| >= 1
    ensures forall k :: 0 <= k < |parts| ==> sep !in parts[k]
    decreases |s|
  {
    if |s| == 0 then [""]
    else
      var parts := Split(s[..|s| - 1], sep);
      var c := s[|s| - 1];
      if c == sep then parts + [""]
      else parts[..|parts| - 1] + [parts[|parts| - 1] + [c]]
  }

  /** PHP `implode($sep, $parts)`. */
  function Join(parts: seq<string>, sep: string): string
    decreases |parts|
  {
    if |parts| == 0 then ""
    else if |parts| == 1 then parts[0]
    else Join(parts[..|parts| - 1], sep) + sep + parts[|parts| - 1]
  }

  /** The joined text starts with the first piece. */
  lemma {:induction false} JoinFirst(parts: seq<string>, sep: string)
    requires |parts| >= 1
    ensures parts[0] <= Join(parts, sep)
    decreases |parts|
  {
    if |parts| > 1 {
      JoinFirst(parts[..|parts| - 1], sep);
    }
  }

  /** Joining one more piece. */
  lemma JoinSnoc(parts: seq<string>, x: string, sep: string)
    requires |parts| >= 1
    ensures Join(parts + [x], sep) == Join(parts, sep) + sep + x
  {
    assert (parts + [x])[..|parts|] == parts;
  }

  /** Extending the last piece extends the joined text. */
  lemma JoinExtendLast(parts: seq<string>, t: string, sep: string)
    requires |parts| >= 1
    ensures var k := |parts| - 1; Join(parts[..k] + [parts[k] + t], sep) == Join(parts, sep) + t
  {
    var k := |parts| - 1;
    if k > 0 {
      JoinSnoc(parts[..k], parts[k] + t, sep);
      JoinSnoc(parts[..k], parts[k], sep);
      assert parts[..k] + [parts[k]] == parts;
    } else {
      assert parts[..k] + [parts[k] + t] == [parts[0] + t];
    }
  }

  /** Joining the pieces of `explode` gives back the original text. */
  lemma {:induction false} JoinSplit(s: string, sep: char)
    ensures Join(Split(s, sep), [sep]) == s
    decreases |s|
  {
    if |s| > 0 {
      var init := s[..|s| - 1];
      var parts := Split(init, sep);
      JoinSplit(init, sep);
      var c := s[|s| - 1];
      if c == sep {
        JoinSnoc(parts, "", [sep]);
      } else {
        JoinExtendLast(parts, [c], [sep]);
      }
      assert init + [c] == s;
    }
  }

  /** Splitting a text whose last piece is extended by separator-free bytes. */
  lemma {:induction false} SplitAppendPlain(a: string, b: string, sep: char)
    requires sep !in b
    ensures var p := Split(a, sep);
            Split(a + b, sep) == p[..|p| - 1] + [p[|p| - 1] + b]
    decreases |b|
  {
    if |b| == 0 {
      assert a + b == a;
      var p := Split(a, sep);
      assert p[|p| - 1] + b == p[|p| - 1];
      assert p[..|p| - 1] + [p[|p| - 1]] == p;
    } else {
      var b' := b[..|b| - 1];
      var c := b[|b| - 1];
      SplitAppendPlain(a, b', sep);
      assert c in b;
      assert a + b == (a + b') + [c];
      SplitSnocPlain(a + b', c, sep);
      var p := Split(a, sep);
      var q := Split(a + b', sep);
      assert q[..|q| - 1] == p[..|p| - 1];
      assert b' + [c] == b;
      assert p[|p| - 1] + b' + [c] == p[|p| - 1] + b;
    }
  }

  /** A byte other than the separator extends the last piece. */
  lemma SplitSnocPlain(x: string, c: char, sep: char)
    requires c != sep
    ensures var q := Split(x, sep);
            Split(x + [c], sep) == q[..|q| - 1] + [q[|q| - 1] + [c]]
  {
    assert (x + [c])[..|x + [c]| - 1] == x;
  }

  /** `explode` undoes `implode` when no piece contains the separator. */
  lemma {:induction false} SplitJoin(parts: seq<string>, sep: char)
    requires |parts| >= 1
    requires forall k :: 0 <= k < |parts| ==> sep !in parts[k]
    ensures Split(Join(parts, [sep]), sep) == parts
    decreases |parts|
  {
    if |parts| == 1 {
      SplitAppendPlain("", parts[0], sep);
      assert "" + parts[0] == parts[0];
    } else {
      var init := parts[..|parts| - 1];
      var last := parts[|parts| - 1];
      SplitJoin(init, sep);
      var j := Join(init, [sep]);
      assert Split(j + [sep], sep) == Split(j, sep) + [""] by {
        assert (j + [sep])[..|j + [sep]| - 1] == j;
      }
      SplitAppendPlain(j + [sep], last, sep);
      var p := Split(j + [sep], sep);
      assert p[..|p| - 1] == init;
      assert p[|p| - 1] + last == last;
      assert j + [sep] + last == Join(parts, [sep]);
      assert init + [last] == parts;
    }
  }
}
